=== FILE: README.md ===
# Tanks server world logic in Dafny

A model of the deterministic core of the Tanks multiplayer server. The server owns one
world: a character-grid map, four object collections (tanks, missiles, punches, booms) and
the clients' controls. It advances the world one frame at a time and sends each client
the objects and, when the map has changed, the map.

What is modelled, one Dafny module per source file:

- `Geometry` (src/geometry.py): `Pos` arithmetic and `move`, square boxes with
  `centeredTo`, `intersects` and half-open containment. `PyInt` gives Python's floor `//`
  and `%`.
- `Objects` (src/obj.py): `ObjCollection`, a keyed store with lazy removal. Dict insertion
  order is kept as a key sequence. Iteration hides pending removals and `purge` applies
  them.
- `Maps` (src/gamemap.py): `GameMap.load` as a pure function of the file's lines, with the
  loop as written (`ParseLines`) proved equal to it; `getBlock`/`setBlock` on a cell.
- `GameData` (src/gamedata.py): entities, animation phases, construction, tank defaults,
  missile creation, the `__serde_fields__` manifests and the wire forms of every class.
- `Serde` (src/serde.py): `toDict`, `ofDict` and the JSON encoder's `default` hook, over a
  dynamic `Value` that stands for Python objects and JSON data.
- `ServerWorld`, `ServerTanks`, `ServerMissles`, `ServerClient` (src/server.py): collision
  probing and `moveObject`; spawning and the tank state clock; shooting; `moveMissles` with
  tank and brick damage; one-shot effect animation; `nextFrame`; the per-client
  send/receive rules and `handleGameControls`.
- `NameInput` (src/nameinput.py): the name box's `handleKeyDown`.

Modelling conventions:

- Python's mutation becomes a new `World` value.
- Python keys objects by `id()`. Here a fresh key is taken from the world's `nextKey`
  counter.
- server.py uses names that this revision of geometry.py and gamemap.py does not define:
  `Vector`, `Rect`, `Rect.union`, `GameMap.getBlockRect` and the symbol classes
  `CONCRETE`/`BRICKS`/`TOWER`/`WATER`/`GROUND`. They are handled as follows:
  - `Vector` and `Rect` are `Pos` and `Box`.
  - `union` is a function parameter.
  - The symbol classes are a `Terrain` parameter: `BRICKS` is a string of distinct symbols, strongest first, and `GROUND` is not among them.
  - `getBlockRect(cell)` is assumed to be the cell's 32-pixel square.
- server.py calls `getBlock`/`setBlock` with one position. The model reads it as x =
  column and y = row.
- `randint` is a `draw` parameter. The spawn index is `draw % len(candidates)`.
- Python exceptions that escape are an `Err` result. A missing collection key, a bad enum
  name and a missing `gameControls` are of this kind, and so is `int > None` when a map
  version is compared before one was recorded.

The model follows server.py where it differs from the game's described rules:

- A tower is in the blocking set, so a missile that hits it is destroyed (it does not
  bounce).
- A self-kill adds one to both the victim's `fails` and its `wins`.
- There is no map rotation and no time-to-live.

Two rules in server.py have defects (see Findings): `checkCollision` and the spawn filter
of `findFreeSpawn`. Each is modelled as written, next to the corrected rule. Movement,
spawning and the frame use the corrected rules. Lemmas state when the two versions agree.

## Model

| member | source | states |
|---|---|---|
| PyInt.FloorDiv | src/geometry.py:45-48 | the quotient rounds toward minus infinity: `q*b <= a < q*b + b` for a positive divisor, mirrored for a negative one |
| PyInt.Mod | src/gamedata.py:34 | the remainder completes the floor quotient (`a == q*b + r`) and takes the divisor's sign |
| Geometry.AddSubInverse | src/geometry.py:30-38 | subtracting the offset that was added gives the original point back |
| Geometry.ScaleByOne | src/geometry.py:40-48 | scaling by 1 and floor-dividing by 1 leave a point unchanged |
| Geometry.MoveIsScaledUnit | src/geometry.py:19-28 | `move(dir, k)` is `k` unit steps along the heading, with UP decreasing y |
| Geometry.MoveChangesOneCoordinate | src/geometry.py:19-28 | a move changes exactly one coordinate, by exactly the offset: x for LEFT/RIGHT, y for UP/DOWN |
| Geometry.MoveBack | src/geometry.py:19-28 | moving back the same distance in the opposite heading restores the point |
| Geometry.CenteredTo | src/geometry.py:53-56 | the centred box has the requested size |
| Geometry.CenteredToInside | src/geometry.py:53-56 | a centred box no larger than its container lies inside it |
| Geometry.CenteredToMargins | src/geometry.py:53-56 | the left and top margins are equal, and the right margin is at most one pixel more than the left |
| Geometry.IntersectsSymmetric | src/geometry.py:58-60 | `a.intersects(b)` holds exactly when `b.intersects(a)` holds |
| Geometry.EdgeContactIsNotIntersection | src/geometry.py:58-60 | boxes that only touch along an edge do not intersect, in either order |
| Geometry.ContainsHalfOpen | src/geometry.py:62-65 | a non-empty box contains its corner and excludes its far right and far bottom edges |
| Geometry.IntersectsIffSharedPoint | src/geometry.py:58-65 | two non-empty boxes intersect exactly when some point lies in both |
| Geometry.DivBrackets | src/geometry.py:45-48 | `(p // k) * k <= p < (p // k) * k + k` per coordinate, negatives included |
| Geometry.PointInItsCell | src/geometry.py:45-48 | a point lies in the k-sized cell that `p // k` names |
| Objects.Without | src/obj.py:53-54 | filtering out removed keys keeps exactly the other keys, never lengthens the order and keeps it duplicate-free |
| Objects.Empty | src/obj.py:19-21 | a new collection stores nothing and has nothing pending removal |
| Objects.Add | src/obj.py:36-37 | `get(key)` returns the added object, other keys are unchanged, pending removals stay, and a new key is visited last |
| Objects.RemoveNow | src/obj.py:40-41 | eager removal deletes only that key, keeps `removed`, and does nothing for an absent key |
| Objects.RemoveLazy | src/obj.py:42-43 | lazy removal changes nothing but `removed`, so `get` still returns the object |
| Objects.Remove | src/obj.py:39-43 | both removal modes keep the collection well formed |
| Objects.Purge | src/obj.py:45-48 | after purge nothing is pending, the stored keys are the old keys minus the removed ones, and the visit order is unchanged |
| Objects.Clear | src/obj.py:50-51 | clear drops every stored object and keeps the pending-removal marks |
| Objects.ClearThenAdd | src/obj.py:36-54 | after clear nothing is iterated, and a key added again is iterated exactly when it was not pending removal |
| Objects.ClearThenPurge | src/obj.py:45-51 | a purge after clear leaves a fresh, empty collection |
| Objects.OfList | src/obj.py:23-28 | `ofList` stores exactly the listed keys with nothing pending removal |
| Objects.KeysOf | src/obj.py:26 | the keys of a list are exactly the keys some item carries |
| Objects.VisibleKeysSpec | src/obj.py:53-54 | iteration visits a key exactly when it is stored and not pending removal |
| Objects.ToListCount | src/obj.py:30-31 | `toList` has one element per stored key that is not pending removal |
| Objects.ToListMembers | src/obj.py:53-54 | iteration yields exactly the stored objects whose key is not pending removal |
| Objects.PurgeIdempotent | src/obj.py:45-48 | purging twice is purging once |
| Objects.LazyRemoveThenPurge | src/obj.py:33-48 | a lazily removed object is hidden from iteration but still found by `get` until the purge, which drops it and nothing live |
| Objects.AddKeepsPendingRemoval | src/obj.py:36-54 | re-adding a key that is pending removal stores the object, keeps it hidden, and the next purge drops it |
| Objects.OfListLastWins | src/obj.py:26 | when a key is listed twice, `ofList` keeps the last object listed under it |
| Objects.OfListOrder | src/obj.py:26 | `ofList` of distinct keys is visited in list order |
| Objects.ApplyKeys | src/obj.py:36-43 | after adds and lazy removals, the stored keys gain exactly the added keys and `removed` gains exactly the lazily removed ones |
| Objects.PurgeAfterOps | src/obj.py:36-48 | any run of adds and lazy removals on a new collection, then a purge, keeps exactly the added keys never lazily removed |
| Serde.ToDict | src/serde.py:43-54 | `toDict` emits exactly the manifest fields set on the object, and nested objects by their own `toDict` |
| Serde.Encode | src/serde.py:56-65 | the encoder's output is JSON data, and it is `null` exactly for `None` |
| Serde.OfDict | src/serde.py:10-20 | `ofDict` succeeds exactly when every manifest field of the input converts; it sets exactly the manifest fields the input has, `None` unconverted and others through their converter |
| Serde.GetAttr | src/serde.py:46-49 | attribute lookup takes the instance attribute, else the class default, else fails |
| Serde.FullObjectToDict | src/serde.py:43-54 | on an object that sets every manifest field, `getattr` never reaches a class default, and `toDict` and the encoder emit exactly the manifest fields |
| Serde.EncodeJson | src/serde.py:56-65 | JSON data is written unchanged |
| Serde.EncodeViaToDict | src/serde.py:57-62 | writing an object is writing its `toDict()`; the encoder's hook and `toDict`'s recursion agree |
| Serde.EnumRoundTrip | src/serde.py:63-64 | an enum member is written as its name, which the enum converter maps back exactly when the name is a member |
| Serde.RoundTrip | src/serde.py:10-54 | decoding an encoded object gives back its manifest fields and those of its nested objects, and nothing else |
| Serde.FieldRoundTrip | src/serde.py:15-18 | a `None`, JSON, enum, point or nested field value decodes to its encoded value's projection |
| Serde.ProjectDropsExtras | src/serde.py:13-14 | attributes outside the manifest are not carried |
| Serde.MissingFieldUsesDefault | src/serde.py:11-20 | a manifest field missing from the input stays unset and reads back as the class default |
| Maps.Find | src/gamemap.py:31 | `find` returns the first index of the character, or -1 exactly when it is absent |
| Maps.ParseLine | src/gamemap.py:27-35 | the loop body for one row: `=` becomes `4`, every `*` becomes a space and is recorded as a spawn, left to right |
| Maps.ParseLines | src/gamemap.py:19-43 | the loading loop as written builds exactly the map `Load` describes |
| Maps.StarsSpec | src/gamemap.py:30-35 | one spawn per `*` of a row, each at a `*`, strictly left to right |
| Maps.AllStarsSpec | src/gamemap.py:26-41 | one spawn per `*` of the file, at (column, row), in row-major order |
| Maps.LoadHasNoMarkers | src/gamemap.py:28-35 | no loaded row contains `*` or `=` |
| Maps.LoadKeepsCharacters | src/gamemap.py:27-37 | rows keep their lengths and every other character is unchanged |
| Maps.LoadSpawns | src/gamemap.py:30-35 | every spawn marks a `*` of the file on a cell that is now ground, and every `*` gives a spawn, in row-major order |
| Maps.LoadSize | src/gamemap.py:20-43 | size is (longest row, number of rows), (0, 0) for no rows, and the version starts at 0 |
| Maps.MaxWidthSpec | src/gamemap.py:39-40 | the tracked width bounds every row and some row attains it |
| Maps.SetBlock | src/gamemap.py:48-50 | the cell then holds the block's first character; every other cell, every row length, the size, the spawns and the version are unchanged |
| GameData.NewGameObj | src/gamedata.py:20-28 | an explicit position wins, else the object is centred, else it is at the origin; the phase starts at 0 |
| GameData.CenteredConstruction | src/gamedata.py:20-31 | an object built centred on a box has its class's size and lies inside the box when it fits |
| GameData.NextPhase | src/gamedata.py:33-34 | the phase tick stays within one period; key and position are unchanged |
| GameData.NextPhaseWraps | src/gamedata.py:33-34 | within a period the tick counts up by one and wraps to 0 at the period's end |
| GameData.PhaseCounts | src/gamedata.py:33-34 | from 0, the n-th call of `nextPhase` in the first period leaves the tick at n |
| GameData.PhaseCycle | src/gamedata.py:101-109 | the tick first returns to 0 after exactly one period: 8 calls for a punch and 32 for a boom |
| GameData.GetPhase | src/gamedata.py:36-37 | the frame lies in `[0, PHASE_COUNT)`, and is 0 for a class without phases |
| GameData.NewTank | src/gamedata.py:59-73 | a new tank starts in START with health 4, no score, zero clocks and no name |
| GameData.NewMissle | src/gamedata.py:84-99 | a missile takes its tank's heading and key, and is lethal exactly when the tank fights |
| GameData.MissleIsFlush | src/gamedata.py:84-96 | a new missile does not overlap its tank but would one pixel back, and it is centred across the heading |
| GameData.EnumNamesRoundTrip | src/gamedata.py:50-53 | every direction and tank state is found again by its member name |
| GameData.TankFieldsRoundTrip | src/gamedata.py:75 | every field of the tank manifest survives the wire |
| GameData.TankOfWire | src/gamedata.py:64-75 | a tank's wire object reads back as the tank with its phase tick and clocks at the class defaults |
| GameData.TankRoundTrip | src/gamedata.py:64-75 | a tank that is encoded and decoded reads back as the same tank; only the unsent phase tick and clocks are at their defaults |
| GameData.TankTrip | src/gamedata.py:75 | the tank manifest carries key, position, heading, name, state, health and score, and not the phase tick or the clocks |
| GameData.MissleWireFields | src/gamedata.py:44 | a missile is sent with exactly key, position, phase tick and heading; owner and lethality stay on the server |
| GameData.MissleFieldsRoundTrip | src/gamedata.py:44 | every field of the missile manifest survives the wire |
| GameData.EffectFieldsRoundTrip | src/gamedata.py:18 | a punch or boom crosses the wire whole |
| GameData.ValuesOf | src/obj.py:30-31 | a collection's value list has one entry per visible object |
| GameData.GameObjsToDict | src/gamedata.py:134-140 | `GameObjs.toDict` yields exactly the four collection keys, each a list |
| GameData.DecodeItems | src/obj.py:26 | the list decodes exactly when every item passes `ofDict` and carries an integer `key`; then item i is its key paired with its decoded object |
| GameData.OfListValue | src/obj.py:24-28 | a decoded collection is well formed with nothing pending removal, and an empty list gives an empty collection |
| GameData.GameObjsOfDict | src/gamedata.py:125-132 | `GameObjs.ofDict` succeeds only when all four collection keys are present |
| GameData.DecodeItemsRoundTrip | src/obj.py:26 | decoding an encoded list gives each item's manifest part under its own key, in order |
| GameData.CollectionRoundTrip | src/obj.py:24-31 | a collection sent as a list and rebuilt with `ofList` has the same visible keys in the same order, each holding that object's manifest part |
| GameData.TypedCollectionRoundTrip | src/obj.py:24-31 | the same, for a collection of typed objects given with their wire form |
| GameData.TanksRoundTrip | src/gamedata.py:128 | the rebuilt tank collection has the server's visible keys in order, each holding that tank's wire form |
| GameData.MisslesRoundTrip | src/gamedata.py:129 | the rebuilt missile collection has the server's visible keys in order, each holding the missile's manifest part |
| GameData.EffectsRoundTrip | src/gamedata.py:130-131 | the rebuilt punch and boom collections equal the server's visible effects |
| GameData.EncodeGameObjs | src/gamedata.py:134-140 | the encoded world holds each collection's encoded list under its own name |
| GameData.GameObjsRoundTrip | src/gamedata.py:125-140 | a client rebuilds all four collections with the server's visible keys, order and manifest fields |
| GameData.GameObjsTanksReadBack | src/gamedata.py:128 | every tank a client rebuilds reads back as the server tank without its server-only counters |
| GameData.GameControlsOf | src/gamedata.py:142-146 | a decoded `GameControls` without attributes reads as the class defaults; it decodes exactly when `dir` is absent, `None` or a `Direction` member; `fire` is the truth value of the attribute, false when absent; `dir` is `None` exactly when absent or `None`, and otherwise the named direction |
| GameData.ClientDataOf | src/gamedata.py:157-164 | a decoded `ClientData` without `gameControls` fails; without `playerName` it reads the name as `None`; a `None` attribute reads as absent, a string name and a `GameControls` object are read as they are, and any other name fails; it decodes exactly when the name is `None` or a string and the controls are `None` or a `GameControls` object that decodes |
| GameData.ClientDataFieldsRoundTrip | src/gamedata.py:161 | every field of a client's data survives the wire |
| GameData.GameControlsOfValue | src/gamedata.py:142-146 | controls read back as the controls they were built from |
| GameData.ClientDataOfValue | src/gamedata.py:157-164 | client data reads back as the data it was built from |
| GameData.ClientDataRoundTrip | src/gamedata.py:157-164 | what a client sends decodes on the server to the same name and controls |
| GameData.TankValueIsFull | src/gamedata.py:75 | a tank's value sets every field of the tank manifest |
| GameData.MissleValueIsFull | src/gamedata.py:44 | a missile's value sets every field of its manifest |
| GameData.EffectValueIsFull | src/gamedata.py:18 | punch, boom and point values set every field of their manifests |
| GameData.ClientValuesAreFull | src/gamedata.py:146-161 | controls and client-data values set every field of their manifests |
| GameData.ClientDataMissingControls | src/gamedata.py:157-164 | an empty message fails, for lack of the `gameControls` attribute; an explicit `null` gives no name and no controls |
| ServerWorld.GetObjectAtPos | src/server.py:213-217 | the result is the first visible object, in iteration order, whose box contains the point, and there is none exactly when no visible object contains it |
| ServerWorld.GetObjectInBox | src/server.py:219-223 | the result is the first visible object, in iteration order, with another key that overlaps the box, and there is none exactly when no such object exists |
| ServerWorld.CheckCollisionAsWritten | src/server.py:201-211 | as written: a blocking cell is reported exactly when its block blocks; otherwise a tank is reported exactly when the first visible tank containing the point is not dead, and it is that tank |
| ServerWorld.TankAtPos | src/server.py:213-216 | over the tanks, `getObjectAtPos` returns the first tank at the point whenever one exists |
| ServerWorld.CollisionRulesAgree | src/server.py:201-211 | the as-written and the corrected check give the same answer unless a dead tank at the point comes before a live one |
| ServerWorld.CheckCollision | src/server.py:201-211 | as intended: a blocking cell is reported first; otherwise the first live tank containing the point; nothing exactly when the cell is open and no live tank holds the point |
| ServerWorld.DeadTankHidesLiveTank | src/server.py:207-209 | a dead tank listed before a live one at the same point makes the as-written check miss the live tank |
| ServerWorld.Advance | src/server.py:167-199 | with the corrected collision rule: the object advances `VELOCITY` along its heading exactly when neither leading corner collides; otherwise the first corner's collision is reported, or the second's when the first is clear |
| ServerWorld.AdvanceAsWritten | src/server.py:167-199 | the same step with `checkCollision` as written at both corners, reporting the first corner's collision, or the second's when the first is clear |
| ServerWorld.AdvanceRulesAgree | src/server.py:192-199 | the two steps are equal unless a dead tank comes before a live one at a corner |
| ServerWorld.MoveObject | src/server.py:162-199 | a requested direction other than the heading only turns the object; otherwise it takes the step |
| ServerWorld.ProbesLead | src/server.py:178-190 | both probe points lie in the moved box and outside the box before the step |
| ServerWorld.ProbesSpanLeadingEdge | src/server.py:178-190 | the probes are the two ends of the moved box's leading edge |
| ServerWorld.OwnBoxNeverBlocks | src/server.py:192-194 | a tank's step is never blocked by the tank itself |
| ServerTanks.PerTankAsWritten | src/server.py:152-154 | the inner loop lists the spawn at most once per tank, and only the spawn |
| ServerTanks.CandidatesAsWritten | src/server.py:149-154 | the candidate list as written holds only map spawns |
| ServerTanks.FindFreeSpawnAsWritten | src/server.py:148-160 | as written: the drawn point is a spawn of the map |
| ServerTanks.FreeSpawns | src/server.py:149-154 | the free spawns are exactly the map spawns that no live tank overlaps |
| ServerTanks.FindFreeSpawn | src/server.py:148-160 | as intended: the drawn point is a spawn, and a free one whenever any spawn is free |
| ServerTanks.OccupiedSpawnDrawn | src/server.py:152-154 | with two live tanks, the as-written rule can draw a spawn a tank stands on, which the intended rule avoids |
| ServerTanks.OneTankRulesAgree | src/server.py:150-154 | with one tank the written and intended rules list the same spawns |
| ServerTanks.NoTanksAllFree | src/server.py:149-157 | with no tanks every spawn is free, while the written list is empty and falls back to all spawns |
| ServerTanks.FewTanksSameDraw | src/server.py:148-160 | with at most one tank both rules draw the same spawn |
| ServerTanks.SpawnTank | src/server.py:260-270 | only the spawned tank changes; it is reset to START, facing up, with zero clocks and full health, centred on a map spawn |
| ServerTanks.RespawnPlacement | src/server.py:262-263 | a respawned tank stands 5 pixels in from its cell's corner, wholly inside the cell, and meets the health invariant |
| ServerTanks.TankTick | src/server.py:249-258 | the missile clock advances by one; a starting tank turns to fighting once its start period has passed, with its state clock reset to 0, and otherwise the state clock advances by one; position, heading, health and score are unchanged |
| ServerTanks.HandleTank | src/server.py:248-258 | one loop pass changes only that tank: a due respawn, or its clocks |
| ServerTanks.HandleTanksLoop | src/server.py:248-258 | each listed tank is handled once and unlisted tanks are unchanged |
| ServerTanks.HandleTanks | src/server.py:247-258 | every visible tank is handled once; the key set, the visit order and the tanks pending removal are unchanged |
| ServerTanks.HandleTanksKeepsInv | src/server.py:247-270 | the tank frame keeps health tied to state: 4 while starting, 1 to 4 while fighting, 0 when dead |
| ServerTanks.HandleTanksKeepsKeys | src/server.py:247-270 | the tank frame keeps every tank under its own key |
| ServerTanks.StartPeriod | src/server.py:255-258 | a tank spawned with a zero clock stays starting for 120 frames and fights from the next, its clock reset |
| ServerTanks.DeadPeriod | src/server.py:252-254 | a tank killed with a zero clock stays dead for 180 frames and is due to respawn exactly at the last of them |
| ServerTanks.ShootMissle | src/server.py:225-228 | a tank that is not dead and whose missile clock exceeds 30 adds one missile under a fresh key and resets its clock; otherwise nothing changes |
| ServerTanks.FireRate | src/server.py:226 | after a shot a fighting tank can fire again exactly when more than 30 frames have passed |
| ServerTanks.ShootKeepsInvariants | src/server.py:225-228 | shooting keeps the keying and the health invariant |
| ServerMissles.AddPunch | src/server.py:280 | a punch centred on the given box is added under a fresh key; nothing else changes |
| ServerMissles.AddBoom | src/server.py:293 | a boom centred on the given box is added under a fresh key; nothing else changes |
| ServerMissles.HitTank | src/server.py:288-300 | a fighting tank loses one health; at 0 it dies with a boom and one more fail, and the shooter, if present and even if it is the victim, gets one more win; a tank that is not fighting is unaffected |
| ServerMissles.KillTank | src/server.py:292-296 | the lethal hit adds a boom centred on the victim under the next key, on top of the death and win of `Killed`, and keeps the keying |
| ServerMissles.Killed | src/server.py:292-300 | after a lethal hit only the tank collection changes, keeping its keys, order and removal record, and the keying |
| ServerMissles.KilledTanks | src/server.py:292-300 | the victim loses its last health point, is dead with its clock reset and one more fail; the shooter (which may be the victim) gains one win; every other tank is unchanged |
| ServerMissles.CreditWin | src/server.py:298-300 | the shooter, when present, gains exactly one win and nothing else changes; a missing shooter changes nothing |
| ServerMissles.HitTankKeepsInvariants | src/server.py:288-300 | a hit keeps health tied to state, and the keying |
| ServerMissles.HitBlock | src/server.py:302-313 | a brick wears to the next brick symbol, or to ground with a boom over the cell after the last, and the version rises by 1; other blocks and other cells are unchanged |
| ServerMissles.CellBoomCoversCell | src/server.py:308 | the boom over a crumbled cell covers exactly that cell |
| ServerMissles.BrickWear | src/server.py:304-313 | an intact brick takes exactly as many lethal hits as there are brick symbols to become ground, and each hit raises the version by 1 |
| ServerMissles.BrickWearStep | src/server.py:304-313 | one hit moves a brick one symbol down the list and raises the version by 1 |
| ServerMissles.FindBrick | src/server.py:305 | the index `find` reports for a brick symbol is its position in the list |
| ServerMissles.Stepped | src/server.py:167-176 | a missile step moves 6 pixels along the heading and changes nothing else |
| ServerMissles.MeetMissle | src/server.py:276-282 | a missile that overlaps another live missile after its step removes both and adds exactly one punch centred on their union under the next key, which rises by 1; otherwise nothing changes; booms, tanks and the map never change |
| ServerMissles.MissleBlocked | src/server.py:284-313 | a blocked missile is removed and leaves exactly one punch over its box under the next key; a harmless one changes neither tanks, map nor booms; a lethal one hitting a tank changes the tanks as `HitTank` does and the map not at all; a lethal one hitting a cell changes the map as `HitBlock` does and the tanks not at all |
| ServerMissles.HitTankLocal | src/server.py:288-300 | the tanks after a hit depend only on the tanks before it, and so do the booms and next key when they agree |
| ServerMissles.KilledLocal | src/server.py:292-300 | the tanks after a lethal hit depend only on the tanks before it |
| ServerMissles.HitBlockLocal | src/server.py:302-313 | the map after a cell hit depends only on the map before it, and so do the booms and next key when they agree |
| ServerMissles.StepRemovals | src/server.py:274-287 | the missiles one pass removes are none for an already-removed missile, the missile itself when blocked, and the missile and the one it meets when it steps into another |
| ServerMissles.MissleStep | src/server.py:274-313 | one pass changes no other missile; the missile has stepped unless blocked, where it stays; the removed set grows by exactly `StepRemovals` |
| ServerMissles.LiveMissleStep | src/server.py:275-313 | a live missile's pass grows the removed set by exactly `StepRemovals` |
| ServerMissles.MissleAdvance | src/server.py:276-282 | after a clear step only the missile moves, unless it meets another: then both are removed and one punch over their union is added under the next key |
| ServerMissles.MissleStepCases | src/server.py:275-287 | a live missile's pass is the blocked rule when its step collides and the advance rule otherwise |
| ServerMissles.MissleStepKeepsInvariants | src/server.py:274-313 | one missile pass keeps the health invariant and the keying |
| ServerMissles.MissleLoop | src/server.py:274-313 | every listed missile still live at the end has taken exactly one step; unlisted missiles are untouched; a missile is removed at the end exactly when it was before or some step removed it; the invariants hold |
| ServerMissles.MoveMissles | src/server.py:273-315 | after the pass nothing is pending removal; a missile survives exactly when it was live and no step of the pass removed it, and it is then exactly one step further |
| ServerMissles.VisibleKeysCanProbe | src/server.py:274 | the pass visits each live missile once, and each can take its step |
| ServerMissles.MeetingPair | src/server.py:276-282 | with two live missiles where the first steps into the second, the pass removes both and adds one punch over their union under the next key |
| ServerMissles.PairLoop | src/server.py:274-282 | in that case the pass is the first missile's advance alone |
| ServerMissles.LoopOverMarked | src/server.py:274-275 | a pass over only a missile already marked for removal changes nothing |
| ServerMissles.AnimateOne | src/server.py:319-321 | an object pending removal is skipped; otherwise only it advances its phase, and it is marked exactly when one-shot and its phase wrapped to 0 |
| ServerMissles.AnimateLoop | src/server.py:318-321 | every live object advances its phase once; with one-shot, exactly the objects whose phase wraps to 0 are marked for removal |
| ServerMissles.Animate | src/server.py:317-322 | the survivors are exactly the live objects whose phase did not wrap (all live objects when not one-shot), each one phase on |
| ServerMissles.EffectAlive | src/server.py:317-322 | an effect created at phase 0 is still present at frame n, with phase n, for n below its period |
| ServerMissles.EffectLifetime | src/server.py:317-322 | a one-shot effect lives through exactly one period of frames and is gone at the end of it |
| ServerMissles.OneShotFrame | src/server.py:319-321 | one frame either advances an effect's phase by one or, at the period's end, removes it |
| ServerMissles.LoopingKeepsAll | src/server.py:317-322 | looping animation keeps every live object |
| ServerMissles.NextFrame | src/server.py:237-245 | a frame keeps every collection well formed and the map's shape, keeps the set of tanks, leaves nothing pending removal among missiles and effects, and each remaining missile was live and is one step on |
| ServerMissles.NextFrameComposes | src/server.py:237-245 | a frame is the tank pass, then the missile pass, then the one-shot animation of punches and booms: tanks, missiles, map and next key are the missile pass's |
| ServerMissles.AnimateEffects | src/server.py:243-244 | punches and booms are animated one-shot; tanks, missiles, the map and the key allocator are untouched, and the invariants hold |
| ServerMissles.NextFrameKeepsInvariants | src/server.py:237-245 | a whole frame keeps health tied to state and every object under its own key |
| ServerClient.NewClient | src/server.py:24-29 | a new client has a default tank, no recorded map version, no controls, and is connected |
| ServerClient.GameMapWire | src/gamemap.py:12 | a map is sent as its size and rows only; spawns and version stay on the server |
| ServerClient.GameMapRoundTrip | src/gamemap.py:4-12 | a receiver rebuilds a map object holding the size and the rows |
| ServerClient.SendGameMap | src/server.py:31-33 | the map goes out and its version is recorded |
| ServerClient.SendServerData | src/server.py:35-41 | the objects always go out; the map goes too exactly when its version is newer than the recorded one, which is then updated; with no recorded version the comparison raises |
| ServerClient.MapSentOncePerVersion | src/server.py:35-41 | after one update the map is not sent again until its version rises |
| ServerClient.RecvClientData | src/server.py:43-53 | no data marks the client disconnected; a given name is set on its tank in the world, and given controls replace the held ones; anything else is unchanged |
| ServerClient.RecvWhatWasSent | src/server.py:43-53 | whatever a client sends, the server takes the name and the controls as sent |
| ServerClient.DriveTank | src/server.py:142-143 | the held direction turns the tank or moves it one pixel (water blocks); a blocked tank stays; no other tank changes |
| ServerClient.HandleGameControls | src/server.py:141-146 | controls touch only the player's own tank and, when firing, the missiles; a tank not in the world changes nothing |
| ServerClient.ControlsDriveAndFire | src/server.py:141-146 | the own tank ends as `DriveTank` leaves it, with its missile clock reset exactly when it fires; a missile from that tank is added under the next key exactly when fire is set and the tank can fire, and otherwise missiles and the next key are unchanged |
| ServerClient.ControlsKeepVitals | src/server.py:141-146 | driving and firing never change a tank's state, health, score, name or start clock; only firing resets the missile clock |
| ServerClient.ControlsKeepInvariants | src/server.py:141-146 | handling controls keeps the health invariant and the keying |
| NameInput.UpperChar | src/nameinput.py:36 | a lower-case ASCII letter maps to its capital; any other character is unchanged |
| NameInput.Upper | src/nameinput.py:36 | upper-casing keeps the length and maps every character |
| NameInput.HandleKeyDown | src/nameinput.py:33-43 | an admitted text is appended upper-cased while the name is shorter than 10; Backspace drops the last character; Return finishes; other keys do nothing; `finished` is never cleared |
| NameInput.KeyKeepsNameClean | src/nameinput.py:34-36 | typing keeps a clean upper-case name clean, and with one character per key the name never exceeds 10 characters |
| NameInput.BackspaceUndoesTyping | src/nameinput.py:39-41 | Backspace after a typed character restores the name |
| NameInput.ReturnFinishes | src/nameinput.py:42-43 | Return finishes the entry and leaves the name unchanged |

## Left out

- Sockets, threads and the lock (`run`, `waitConn`, `handleConn`, `runGame` and its sleep) are concurrency and I/O. The model steps the world one call at a time.
- The join and leave protocol of `handleConn` (adding a named client's tank and removing it on disconnect) is not modelled. It is connection handling.
- JSON text and UTF-8 (src/bytecodec.py) are library code. The encoder's output is a JSON-data `Value`. A receive that yields no data, which `ofBytes` turns into `None`, is an absent payload.
- File reading in `GameMap.load` is I/O. `Load` takes the lines with their newlines already stripped.
- `get_type_hints` reflection and the converter cache of `getCvts` are not modelled. The converter table of each class is given as data.
- Python's negative indexing and `IndexError` in `getBlock`/`setBlock` are not modelled. Map access carries an in-bounds precondition, and so do the steps that probe the map (`ProbesInBounds`, `MisslesCanProbe`).
- The map symbol classes, `getBlockRect` and `Rect.union` are not defined in this revision of the source. Their treatment is described above.
- `randint` is replaced by the `draw` parameter.
- `HandleGameControls`: a client whose tank is not in the world gets no change to the world, and its tank is left as it is. server.py drives that detached tank (src/server.py:141-143); those moves are not modelled. They matter in two places, both left out. On joining, the tank is added at its driven position (src/server.py:122-124), and `findFreeSpawn` reads that position before `spawnTank` resets it (src/server.py:152-153). Driving it off the map raises `IndexError` in `getBlock` (src/server.py:203). It cannot fire: its missile clock starts at 0 and only `handleTanks` advances it (src/server.py:226, 250).
- ServerWorld.Advance: uses the corrected `CheckCollision`, not `checkCollision` as written (src/server.py:207-209). It blocks at a live tank that a dead tank ahead of it in iteration order would hide in server.py. `AdvanceAsWritten` is the written step, and `AdvanceRulesAgree` states that the two agree whenever no dead tank comes before a live one at a corner. `MoveObject`, `DriveTank`, `MissleStep`, `MoveMissles` and `NextFrame` move through `Advance`, so they inherit the corrected rule.
- ServerTanks.SpawnTank: draws from the corrected `FindFreeSpawn`, not `FindFreeSpawnAsWritten` (src/server.py:152-154). It never places a tank on an occupied spawn while a free one exists, which server.py can do once two or more tanks are in play. `FewTanksSameDraw` states that the two draws are equal with at most one tank. `HandleTank`, `HandleTanks` and `NextFrame` inherit this.
- Serde.Value: has no floating-point case, so a JSON number with a fraction or an exponent, which `json.loads` reads as a float (src/bytecodec.py:15), cannot be received. Its effects are left out with it. A float `fire` such as `0.5` is truthy in `gameControls.fire` (src/server.py:145), and a float `dir` fails the `Direction` converter, `Enum.__getitem__`, with a `KeyError` (src/serde.py:34-35). Client data in the model carries only the integer, string, boolean, `None` and enum values the client sends.
- Serde.ToDict: reads only the attributes set on the instance. The class-attribute fallback of `getattr` (src/serde.py:47) is left out, because every value the model encodes sets each manifest field itself (`TankValueIsFull`, `MissleValueIsFull`, `EffectValueIsFull`, `ClientValuesAreFull`). On such values `FullObjectToDict` shows that the fallback changes nothing. A class default that `toDict` would reach, such as `ServerData.gameMap = None`, is written into the value explicitly.
- Serde.Encode: the same instance-only reading as `Serde.ToDict`, for the same reason.
- GameData.DecodeItems: an item whose `key` is not an integer is an error here, while `ofList` (src/obj.py:26) keys the dict by any hashable value. Collections are keyed by `int` throughout the model.
- GameData.ClientDataOf: a `playerName` that is neither `None` nor a string is an error here, while `recvClientData` (src/server.py:49-50) stores any non-`None` value as the tank's name. Tank names are strings in the model.
- Removal works by the stored key. This equals `obj.key` for every object, which `WellKeyed` states.
- NameInput.UpperChar: models ASCII only. Python's `upper()` also maps non-ASCII letters.
- NameInput.HandleKeyDown: `\w` is taken as ASCII letters, digits and `_`. Python's pattern also admits other Unicode word characters.
- The pygame client, `NameInput.draw`, images, fonts, colours and configuration are presentation and configuration. They are not modelled.

## Findings

| source | as written | input that shows it | evidently intended | confidence | as-written member | corrected member |
|---|---|---|---|---|---|---|
| src/server.py:207-209 | `checkCollision` takes the first tank whose box holds the point and then ignores it if it is dead | a dead tank and a live tank at the same point, the dead one earlier in the collection: no collision is reported | skip dead tanks and report any live tank at the point | not executed | ServerWorld.CheckCollisionAsWritten, ServerWorld.DeadTankHidesLiveTank | ServerWorld.CheckCollision |
| src/server.py:152-154 | `findFreeSpawn` lists a spawn once for every tank that is dead or off it, so a spawn counts as free if ANY tank is off it | two live tanks, one on the first spawn and one elsewhere: the occupied spawn is a candidate and draw 0 picks it | a spawn is free only when EVERY tank is dead or off it | not executed | ServerTanks.FindFreeSpawnAsWritten, ServerTanks.OccupiedSpawnDrawn | ServerTanks.FindFreeSpawn |

=== FILE: gamedata.dfy ===
/** Game entities: the shared positional/animation part, tanks, missiles and the two effect
    kinds, their construction rules and phase counters, and their wire manifests. */
module GameData {
  import opened Wrappers
  import opened PyInt
  import opened Geometry
  import opened Objects
  import opened Serde

  /** `Const.FPS`. */
  const FPS := 60

  /** The concrete classes; each fixes a square `SIZE` and the animation constants. */
  datatype Kind = TankKind | MissleKind | PunchKind | BoomKind

  function Size(kind: Kind): int {
    match kind
    case TankKind => 22
    case MissleKind => 8
    case PunchKind => 16
    case BoomKind => 32
  }

  /** `PHASE_COUNT`: 0 (the `GameObj` default) for tanks and missiles. */
  function PhaseCount(kind: Kind): int {
    match kind
    case PunchKind => 1
    case BoomKind => 4
    case _ => 0
  }

  /** `PHASE_DURATION`: 1 (the `GameObj` default) for tanks and missiles. */
  function PhaseDuration(kind: Kind): int {
    match kind
    case PunchKind => 8
    case BoomKind => 8
    case _ => 1
  }

  /** The ticks of one full animation cycle. */
  function Period(kind: Kind): int {
    PhaseCount(kind) * PhaseDuration(kind)
  }

  /** The kinds that are `DirectedObj`s and so have a `VELOCITY`. */
  predicate IsDirected(kind: Kind) {
    kind == TankKind || kind == MissleKind
  }

  function Velocity(kind: Kind): int
    requires IsDirected(kind)
  {
    if kind == TankKind then 1 else 6
  }

  const INITIAL_HEALTH := 4
  const START_DURATION := 2 * FPS
  const DEAD_DURATION := 3 * FPS
  const MISSLE_DELAY := FloorDiv(1 * FPS, 2)

  /** The `GameObj` part every entity has. */
  datatype GameObj = GameObj(key: int, pos: Pos, phaseTick: int)

  datatype TankState = Start | Fight | Dead

  datatype Tank = Tank(obj: GameObj, heading: Direction, name: Option<string>,
                       state: TankState, stateTick: int, missleTick: int,
                       health: int, fails: int, wins: int)

  /** A missile (`Missle` in the source); `tankKey` names the tank that fired it. */
  datatype Missle = Missle(obj: GameObj, heading: Direction, tankKey: int, lethal: bool)

  /** Punches and booms are bare `GameObj`s kept in their own collections. */
  datatype GameObjs = GameObjs(tanks: Collection<Tank>, missles: Collection<Missle>,
                               punches: Collection<GameObj>, booms: Collection<GameObj>)

  /** A player's input for one frame: an optional direction to move and the fire button. */
  datatype GameControls = GameControls(dir: Option<Direction>, fire: bool)

  /** `GameControls()`: the class defaults. */
  const NO_CONTROLS := GameControls(None, false)

  /** What a client sends each frame; `gameControls` is `None` when the client sent no
      controls object. */
  datatype ClientData = ClientData(playerName: Option<string>, gameControls: Option<GameControls>)

  /** `GameObjs()`. */
  function NoGameObjs(): GameObjs {
    GameObjs(Empty(), Empty(), Empty(), Empty())
  }

  /** `getRect()`. */
  function GetRect(kind: Kind, o: GameObj): Box {
    Box(o.pos, Size(kind))
  }

  function TankRect(t: Tank): Box {
    GetRect(TankKind, t.obj)
  }

  function MissleRect(m: Missle): Box {
    GetRect(MissleKind, m.obj)
  }

  /** `GameObj.__init__(pos, centeredTo=...)`: an explicit position wins, else the object is
      centred on the given box, else it sits at the origin. `phaseTick` is the class default. */
  function NewGameObj(key: int, kind: Kind, pos: Option<Pos>, centeredTo: Option<Box>): (r: GameObj)
    ensures r.key == key && r.phaseTick == 0
    ensures pos.Some? ==> r.pos == pos.value
    ensures pos.None? && centeredTo.None? ==> r.pos == Pos(0, 0)
  {
    if pos.Some? then GameObj(key, pos.value, 0)
    else if centeredTo.Some? then GameObj(key, CenteredTo(centeredTo.value, Size(kind)).pos, 0)
    else GameObj(key, Pos(0, 0), 0)
  }

  /** An object built centred on `r` has its class's size, sits inside `r` when it is no
      larger, and splits the spare room evenly. */
  lemma CenteredConstruction(key: int, kind: Kind, r: Box)
    ensures var o := NewGameObj(key, kind, None, Some(r));
      && GetRect(kind, o) == CenteredTo(r, Size(kind))
      && GetRect(kind, o).size == Size(kind)
      && (Size(kind) <= r.size ==> forall p :: Contains(GetRect(kind, o), p) ==> Contains(r, p))
  {
    forall p | Size(kind) <= r.size && Contains(CenteredTo(r, Size(kind)), p)
      ensures Contains(r, p)
    {
      CenteredToInside(r, Size(kind), p);
    }
  }

  /** `nextPhase()`; the modulus is zero for tanks and missiles, which never animate. */
  function NextPhase(kind: Kind, o: GameObj): (r: GameObj)
    requires Period(kind) > 0
    ensures 0 <= r.phaseTick < Period(kind)
    ensures r.key == o.key && r.pos == o.pos
  {
    o.(phaseTick := Mod(o.phaseTick + 1, Period(kind)))
  }

  /** Within a period, `nextPhase` counts up by one and wraps to 0 at the period's end. */
  lemma NextPhaseWraps(kind: Kind, o: GameObj)
    requires 0 <= o.phaseTick < Period(kind)
    ensures NextPhase(kind, o).phaseTick == if o.phaseTick + 1 < Period(kind) then o.phaseTick + 1 else 0
  {
    if o.phaseTick + 1 < Period(kind) {
      ModOfSmall(o.phaseTick + 1, Period(kind));
    } else {
      ModOfSelf(Period(kind));
    }
  }

  /** `n` calls of `nextPhase`. */
  function NextPhaseN(kind: Kind, o: GameObj, n: nat): GameObj
    requires Period(kind) > 0
  {
    if n == 0 then o else NextPhase(kind, NextPhaseN(kind, o, n - 1))
  }

  /** From phase tick 0, each of the first period's calls advances the tick by one. */
  lemma {:induction false} PhaseCounts(kind: Kind, o: GameObj, n: nat)
    requires 0 <= n < Period(kind)
    requires o.phaseTick == 0
    ensures NextPhaseN(kind, o, n).phaseTick == n
  {
    if n > 0 {
      PhaseCounts(kind, o, n - 1);
      NextPhaseWraps(kind, NextPhaseN(kind, o, n - 1));
    }
  }

  /** The phase tick first returns to 0 after exactly one period: 8 calls for a punch, 32
      for a boom. */
  lemma PhaseCycle(kind: Kind, o: GameObj)
    requires Period(kind) > 0
    requires o.phaseTick == 0
    ensures NextPhaseN(kind, o, Period(kind)).phaseTick == 0
    ensures forall n :: 0 < n < Period(kind) ==> NextPhaseN(kind, o, n).phaseTick != 0
    ensures kind == PunchKind ==> Period(kind) == 8
    ensures kind == BoomKind ==> Period(kind) == 32
  {
    PhaseCounts(kind, o, Period(kind) - 1);
    forall n | 0 < n < Period(kind)
      ensures NextPhaseN(kind, o, n).phaseTick != 0
    {
      PhaseCounts(kind, o, n);
    }
  }

  /** `getPhase()`: the animation frame. */
  function GetPhase(kind: Kind, o: GameObj): (r: int)
    ensures PhaseCount(kind) > 0 ==> 0 <= r < PhaseCount(kind)
    ensures PhaseCount(kind) == 0 ==> r == 0
  {
    if PhaseCount(kind) != 0 then Mod(FloorDiv(o.phaseTick, PhaseDuration(kind)), PhaseCount(kind)) else 0
  }

  /** `Tank()`: the class defaults, heading UP at the origin. */
  function NewTank(key: int): (t: Tank)
    ensures t.obj.key == key
    ensures t.state == Start && t.health == INITIAL_HEALTH == 4 && t.fails == 0 && t.wins == 0
    ensures t.stateTick == 0 && t.missleTick == 0 && t.name.None?
  {
    Tank(NewGameObj(key, TankKind, None, None), Up, None, Start, 0, 0, INITIAL_HEALTH, 0, 0)
  }

  /** `Missle(tank)`: centred on the tank, then pushed `(22 + 8) // 2` along its heading. */
  function NewMissle(key: int, tank: Tank): (m: Missle)
    ensures m.obj.key == key && m.obj.phaseTick == 0
    ensures m.heading == tank.heading
    ensures m.tankKey == tank.obj.key
    ensures m.lethal <==> tank.state == Fight
  {
    var base := NewGameObj(key, MissleKind, None, Some(TankRect(tank)));
    var offset := FloorDiv(Size(TankKind) + Size(MissleKind), 2);
    Missle(base.(pos := Move(base.pos, tank.heading, offset)), tank.heading, tank.obj.key,
           tank.state == Fight)
  }

  /** A new missile sits flush against its tank's box: it does not overlap it, but one pixel
      back toward the tank it would; across the heading it is centred on the tank. */
  lemma MissleIsFlush(key: int, tank: Tank)
    ensures var m := NewMissle(key, tank);
      && !Intersects(MissleRect(m), TankRect(tank))
      && Intersects(Box(Move(m.obj.pos, Opposite(tank.heading), 1), Size(MissleKind)), TankRect(tank))
      && (tank.heading == Up || tank.heading == Down ==> m.obj.pos.x == tank.obj.pos.x + 7)
      && (tank.heading == Left || tank.heading == Right ==> m.obj.pos.y == tank.obj.pos.y + 7)
  {
    assert FloorDiv(Size(TankKind) - Size(MissleKind), 2) == 7;
    assert FloorDiv(Size(TankKind) + Size(MissleKind), 2) == 15;
  }

  // ---- Wire manifests and converter tables -------------------------------------------

  const GAME_OBJ_FIELDS: set<string> := {"key", "pos", "phaseTick"}
  const DIRECTED_OBJ_FIELDS: set<string> := {"key", "pos", "phaseTick", "heading"}
  const TANK_FIELDS: set<string> := {"key", "pos", "heading", "name", "state", "health", "fails", "wins"}
  const GAME_MAP_FIELDS: set<string> := {"size", "blocks"}
  const GAME_CONTROLS_FIELDS: set<string> := {"dir", "fire"}
  const CLIENT_DATA_FIELDS: set<string> := {"playerName", "gameControls"}
  const SERVER_DATA_FIELDS: set<string> := {"gameObjs", "gameMap"}
  const GAME_OBJS_FIELDS: set<string> := {"tanks", "missles", "punches", "booms"}

  /** Every class's `__serde_fields__`; `Pos.toDict` writes "x" and "y". */
  function ClassFields(cls: string): set<string> {
    if cls == "Pos" then {"x", "y"}
    else if cls == "Tank" then TANK_FIELDS
    else if cls == "Missle" then DIRECTED_OBJ_FIELDS
    else if cls == "Punch" || cls == "Boom" then GAME_OBJ_FIELDS
    else if cls == "GameMap" then GAME_MAP_FIELDS
    else if cls == "GameControls" then GAME_CONTROLS_FIELDS
    else if cls == "ClientData" then CLIENT_DATA_FIELDS
    else if cls == "ServerData" then SERVER_DATA_FIELDS
    else if cls == "GameObjs" then GAME_OBJS_FIELDS
    else {}
  }

  const DIRECTION_NAMES: set<string> := {"UP", "RIGHT", "DOWN", "LEFT"}
  const STATE_NAMES: set<string> := {"START", "FIGHT", "DEAD"}

  /** The converters `getCvts` finds in the type hints: `Vector`/`Dims` fields use
      `Pos.ofDict`, enum fields look names up, and `GameControls` is nested. */
  const GAME_OBJ_SCHEMA := Schema(GAME_OBJ_FIELDS, map["SIZE" := PosOfDict, "pos" := PosOfDict])
  const DIRECTED_CVTS: map<string, Cvt> :=
    map["SIZE" := PosOfDict, "pos" := PosOfDict, "heading" := ByName("Direction", DIRECTION_NAMES)]
  const MISSLE_SCHEMA := Schema(DIRECTED_OBJ_FIELDS, DIRECTED_CVTS)
  const TANK_SCHEMA := Schema(TANK_FIELDS, DIRECTED_CVTS["state" := ByName("TankState", STATE_NAMES)])
  const GAME_MAP_SCHEMA := Schema(GAME_MAP_FIELDS, map["size" := PosOfDict])
  const GAME_CONTROLS_SCHEMA := Schema(GAME_CONTROLS_FIELDS, map["dir" := ByName("Direction", DIRECTION_NAMES)])
  const CLIENT_DATA_SCHEMA :=
    Schema(CLIENT_DATA_FIELDS, map["gameControls" := Nested("GameControls", GAME_CONTROLS_SCHEMA)])

  /** Class attributes that stand in for unset instance attributes. */
  const GAME_OBJ_DEFAULTS: map<string, Value> := map["phaseTick" := Int(0)]
  const TANK_DEFAULTS: map<string, Value> := map[
    "phaseTick" := Int(0), "name" := Null, "state" := Member("TankState", "START"),
    "stateTick" := Int(0), "missleTick" := Int(0), "health" := Int(INITIAL_HEALTH),
    "fails" := Int(0), "wins" := Int(0)]
  const GAME_CONTROLS_DEFAULTS: map<string, Value> := map["dir" := Null, "fire" := Bool(false)]
  const CLIENT_DATA_DEFAULTS: map<string, Value> := map["playerName" := Null]

  function DirName(d: Direction): string {
    match d
    case Up => "UP"
    case Right => "RIGHT"
    case Down => "DOWN"
    case Left => "LEFT"
  }

  function DirOfName(n: string): Option<Direction> {
    if n == "UP" then Some(Up)
    else if n == "RIGHT" then Some(Right)
    else if n == "DOWN" then Some(Down)
    else if n == "LEFT" then Some(Left)
    else None
  }

  function StateName(s: TankState): string {
    match s
    case Start => "START"
    case Fight => "FIGHT"
    case Dead => "DEAD"
  }

  function StateOfName(n: string): Option<TankState> {
    if n == "START" then Some(Start)
    else if n == "FIGHT" then Some(Fight)
    else if n == "DEAD" then Some(Dead)
    else None
  }

  lemma EnumNamesRoundTrip(d: Direction, s: TankState)
    ensures DirName(d) in DIRECTION_NAMES && DirOfName(DirName(d)) == Some(d)
    ensures StateName(s) in STATE_NAMES && StateOfName(StateName(s)) == Some(s)
  {
  }

  function PosValue(p: Pos): Value {
    Object("Pos", map["x" := Int(p.x), "y" := Int(p.y)])
  }

  function NameValue(name: Option<string>): Value {
    if name.Some? then Str(name.value) else Null
  }

  /** The attributes of a tank its manifest sends. */
  function TankWireAttrs(t: Tank): map<string, Value> {
    map["key" := Int(t.obj.key), "pos" := PosValue(t.obj.pos),
        "heading" := Member("Direction", DirName(t.heading)), "name" := NameValue(t.name),
        "state" := Member("TankState", StateName(t.state)), "health" := Int(t.health),
        "fails" := Int(t.fails), "wins" := Int(t.wins)]
  }

  /** A tank as the Python object it is: the sent attributes plus the server-side counters. */
  function TankValue(t: Tank): Value {
    Object("Tank", TankWireAttrs(t) + map[
      "phaseTick" := Int(t.obj.phaseTick), "stateTick" := Int(t.stateTick),
      "missleTick" := Int(t.missleTick)])
  }

  /** The attributes of a missile its manifest sends. */
  function MissleWireAttrs(m: Missle): map<string, Value> {
    map["key" := Int(m.obj.key), "pos" := PosValue(m.obj.pos), "phaseTick" := Int(m.obj.phaseTick),
        "heading" := Member("Direction", DirName(m.heading))]
  }

  /** A missile as the Python object it is: the sent attributes plus its owner and its
      lethal flag. */
  function MissleValue(m: Missle): Value {
    Object("Missle", MissleWireAttrs(m) + map["tankKey" := Int(m.tankKey), "lethal" := Bool(m.lethal)])
  }

  /** A punch (`cls` "Punch") or a boom ("Boom"). */
  function EffectValue(cls: string, o: GameObj): Value {
    Object(cls, map["key" := Int(o.key), "pos" := PosValue(o.pos), "phaseTick" := Int(o.phaseTick)])
  }

  function IntAttr(o: Value, defaults: map<string, Value>, f: string): Result<int>
    requires o.Object?
  {
    match GetAttr(o, defaults, f)
    case Some(Int(i)) => Ok(i)
    case Some(_) => Err("TypeError")
    case None => Err("AttributeError")
  }

  function PosAttr(o: Value, defaults: map<string, Value>, f: string): Result<Pos>
    requires o.Object?
  {
    match GetAttr(o, defaults, f)
    case Some(Object("Pos", a)) =>
      if "x" in a && "y" in a && a["x"].Int? && a["y"].Int? then Ok(Pos(a["x"].i, a["y"].i))
      else Err("TypeError")
    case Some(_) => Err("TypeError")
    case None => Err("AttributeError")
  }

  function DirAttr(o: Value, defaults: map<string, Value>, f: string): Result<Direction>
    requires o.Object?
  {
    match GetAttr(o, defaults, f)
    case Some(Member("Direction", n)) => if DirOfName(n).Some? then Ok(DirOfName(n).value) else Err("KeyError")
    case Some(_) => Err("TypeError")
    case None => Err("AttributeError")
  }

  /** A decoded tank read back through attribute lookup (class defaults included). */
  function TankOf(o: Value): Result<Tank>
    requires o.Object?
  {
    var key :- IntAttr(o, TANK_DEFAULTS, "key");
    var pos :- PosAttr(o, TANK_DEFAULTS, "pos");
    var phaseTick :- IntAttr(o, TANK_DEFAULTS, "phaseTick");
    var heading :- DirAttr(o, TANK_DEFAULTS, "heading");
    var name :- match GetAttr(o, TANK_DEFAULTS, "name")
      case Some(Null) => Ok(None)
      case Some(Str(s)) => Ok(Some(s))
      case _ => Err("TypeError");
    var state :- match GetAttr(o, TANK_DEFAULTS, "state")
      case Some(Member("TankState", n)) =>
        if StateOfName(n).Some? then Ok(StateOfName(n).value) else Err("KeyError")
      case _ => Err("TypeError");
    var stateTick :- IntAttr(o, TANK_DEFAULTS, "stateTick");
    var missleTick :- IntAttr(o, TANK_DEFAULTS, "missleTick");
    var health :- IntAttr(o, TANK_DEFAULTS, "health");
    var fails :- IntAttr(o, TANK_DEFAULTS, "fails");
    var wins :- IntAttr(o, TANK_DEFAULTS, "wins");
    Ok(Tank(GameObj(key, pos, phaseTick), heading, name, state, stateTick, missleTick, health, fails, wins))
  }

  /** What a client knows of a tank after it crossed the wire. */
  function WireTank(t: Tank): Tank {
    t.(obj := t.obj.(phaseTick := 0), stateTick := 0, missleTick := 0)
  }

  /** Every field of a tank's manifest survives `toDict`/`ofDict`. */
  lemma TankFieldsRoundTrip(t: Tank)
    ensures RoundTrips(ClassFields, TANK_SCHEMA, TankValue(t))
  {
    TankWireKeys(t);
    TankWireLookups(t);
    var v := TankValue(t);
    forall f | f in v.attrs && f in TANK_SCHEMA.fields
      ensures FieldRoundTrips(ClassFields, TANK_SCHEMA, f, v.attrs[f])
    {
      if f == "pos" {
        assert v.attrs[f] == PosValue(t.obj.pos);
      }
    }
  }

  /** A position is sent whole. */
  lemma ProjectPos(p: Pos)
    ensures Project(ClassFields, PosValue(p)) == PosValue(p)
  {
    var q := Project(ClassFields, PosValue(p));
    assert q.attrs.Keys == {"x", "y"};
  }

  /** The manifest part of a tank, as `ofDict` rebuilds it. */
  function TankWire(t: Tank): Value {
    Object("Tank", TankWireAttrs(t))
  }

  /** Each sent attribute of a tank is its own manifest part. */
  lemma TankWireProjected(t: Tank)
    ensures forall f :: f in TankWireAttrs(t) ==> Project(ClassFields, TankWireAttrs(t)[f]) == TankWireAttrs(t)[f]
  {
    var a := TankWireAttrs(t);
    ProjectPos(t.obj.pos);
    TankWireKeys(t);
    TankWireLookups(t);
    forall f | f in a
      ensures Project(ClassFields, a[f]) == a[f]
    {
      if f == "pos" {
      } else {
        assert !a[f].Object?;
      }
    }
  }

  lemma ProjectTank(t: Tank)
    ensures Project(ClassFields, TankValue(t)) == TankWire(t)
  {
    TankWireKeys(t);
    TankWireProjected(t);
    ProjectDropsExtras(ClassFields, "Tank", TankWireAttrs(t), map[
      "phaseTick" := Int(t.obj.phaseTick), "stateTick" := Int(t.stateTick),
      "missleTick" := Int(t.missleTick)]);
  }

  /** The attributes a tank's wire form holds, and the counters it lacks. */
  lemma TankWireKeys(t: Tank)
    ensures TankWireAttrs(t).Keys == TANK_FIELDS
    ensures var a := TankWireAttrs(t);
      "phaseTick" !in a && "stateTick" !in a && "missleTick" !in a
  {
  }

  /** The values in a tank's wire form. */
  lemma TankWireLookups(t: Tank)
    ensures var a := TankWireAttrs(t);
      && a["key"] == Int(t.obj.key) && a["pos"] == PosValue(t.obj.pos)
      && a["heading"] == Member("Direction", DirName(t.heading)) && a["name"] == NameValue(t.name)
      && a["state"] == Member("TankState", StateName(t.state)) && a["health"] == Int(t.health)
      && a["fails"] == Int(t.fails) && a["wins"] == Int(t.wins)
  {
  }

  lemma TankOfWire(t: Tank)
    ensures TankOf(TankWire(t)) == Ok(WireTank(t))
  {
    var o := TankWire(t);
    EnumNamesRoundTrip(t.heading, t.state);
    TankWireKeys(t);
    TankWireLookups(t);
    assert IntAttr(o, TANK_DEFAULTS, "key") == Ok(t.obj.key);
    assert PosAttr(o, TANK_DEFAULTS, "pos") == Ok(t.obj.pos);
    assert IntAttr(o, TANK_DEFAULTS, "phaseTick") == Ok(0);
    assert DirAttr(o, TANK_DEFAULTS, "heading") == Ok(t.heading);
    assert GetAttr(o, TANK_DEFAULTS, "name") == Some(NameValue(t.name));
    assert GetAttr(o, TANK_DEFAULTS, "state") == Some(Member("TankState", StateName(t.state)));
    assert IntAttr(o, TANK_DEFAULTS, "stateTick") == Ok(0);
    assert IntAttr(o, TANK_DEFAULTS, "missleTick") == Ok(0);
    assert IntAttr(o, TANK_DEFAULTS, "health") == Ok(t.health);
    assert IntAttr(o, TANK_DEFAULTS, "fails") == Ok(t.fails);
    assert IntAttr(o, TANK_DEFAULTS, "wins") == Ok(t.wins);
  }

  /** A tank survives the wire in every manifest field; the counters outside the manifest
      (`stateTick`, `missleTick`, `phaseTick`) come back as their class defaults. */
  lemma TankRoundTrip(t: Tank)
    ensures var d := OfDict(TANK_SCHEMA, "Tank", Encode(ClassFields, TankValue(t)));
      d.Ok? && d.value.Object? && TankOf(d.value) == Ok(WireTank(t))
  {
    TankFieldsRoundTrip(t);
    RoundTrip(ClassFields, TANK_SCHEMA, TankValue(t));
    ProjectTank(t);
    TankOfWire(t);
  }

  /** A missile's wire form carries exactly the `DirectedObj` manifest: its owner and its
      lethal flag stay on the server. */
  lemma MissleWireFields(m: Missle)
    ensures var d := OfDict(MISSLE_SCHEMA, "Missle", Encode(ClassFields, MissleValue(m)));
      && d.Ok? && d.value.Object?
      && d.value.attrs.Keys == {"key", "pos", "phaseTick", "heading"}
      && d.value.attrs["key"] == Int(m.obj.key)
      && d.value.attrs["heading"] == Member("Direction", DirName(m.heading))
  {
    MissleFieldsRoundTrip(m);
    RoundTrip(ClassFields, MISSLE_SCHEMA, MissleValue(m));
    ProjectMissle(m);
    MissleWireKeys(m);
  }

  lemma MissleWireKeys(m: Missle)
    ensures var a := MissleWireAttrs(m);
      && a.Keys == {"key", "pos", "phaseTick", "heading"}
      && a["key"] == Int(m.obj.key) && a["heading"] == Member("Direction", DirName(m.heading))
      && a["pos"] == PosValue(m.obj.pos) && a["phaseTick"] == Int(m.obj.phaseTick)
      && "tankKey" !in a && "lethal" !in a
  {
  }

  lemma ProjectMissle(m: Missle)
    ensures Project(ClassFields, MissleValue(m)) == Object("Missle", MissleWireAttrs(m))
  {
    var kept := MissleWireAttrs(m);
    ProjectPos(m.obj.pos);
    MissleWireKeys(m);
    forall f | f in kept
      ensures Project(ClassFields, kept[f]) == kept[f]
    {
      if f != "pos" {
        assert !kept[f].Object?;
      }
    }
    ProjectDropsExtras(ClassFields, "Missle", kept, map["tankKey" := Int(m.tankKey), "lethal" := Bool(m.lethal)]);
  }

  // ---- GameObjs on the wire ----------------------------------------------------------

  /** A collection's iteration order, each object as a value. */
  function ValuesOf<T>(c: Collection<T>, f: T -> Value): (r: seq<Value>)
    requires Valid(c)
    ensures |r| == |ToList(c)|
  {
    var xs := ToList(c);
    seq(|xs|, i requires 0 <= i < |xs| => f(xs[i]))
  }

  function PunchValue(o: GameObj): Value {
    EffectValue("Punch", o)
  }

  function BoomValue(o: GameObj): Value {
    EffectValue("Boom", o)
  }

  /** `GameObjs.toDict`: each collection as the list its iteration yields. */
  function GameObjsToDict(g: GameObjs): (r: Value)
    requires Valid(g.tanks) && Valid(g.missles) && Valid(g.punches) && Valid(g.booms)
    ensures r.Dict? && r.entries.Keys == GAME_OBJS_FIELDS
    ensures forall f :: f in r.entries ==> r.entries[f].List?
  {
    Dict(map[
      "tanks" := List(ValuesOf(g.tanks, TankValue)),
      "missles" := List(ValuesOf(g.missles, MissleValue)),
      "punches" := List(ValuesOf(g.punches, PunchValue)),
      "booms" := List(ValuesOf(g.booms, BoomValue))])
  }

  /** One list item decodes: `ofDict` succeeds and the object has an integer `key`. */
  predicate ItemDecodes(schema: Schema, cls: string, defaults: map<string, Value>, d: Value) {
    var o := OfDict(schema, cls, d);
    o.Ok? && IntAttr(o.value, defaults, "key").Ok?
  }

  /** A decoded item, paired with its key. */
  function DecodedItem(schema: Schema, cls: string, defaults: map<string, Value>, d: Value): (int, Value)
    requires ItemDecodes(schema, cls, defaults, d)
  {
    var o := OfDict(schema, cls, d).value;
    (IntAttr(o, defaults, "key").value, o)
  }

  /** The decoded list items, each paired with its `key` attribute. A missing key raises
      AttributeError; keys are integers in this model. */
  function DecodeItems(schema: Schema, cls: string, defaults: map<string, Value>, data: seq<Value>)
    : (r: Result<seq<(int, Value)>>)
    ensures r.Ok? <==> forall i :: 0 <= i < |data| ==> ItemDecodes(schema, cls, defaults, data[i])
    ensures r.Ok? ==> |r.value| == |data|
    ensures r.Ok? ==> forall i :: 0 <= i < |data| ==> r.value[i] == DecodedItem(schema, cls, defaults, data[i])
  {
    if |data| == 0 then Ok([])
    else
      var o :- OfDict(schema, cls, data[0]);
      var key :- IntAttr(o, defaults, "key");
      var rest :- DecodeItems(schema, cls, defaults, data[1..]);
      Ok([(key, o)] + rest)
  }

  /** `ObjCollection.ofList(data, cls)`: the input is iterated, so an empty dict or string
      also gives an empty collection, while their elements are not dicts and fail. */
  function OfListValue(schema: Schema, cls: string, defaults: map<string, Value>, data: Value)
    : (r: Result<Collection<Value>>)
    ensures r.Ok? ==> Valid(r.value) && r.value.removed == {}
    ensures data.List? && data.items == [] ==> r == Ok(Empty())
  {
    match data
    case List(xs) =>
      var items :- DecodeItems(schema, cls, defaults, xs);
      Ok(OfList(items))
    case Dict(e) => if |e| == 0 then Ok(OfList([])) else Err("AttributeError")
    case Str(s) => if |s| == 0 then Ok(OfList([])) else Err("AttributeError")
    case _ => Err("TypeError")
  }

  /** The four collections a client rebuilds; their objects stay dynamic values. */
  datatype WireObjs = WireObjs(tanks: Collection<Value>, missles: Collection<Value>,
                               punches: Collection<Value>, booms: Collection<Value>)

  /** `GameObjs.ofDict`: a missing list raises KeyError; lists are read in field order. */
  function GameObjsOfDict(data: Value): (r: Result<WireObjs>)
    ensures r.Ok? ==> data.Dict? && "tanks" in data.entries && "missles" in data.entries
    ensures r.Ok? ==> "punches" in data.entries && "booms" in data.entries
  {
    if !data.Dict? then Err("TypeError")
    else
      var d := data.entries;
      if "tanks" !in d then Err("KeyError") else
      var tanks :- OfListValue(TANK_SCHEMA, "Tank", TANK_DEFAULTS, d["tanks"]);
      if "missles" !in d then Err("KeyError") else
      var missles :- OfListValue(MISSLE_SCHEMA, "Missle", GAME_OBJ_DEFAULTS, d["missles"]);
      if "punches" !in d then Err("KeyError") else
      var punches :- OfListValue(GAME_OBJ_SCHEMA, "Punch", GAME_OBJ_DEFAULTS, d["punches"]);
      if "booms" !in d then Err("KeyError") else
      var booms :- OfListValue(GAME_OBJ_SCHEMA, "Boom", GAME_OBJ_DEFAULTS, d["booms"]);
      Ok(WireObjs(tanks, missles, punches, booms))
  }

  function EncodeAll(vs: seq<Value>): (r: seq<Value>)
    ensures |r| == |vs|
  {
    seq(|vs|, i requires 0 <= i < |vs| => Encode(ClassFields, vs[i]))
  }

  /** The list items that decode back: objects of `cls` that survive the round trip and
      carry their integer key. */
  predicate ListRoundTrips(schema: Schema, cls: string, vs: seq<Value>, keys: seq<int>) {
    && |vs| == |keys|
    && forall i :: 0 <= i < |vs| ==>
         && vs[i].Object? && vs[i].cls == cls && RoundTrips(ClassFields, schema, vs[i])
         && "key" in schema.fields && "key" in vs[i].attrs && vs[i].attrs["key"] == Int(keys[i])
  }

  function Zip(keys: seq<int>, vs: seq<Value>): (r: seq<(int, Value)>)
    requires |keys| == |vs|
    ensures |r| == |keys|
  {
    seq(|keys|, i requires 0 <= i < |keys| => (keys[i], vs[i]))
  }

  function ProjectAll(vs: seq<Value>): (r: seq<Value>)
    ensures |r| == |vs|
  {
    seq(|vs|, i requires 0 <= i < |vs| => Project(ClassFields, vs[i]))
  }

  /** Decoding an encoded list yields each item's manifest part under its key. */
  lemma {:induction false} DecodeItemsRoundTrip(schema: Schema, cls: string, defaults: map<string, Value>,
                                                vs: seq<Value>, keys: seq<int>)
    requires ListRoundTrips(schema, cls, vs, keys)
    ensures DecodeItems(schema, cls, defaults, EncodeAll(vs)) == Ok(Zip(keys, ProjectAll(vs)))
    decreases |vs|
  {
    if |vs| > 0 {
      var e := EncodeAll(vs);
      DecodeOne(schema, cls, defaults, vs[0], keys[0]);
      assert e[0] == Encode(ClassFields, vs[0]);
      assert e[1..] == EncodeAll(vs[1..]);
      ListRoundTripsTail(schema, cls, vs, keys);
      DecodeItemsRoundTrip(schema, cls, defaults, vs[1..], keys[1..]);
      ZipCons(keys, vs);
    }
  }

  /** One list item decodes to its manifest part, which carries its key. */
  lemma DecodeOne(schema: Schema, cls: string, defaults: map<string, Value>, v: Value, key: int)
    requires v.Object? && v.cls == cls && RoundTrips(ClassFields, schema, v)
    requires "key" in schema.fields && "key" in v.attrs && v.attrs["key"] == Int(key)
    ensures OfDict(schema, cls, Encode(ClassFields, v)) == Ok(Project(ClassFields, v))
    ensures Project(ClassFields, v).Object? && IntAttr(Project(ClassFields, v), defaults, "key") == Ok(key)
  {
    RoundTrip(ClassFields, schema, v);
    assert Project(ClassFields, v).attrs["key"] == Int(key);
  }

  lemma ListRoundTripsTail(schema: Schema, cls: string, vs: seq<Value>, keys: seq<int>)
    requires ListRoundTrips(schema, cls, vs, keys) && |vs| > 0
    ensures ListRoundTrips(schema, cls, vs[1..], keys[1..])
  {
    forall i | 0 <= i < |vs| - 1
      ensures vs[1..][i] == vs[i + 1] && keys[1..][i] == keys[i + 1]
    {
    }
  }

  lemma ZipCons(keys: seq<int>, vs: seq<Value>)
    requires |keys| == |vs| > 0
    ensures Zip(keys, ProjectAll(vs)) ==
      [(keys[0], Project(ClassFields, vs[0]))] + Zip(keys[1..], ProjectAll(vs[1..]))
  {
  }

  lemma {:induction false} KeySeqZip(keys: seq<int>, vs: seq<Value>)
    requires |keys| == |vs|
    ensures KeySeq(Zip(keys, vs)) == keys
    decreases |keys|
  {
    if |keys| > 0 {
      var n := |keys| - 1;
      assert Zip(keys, vs)[..n] == Zip(keys[..n], vs[..n]);
      KeySeqZip(keys[..n], vs[..n]);
      assert keys == keys[..n] + [keys[n]];
    }
  }

  /** `ofList` of keys paired with objects, the keys distinct: the keys in order, each
      holding its own object. */
  lemma OfListZip(ks: seq<int>, ps: seq<Value>)
    requires |ks| == |ps| && Distinct(ks)
    ensures VisibleKeys(OfList(Zip(ks, ps))) == ks
    ensures forall i :: 0 <= i < |ks| ==> Get(OfList(Zip(ks, ps)), ks[i]) == Some(ps[i])
  {
    var items := Zip(ks, ps);
    OfListOrder(items);
    KeySeqZip(ks, ps);
    forall i | 0 <= i < |ks|
      ensures Get(OfList(items), ks[i]) == Some(ps[i])
    {
      OfListLastWins(items, i);
    }
  }

  /** Sending a collection as a list and reading it back with `ofList` keeps its visible
      keys in order and each object's manifest part; pending removals are not sent. */
  lemma CollectionRoundTrip(schema: Schema, cls: string, defaults: map<string, Value>,
                            c: Collection<Value>)
    requires Valid(c)
    requires ListRoundTrips(schema, cls, ToList(c), VisibleKeys(c))
    ensures var r := OfListValue(schema, cls, defaults, Encode(ClassFields, List(ToList(c))));
      && r.Ok?
      && VisibleKeys(r.value) == VisibleKeys(c)
      && forall k :: k in r.value.objs ==>
           k in c.objs && k !in c.removed && r.value.objs[k] == Project(ClassFields, c.objs[k])
  {
    EncodedListDecodes(schema, cls, defaults, ToList(c), VisibleKeys(c));
    OfListOfVisible(c);
  }

  /** A list of items that survive the trip decodes to `ofList` of their keys paired with
      their manifest parts. */
  lemma EncodedListDecodes(schema: Schema, cls: string, defaults: map<string, Value>,
                           vs: seq<Value>, ks: seq<int>)
    requires ListRoundTrips(schema, cls, vs, ks)
    ensures OfListValue(schema, cls, defaults, Encode(ClassFields, List(vs))) ==
      Ok(OfList(Zip(ks, ProjectAll(vs))))
  {
    assert Encode(ClassFields, List(vs)) == List(EncodeAll(vs));
    DecodeItemsRoundTrip(schema, cls, defaults, vs, ks);
  }

  /** Rebuilding a collection from its visible keys and their objects' manifest parts. */
  lemma OfListOfVisible(c: Collection<Value>)
    requires Valid(c)
    ensures var r := OfList(Zip(VisibleKeys(c), ProjectAll(ToList(c))));
      && VisibleKeys(r) == VisibleKeys(c)
      && forall k :: k in r.objs ==>
           k in c.objs && k !in c.removed && r.objs[k] == Project(ClassFields, c.objs[k])
  {
    var vs := ToList(c);
    var ks := VisibleKeys(c);
    var ps := ProjectAll(vs);
    assert Distinct(ks) by {
      assert Distinct(c.order);
    }
    OfListZip(ks, ps);
    var r := OfList(Zip(ks, ps));
    forall k | k in r.objs
      ensures k in c.objs && k !in c.removed && r.objs[k] == Project(ClassFields, c.objs[k])
    {
      assert k in VisibleKeys(r);
      var i :| 0 <= i < |ks| && ks[i] == k;
      assert ks[i] in ks;
    }
  }

  /** Objects of one class sent as a list come back under the same keys, in the same
      order, each as its manifest part. */
  lemma TypedCollectionRoundTrip<T>(schema: Schema, cls: string, defaults: map<string, Value>,
                                    c: Collection<T>, f: T -> Value)
    requires Valid(c)
    requires "key" in schema.fields
    requires forall k :: k in c.objs ==>
      && f(c.objs[k]).Object? && f(c.objs[k]).cls == cls && RoundTrips(ClassFields, schema, f(c.objs[k]))
      && "key" in f(c.objs[k]).attrs && f(c.objs[k]).attrs["key"] == Int(k)
    ensures var r := OfListValue(schema, cls, defaults, Encode(ClassFields, List(ValuesOf(c, f))));
      && r.Ok?
      && VisibleKeys(r.value) == VisibleKeys(c)
      && forall k :: k in r.value.objs ==>
           k in c.objs && k !in c.removed && r.value.objs[k] == Project(ClassFields, f(c.objs[k]))
  {
    var vc := Collection(map k | k in c.objs :: f(c.objs[k]), c.order, c.removed);
    assert Valid(vc);
    assert ToList(vc) == ValuesOf(c, f);
    var vs := ToList(vc);
    var ks := VisibleKeys(vc);
    forall i | 0 <= i < |vs|
      ensures ks[i] in c.objs && vs[i] == f(c.objs[ks[i]])
    {
      assert ks[i] in ks;
    }
    assert ListRoundTrips(schema, cls, vs, ks);
    CollectionRoundTrip(schema, cls, defaults, vc);
  }

  lemma MissleFieldsRoundTrip(m: Missle)
    ensures RoundTrips(ClassFields, MISSLE_SCHEMA, MissleValue(m))
    ensures "key" in MissleValue(m).attrs && MissleValue(m).attrs["key"] == Int(m.obj.key)
  {
    MissleWireKeys(m);
    var v := MissleValue(m);
    forall f | f in v.attrs && f in MISSLE_SCHEMA.fields
      ensures FieldRoundTrips(ClassFields, MISSLE_SCHEMA, f, v.attrs[f])
    {
      if f == "pos" {
        assert v.attrs[f] == PosValue(m.obj.pos);
      }
    }
  }

  lemma EffectFieldsRoundTrip(cls: string, o: GameObj)
    requires cls == "Punch" || cls == "Boom"
    ensures RoundTrips(ClassFields, GAME_OBJ_SCHEMA, EffectValue(cls, o))
    ensures Project(ClassFields, EffectValue(cls, o)) == EffectValue(cls, o)
  {
    var v := EffectValue(cls, o);
    forall f | f in v.attrs && f in GAME_OBJ_SCHEMA.fields
      ensures FieldRoundTrips(ClassFields, GAME_OBJ_SCHEMA, f, v.attrs[f])
    {
      if f == "pos" {
        assert v.attrs[f] == PosValue(o.pos);
      }
    }
    ProjectPos(o.pos);
    ProjectDropsExtras(ClassFields, cls, v.attrs, map[]);
    assert v.attrs + map[] == v.attrs;
  }

  /** The collections kept in step with their objects' keys. */
  ghost predicate KeysAgree(g: GameObjs) {
    && Valid(g.tanks) && Valid(g.missles) && Valid(g.punches) && Valid(g.booms)
    && (forall k :: k in g.tanks.objs ==> g.tanks.objs[k].obj.key == k)
    && (forall k :: k in g.missles.objs ==> g.missles.objs[k].obj.key == k)
    && (forall k :: k in g.punches.objs ==> g.punches.objs[k].key == k)
    && (forall k :: k in g.booms.objs ==> g.booms.objs[k].key == k)
  }

  /** One tank's trip: manifest fields survive, and the decoded object reads back as the
      tank's wire form. */
  lemma TankTrip(t: Tank)
    ensures RoundTrips(ClassFields, TANK_SCHEMA, TankValue(t))
    ensures Project(ClassFields, TankValue(t)) == TankWire(t)
    ensures TankOf(TankWire(t)) == Ok(WireTank(t))
    ensures "key" in TankValue(t).attrs && TankValue(t).attrs["key"] == Int(t.obj.key)
  {
    TankFieldsRoundTrip(t);
    ProjectTank(t);
    TankOfWire(t);
    TankValueKey(t);
  }

  lemma TankValueKey(t: Tank)
    ensures "key" in TankValue(t).attrs && TankValue(t).attrs["key"] == Int(t.obj.key)
  {
    TankWireKeys(t);
    TankWireLookups(t);
  }

  lemma TanksRoundTrip(c: Collection<Tank>)
    requires Valid(c)
    requires forall k :: k in c.objs ==> c.objs[k].obj.key == k
    ensures var r := OfListValue(TANK_SCHEMA, "Tank", TANK_DEFAULTS, Encode(ClassFields, List(ValuesOf(c, TankValue))));
      && r.Ok?
      && VisibleKeys(r.value) == VisibleKeys(c)
      && forall k :: k in r.value.objs ==>
           (k in c.objs && r.value.objs[k] == TankWire(c.objs[k]))
  {
    forall k | k in c.objs
      ensures RoundTrips(ClassFields, TANK_SCHEMA, TankValue(c.objs[k]))
      ensures Project(ClassFields, TankValue(c.objs[k])) == TankWire(c.objs[k])
      ensures "key" in TankValue(c.objs[k]).attrs && TankValue(c.objs[k]).attrs["key"] == Int(k)
    {
      TankTrip(c.objs[k]);
    }
    TypedCollectionRoundTrip(TANK_SCHEMA, "Tank", TANK_DEFAULTS, c, TankValue);
  }

  lemma MisslesRoundTrip(c: Collection<Missle>)
    requires Valid(c)
    requires forall k :: k in c.objs ==> c.objs[k].obj.key == k
    ensures var r := OfListValue(MISSLE_SCHEMA, "Missle", GAME_OBJ_DEFAULTS,
                                 Encode(ClassFields, List(ValuesOf(c, MissleValue))));
      && r.Ok?
      && VisibleKeys(r.value) == VisibleKeys(c)
      && forall k :: k in r.value.objs ==>
           (k in c.objs && r.value.objs[k] == Project(ClassFields, MissleValue(c.objs[k])))
  {
    forall k | k in c.objs
      ensures RoundTrips(ClassFields, MISSLE_SCHEMA, MissleValue(c.objs[k]))
      ensures "key" in MissleValue(c.objs[k]).attrs && MissleValue(c.objs[k]).attrs["key"] == Int(k)
    {
      MissleFieldsRoundTrip(c.objs[k]);
    }
    TypedCollectionRoundTrip(MISSLE_SCHEMA, "Missle", GAME_OBJ_DEFAULTS, c, MissleValue);
  }

  lemma EffectsRoundTrip(cls: string, c: Collection<GameObj>, f: GameObj -> Value)
    requires cls == "Punch" || cls == "Boom"
    requires forall o :: f(o) == EffectValue(cls, o)
    requires Valid(c)
    requires forall k :: k in c.objs ==> c.objs[k].key == k
    ensures var r := OfListValue(GAME_OBJ_SCHEMA, cls, GAME_OBJ_DEFAULTS, Encode(ClassFields, List(ValuesOf(c, f))));
      && r.Ok?
      && VisibleKeys(r.value) == VisibleKeys(c)
      && forall k :: k in r.value.objs ==> (k in c.objs && r.value.objs[k] == f(c.objs[k]))
  {
    forall k | k in c.objs
      ensures f(c.objs[k]).Object? && f(c.objs[k]).cls == cls
      ensures RoundTrips(ClassFields, GAME_OBJ_SCHEMA, f(c.objs[k]))
      ensures Project(ClassFields, f(c.objs[k])) == f(c.objs[k])
      ensures "key" in f(c.objs[k]).attrs && f(c.objs[k]).attrs["key"] == Int(k)
    {
      EffectFieldsRoundTrip(cls, c.objs[k]);
    }
    TypedCollectionRoundTrip(GAME_OBJ_SCHEMA, cls, GAME_OBJ_DEFAULTS, c, f);
  }

  /** The encoded `gameObjs` dict holds each collection's encoded list. */
  lemma EncodeGameObjs(g: GameObjs)
    requires KeysAgree(g)
    ensures var e := Encode(ClassFields, GameObjsToDict(g));
      && e.Dict? && e.entries.Keys == GAME_OBJS_FIELDS
      && e.entries["tanks"] == Encode(ClassFields, List(ValuesOf(g.tanks, TankValue)))
      && e.entries["missles"] == Encode(ClassFields, List(ValuesOf(g.missles, MissleValue)))
      && e.entries["punches"] == Encode(ClassFields, List(ValuesOf(g.punches, PunchValue)))
      && e.entries["booms"] == Encode(ClassFields, List(ValuesOf(g.booms, BoomValue)))
  {
    var d := GameObjsToDict(g).entries;
    EncodeDict(d);
    assert d["tanks"] == List(ValuesOf(g.tanks, TankValue));
    assert d["missles"] == List(ValuesOf(g.missles, MissleValue));
    assert d["punches"] == List(ValuesOf(g.punches, PunchValue));
    assert d["booms"] == List(ValuesOf(g.booms, BoomValue));
  }

  /** A dict is encoded entry by entry. */
  lemma EncodeDict(d: map<string, Value>)
    ensures var e := Encode(ClassFields, Dict(d));
      e.Dict? && e.entries.Keys == d.Keys && forall k :: k in d ==> e.entries[k] == Encode(ClassFields, d[k])
  {
  }

  /** What a client rebuilds from the server's `gameObjs`: every visible object under its
      key and in its place; tanks read back as their wire form, missiles as their manifest
      part, punches and booms whole. */
  lemma GameObjsRoundTrip(g: GameObjs)
    requires KeysAgree(g)
    ensures var r := GameObjsOfDict(Encode(ClassFields, GameObjsToDict(g)));
      && r.Ok?
      && VisibleKeys(r.value.tanks) == VisibleKeys(g.tanks)
      && VisibleKeys(r.value.missles) == VisibleKeys(g.missles)
      && VisibleKeys(r.value.punches) == VisibleKeys(g.punches)
      && VisibleKeys(r.value.booms) == VisibleKeys(g.booms)
      && (forall k :: k in r.value.tanks.objs ==>
            (k in g.tanks.objs && r.value.tanks.objs[k] == TankWire(g.tanks.objs[k])))
      && (forall k :: k in r.value.missles.objs ==>
            (k in g.missles.objs && r.value.missles.objs[k] == Project(ClassFields, MissleValue(g.missles.objs[k]))))
      && (forall k :: k in r.value.punches.objs ==>
            (k in g.punches.objs && r.value.punches.objs[k] == PunchValue(g.punches.objs[k])))
      && (forall k :: k in r.value.booms.objs ==>
            (k in g.booms.objs && r.value.booms.objs[k] == BoomValue(g.booms.objs[k])))
  {
    EncodeGameObjs(g);
    TanksRoundTrip(g.tanks);
    MisslesRoundTrip(g.missles);
    EffectsRoundTrip("Punch", g.punches, PunchValue);
    EffectsRoundTrip("Boom", g.booms, BoomValue);
  }

  /** Every tank a client rebuilds reads back as the server tank's wire form. */
  lemma GameObjsTanksReadBack(g: GameObjs, k: int)
    requires KeysAgree(g)
    ensures var r := GameObjsOfDict(Encode(ClassFields, GameObjsToDict(g)));
      && r.Ok?
      && (k in r.value.tanks.objs ==>
            && k in g.tanks.objs && r.value.tanks.objs[k].Object?
            && TankOf(r.value.tanks.objs[k]) == Ok(WireTank(g.tanks.objs[k])))
  {
    GameObjsRoundTrip(g);
    if k in g.tanks.objs {
      TankTrip(g.tanks.objs[k]);
    }
  }

  // ---- ClientData on the wire ---------------------------------------------------------

  /** Python truthiness (`if value:`) of a decoded value. */
  predicate Truthy(v: Value) {
    match v
    case Null => false
    case Bool(b) => b
    case Int(i) => i != 0
    case Str(s) => s != []
    case List(xs) => xs != []
    case Dict(d) => d != map[]
    case _ => true
  }

  function GameControlsValue(gc: GameControls): Value {
    Object("GameControls", map[
      "dir" := if gc.dir.Some? then Member("Direction", DirName(gc.dir.value)) else Null,
      "fire" := Bool(gc.fire)])
  }

  function ClientDataValue(cd: ClientData): Value {
    Object("ClientData", map[
      "playerName" := NameValue(cd.playerName),
      "gameControls" := if cd.gameControls.Some? then GameControlsValue(cd.gameControls.value) else Null])
  }

  /** A `dir` attribute the server can read: `None`, or a `Direction` member. */
  predicate DirReadable(v: Value) {
    v == Null || (v.Member? && v.enum == "Direction" && DirOfName(v.name).Some?)
  }

  /** A decoded `GameControls` as the server reads it: `dir` against `None`, `fire` by its
      truth value, unset attributes from the class defaults. */
  function GameControlsOf(o: Value): (r: Result<GameControls>)
    requires o.Object?
    ensures "dir" !in o.attrs && "fire" !in o.attrs ==> r == Ok(NO_CONTROLS)
    ensures r.Ok? <==> "dir" !in o.attrs || DirReadable(o.attrs["dir"])
    ensures r.Ok? ==> r.value.fire == ("fire" in o.attrs && Truthy(o.attrs["fire"]))
    ensures r.Ok? ==> (r.value.dir.None? <==> "dir" !in o.attrs || o.attrs["dir"] == Null)
    ensures r.Ok? && r.value.dir.Some? ==> r.value.dir == DirOfName(o.attrs["dir"].name)
  {
    var dir :- match GetAttr(o, GAME_CONTROLS_DEFAULTS, "dir")
      case Some(Null) => Ok(None)
      case Some(Member("Direction", n)) =>
        if DirOfName(n).Some? then Ok(Some(DirOfName(n).value)) else Err("KeyError")
      case _ => Err("TypeError");
    var fire := GetAttr(o, GAME_CONTROLS_DEFAULTS, "fire");
    Ok(GameControls(dir, fire.Some? && Truthy(fire.value)))
  }

  /** A decoded `ClientData` as `recvClientData` reads it. `gameControls` has no class
      default, so an input without it raises AttributeError when it is read. */
  function ClientDataOf(o: Value): (r: Result<ClientData>)
    requires o.Object?
    ensures "gameControls" !in o.attrs ==> r.Err?
    ensures r.Ok? && "playerName" !in o.attrs ==> r.value.playerName.None?
    ensures var n := GetAttr(o, CLIENT_DATA_DEFAULTS, "playerName");
      && (r.Ok? ==> n.Some? && (n.value == Null <==> r.value.playerName.None?))
      && (r.Ok? && r.value.playerName.Some? ==> n.value == Str(r.value.playerName.value))
      && (n.Some? && !n.value.Null? && !n.value.Str? ==> r.Err?)
    ensures var g := GetAttr(o, CLIENT_DATA_DEFAULTS, "gameControls");
      && (r.Ok? ==> g.Some? && (g.value == Null <==> r.value.gameControls.None?))
      && (r.Ok? && r.value.gameControls.Some? ==>
            g.value.Object? && g.value.cls == "GameControls" && GameControlsOf(g.value) == Ok(r.value.gameControls.value))
    ensures var n := GetAttr(o, CLIENT_DATA_DEFAULTS, "playerName");
      var g := GetAttr(o, CLIENT_DATA_DEFAULTS, "gameControls");
      r.Ok? <==>
        && n.Some? && (n.value.Null? || n.value.Str?)
        && g.Some? && (g.value.Null? || (g.value.Object? && g.value.cls == "GameControls" && GameControlsOf(g.value).Ok?))
  {
    var name :- match GetAttr(o, CLIENT_DATA_DEFAULTS, "playerName")
      case Some(Null) => Ok(None)
      case Some(Str(s)) => Ok(Some(s))
      case _ => Err("TypeError");
    var controls :- match GetAttr(o, CLIENT_DATA_DEFAULTS, "gameControls")
      case Some(Null) => Ok(None)
      case Some(Object("GameControls", a)) =>
        var gc :- GameControlsOf(Object("GameControls", a));
        Ok(Some(gc))
      case Some(_) => Err("TypeError")
      case None => Err("AttributeError");
    Ok(ClientData(name, controls))
  }

  /** `ofBytes(b, ClientData)` after JSON parsing: the object `ofDict` builds, read back. */
  function DecodeClientData(data: Value): Result<ClientData> {
    var o :- OfDict(CLIENT_DATA_SCHEMA, "ClientData", data);
    ClientDataOf(o)
  }

  lemma ClientDataFieldsRoundTrip(cd: ClientData)
    ensures RoundTrips(ClassFields, CLIENT_DATA_SCHEMA, ClientDataValue(cd))
  {
    var v := ClientDataValue(cd);
    if cd.gameControls.Some? {
      var g := GameControlsValue(cd.gameControls.value);
      assert RoundTrips(ClassFields, GAME_CONTROLS_SCHEMA, g);
      assert v.attrs["gameControls"] == g;
    }
  }

  lemma ProjectClientData(cd: ClientData)
    ensures Project(ClassFields, ClientDataValue(cd)) == ClientDataValue(cd)
  {
    if cd.gameControls.Some? {
      var g := GameControlsValue(cd.gameControls.value);
      ProjectDropsExtras(ClassFields, "GameControls", g.attrs, map[]);
      assert g.attrs + map[] == g.attrs;
    }
    var v := ClientDataValue(cd);
    ProjectDropsExtras(ClassFields, "ClientData", v.attrs, map[]);
    assert v.attrs + map[] == v.attrs;
  }

  lemma GameControlsOfValue(gc: GameControls)
    ensures GameControlsOf(GameControlsValue(gc)) == Ok(gc)
  {
  }

  lemma ClientDataOfValue(cd: ClientData)
    ensures ClientDataOf(ClientDataValue(cd)) == Ok(cd)
  {
    if cd.gameControls.Some? {
      GameControlsOfValue(cd.gameControls.value);
    }
  }

  /** Every value the model encodes sets each field of its class's manifest on the
      instance, so `toDict` never falls back to a class attribute for it (`FullObjectToDict`). */
  lemma TankValueIsFull(t: Tank)
    ensures ClassFields("Tank") <= TankValue(t).attrs.Keys
  {
    TankWireKeys(t);
    assert ClassFields("Tank") == TANK_FIELDS;
  }

  lemma MissleValueIsFull(m: Missle)
    ensures ClassFields("Missle") <= MissleValue(m).attrs.Keys
  {
    MissleWireKeys(m);
    assert ClassFields("Missle") == DIRECTED_OBJ_FIELDS;
  }

  lemma EffectValueIsFull(o: GameObj)
    ensures ClassFields("Punch") <= PunchValue(o).attrs.Keys && ClassFields("Boom") <= BoomValue(o).attrs.Keys
    ensures ClassFields("Pos") <= PosValue(o.pos).attrs.Keys
  {
    assert ClassFields("Punch") == GAME_OBJ_FIELDS && ClassFields("Boom") == GAME_OBJ_FIELDS;
  }

  lemma ClientValuesAreFull(gc: GameControls, cd: ClientData)
    ensures ClassFields("GameControls") <= GameControlsValue(gc).attrs.Keys
    ensures ClassFields("ClientData") <= ClientDataValue(cd).attrs.Keys
  {
    assert ClassFields("GameControls") == GAME_CONTROLS_FIELDS;
    assert ClassFields("ClientData") == CLIENT_DATA_FIELDS;
  }

  /** What a client sends is what the server reads: name and controls both survive. */
  lemma ClientDataRoundTrip(cd: ClientData)
    ensures DecodeClientData(Encode(ClassFields, ClientDataValue(cd))) == Ok(cd)
  {
    var v := ClientDataValue(cd);
    ClientDataFieldsRoundTrip(cd);
    RoundTrip(ClassFields, CLIENT_DATA_SCHEMA, v);
    ProjectClientData(cd);
    assert OfDict(CLIENT_DATA_SCHEMA, "ClientData", Encode(ClassFields, v)) == Ok(v);
    ClientDataOfValue(cd);
  }

  /** An empty JSON object decodes, but reading its controls fails; `{"gameControls": null}`
      decodes to no name and no controls. */
  lemma ClientDataMissingControls()
    ensures DecodeClientData(Dict(map[])).Err?
    ensures DecodeClientData(Dict(map["gameControls" := Null])) == Ok(ClientData(None, None))
  {
    assert OfDict(CLIENT_DATA_SCHEMA, "ClientData", Dict(map[])) == Ok(Object("ClientData", map[]));
    var d := map["gameControls" := Null];
    var o := OfDict(CLIENT_DATA_SCHEMA, "ClientData", Dict(d));
    assert o.value.attrs.Keys == {"gameControls"};
  }
}

=== FILE: gamemap.dfy ===
/** The terrain grid: rows of block symbols, the spawn points found while loading, and a
    version counter that the simulation bumps on every terrain change. */
module Maps {
  import opened Geometry

  /** `GameMap.BLOCK_SIZE`: the pixel width of one grid cell. */
  const BLOCK_SIZE := 32

  /** `size` is (width, height) in cells; `blocks[y][x]` is the symbol at column x, row y. */
  datatype GameMap = GameMap(size: Pos, blocks: seq<string>, spawns: seq<Pos>, version: int)

  /** `GameMap()`: nothing loaded yet, at the class default version 0. */
  function NewMap(): GameMap {
    GameMap(Pos(0, 0), [], [], 0)
  }

  /** `s.find(c)` for a one-character needle: the first index of `c`, or -1. */
  function Find(s: string, c: char): (i: int)
    ensures -1 <= i < |s|
    ensures i == -1 <==> c !in s
    ensures 0 <= i ==> s[i] == c && c !in s[..i]
  {
    if |s| == 0 then -1
    else if s[0] == c then 0
    else
      var j := Find(s[1..], c);
      if j == -1 then -1
      else
        assert s[..j + 1] == [s[0]] + s[1..][..j];
        j + 1
  }

  /** `s.replace(a, b)` for one-character strings. */
  function ReplaceChar(s: string, a: char, b: char): string {
    seq(|s|, k requires 0 <= k < |s| => if s[k] == a then b else s[k])
  }

  /** What loading makes of one map-file character: `=` is brick level 4, `*` is ground. */
  function CleanChar(c: char): char {
    if c == '=' then '4' else if c == '*' then ' ' else c
  }

  function CleanRow(line: string): string {
    seq(|line|, k requires 0 <= k < |line| => CleanChar(line[k]))
  }

  /** The spawn points of row `y`, left to right. */
  function Stars(line: string, y: int): seq<Pos> {
    if |line| == 0 then []
    else Stars(line[..|line| - 1], y) + (if line[|line| - 1] == '*' then [Pos(|line| - 1, y)] else [])
  }

  /** The spawn points of all rows, row by row. */
  function AllStars(lines: seq<string>): seq<Pos> {
    if |lines| == 0 then []
    else AllStars(lines[..|lines| - 1]) + Stars(lines[|lines| - 1], |lines| - 1)
  }

  function MaxWidth(lines: seq<string>): nat {
    if |lines| == 0 then 0
    else
      var w := MaxWidth(lines[..|lines| - 1]);
      if |lines[|lines| - 1]| > w then |lines[|lines| - 1]| else w
  }

  /** The map `load` builds from the file's lines (newlines already stripped). Loading starts
      from scratch: earlier blocks, spawns and version play no part. */
  function Load(lines: seq<string>): GameMap {
    GameMap(Pos(MaxWidth(lines), |lines|),
            seq(|lines|, i requires 0 <= i < |lines| => CleanRow(lines[i])),
            AllStars(lines), 0)
  }

  /** `GameMap.load`'s loop as written: each line is cleaned in turn, its spawn points are
      appended, and the width and height are tracked. */
  method ParseLines(lines: seq<string>) returns (m: GameMap)
    ensures m == Load(lines)
  {
    var width, height := 0, 0;
    var blocks: seq<string> := [];
    var spawns: seq<Pos> := [];
    while height < |lines|
      invariant 0 <= height <= |lines|
      invariant blocks == seq(height, i requires 0 <= i < height => CleanRow(lines[i]))
      invariant spawns == AllStars(lines[..height])
      invariant width == MaxWidth(lines[..height])
    {
      var line, found := ParseLine(lines[height], height);
      assert lines[..height + 1][..height] == lines[..height];
      blocks := blocks + [line];
      spawns := spawns + found;
      if |line| > width {
        width := |line|;
      }
      height := height + 1;
    }
    assert lines[..height] == lines;
    m := GameMap(Pos(width, height), blocks, spawns, 0);
  }

  /** The body of `load`'s loop for row `y`: replace `=`, then repeatedly find the leftmost
      `*`, record it as a spawn and overwrite it with a space. */
  method ParseLine(src: string, y: int) returns (line: string, found: seq<Pos>)
    ensures line == CleanRow(src)
    ensures found == Stars(src, y)
  {
    line := ReplaceChar(src, '=', '4');
    found := [];
    ghost var done := 0;
    while true
      invariant |line| == |src|
      invariant 0 <= done <= |line|
      invariant forall k :: 0 <= k < done ==> line[k] == CleanChar(src[k])
      invariant forall k :: done <= k < |line| ==> line[k] == (if src[k] == '=' then '4' else src[k])
      invariant found == Stars(src[..done], y)
      decreases |line| - done
    {
      var i := Find(line, '*');
      if i == -1 {
        break;
      }
      forall k | done <= k < i
        ensures src[k] != '*'
      {
        assert line[..i][k] == line[k];
      }
      assert line[i] == '*';
      assert src[i] == '*';
      StarsSkip(src, done, i, y);
      assert src[..i + 1][..i] == src[..i];
      var next := line[..i] + " " + line[i + 1..];
      assert forall k :: 0 <= k < |next| ==> next[k] == if k == i then ' ' else line[k];
      found := found + [Pos(i, y)];
      line := next;
      done := i + 1;
    }
    StarsSkip(src, done, |src|, y);
    assert src[..|src|] == src;
  }

  /** A stretch without `*` adds no spawn points. */
  lemma {:induction false} StarsSkip(s: string, a: int, b: int, y: int)
    requires 0 <= a <= b <= |s|
    requires forall k :: a <= k < b ==> s[k] != '*'
    ensures Stars(s[..b], y) == Stars(s[..a], y)
  {
    if a < b {
      StarsSkip(s, a, b - 1, y);
      assert s[..b][..b - 1] == s[..b - 1];
    }
  }

  /** Every spawn of `Stars` marks a `*` of its row, and they run strictly left to right. */
  lemma {:induction false} StarsSpec(line: string, y: int)
    ensures forall p :: p in Stars(line, y) ==> p.y == y && 0 <= p.x < |line| && line[p.x] == '*'
    ensures forall x :: 0 <= x < |line| && line[x] == '*' ==> Pos(x, y) in Stars(line, y)
    ensures forall i, j :: 0 <= i < j < |Stars(line, y)| ==> Stars(line, y)[i].x < Stars(line, y)[j].x
  {
    if |line| > 0 {
      var init := line[..|line| - 1];
      StarsSpec(init, y);
      forall x | 0 <= x < |line| - 1
        ensures line[x] == init[x]
      {
      }
      var a := Stars(init, y);
      var s := Stars(line, y);
      forall i, j | 0 <= i < j < |s|
        ensures s[i].x < s[j].x
      {
        if j < |a| {
          assert s[i] == a[i] && s[j] == a[j];
        } else {
          assert s[i] == a[i] && a[i] in a;
        }
      }
    }
  }

  /** Row-major order on grid positions. */
  predicate Before(p: Pos, q: Pos) {
    p.y < q.y || (p.y == q.y && p.x < q.x)
  }

  lemma {:induction false} AllStarsSpec(lines: seq<string>)
    ensures forall p :: p in AllStars(lines) ==>
      0 <= p.y < |lines| && 0 <= p.x < |lines[p.y]| && lines[p.y][p.x] == '*'
    ensures forall y, x :: 0 <= y < |lines| && 0 <= x < |lines[y]| && lines[y][x] == '*' ==>
      Pos(x, y) in AllStars(lines)
    ensures forall i, j :: 0 <= i < j < |AllStars(lines)| ==> Before(AllStars(lines)[i], AllStars(lines)[j])
  {
    if |lines| > 0 {
      var n := |lines| - 1;
      var init := lines[..n];
      AllStarsSpec(init);
      StarsSpec(lines[n], n);
      var a := AllStars(init);
      var b := Stars(lines[n], n);
      assert AllStars(lines) == a + b;
      forall i, j | 0 <= i < j < |a + b|
        ensures Before((a + b)[i], (a + b)[j])
      {
        if j < |a| {
          assert (a + b)[i] == a[i] && (a + b)[j] == a[j];
        } else if i < |a| {
          assert a[i] in a;
          assert b[j - |a|] in b;
        } else if i >= |a| {
          assert (a + b)[i] == b[i - |a|] && (a + b)[j] == b[j - |a|];
        }
      }
    }
  }

  /** Loading leaves no marker characters: `=` became `4` and `*` became a space. */
  lemma LoadHasNoMarkers(lines: seq<string>)
    ensures var m := Load(lines);
      forall y, x :: 0 <= y < |m.blocks| && 0 <= x < |m.blocks[y]| ==>
        m.blocks[y][x] != '*' && m.blocks[y][x] != '='
  {
  }

  /** Loading is character for character: rows keep their lengths and every character other
      than the two markers is kept. */
  lemma LoadKeepsCharacters(lines: seq<string>)
    ensures |Load(lines).blocks| == |lines|
    ensures forall y :: 0 <= y < |lines| ==> |Load(lines).blocks[y]| == |lines[y]|
    ensures forall y, x :: 0 <= y < |lines| && 0 <= x < |lines[y]| && lines[y][x] != '*' && lines[y][x] != '=' ==>
      Load(lines).blocks[y][x] == lines[y][x]
  {
  }

  /** One spawn per `*` of the file, at (column, row), in row-major order, on a ground cell. */
  lemma LoadSpawns(lines: seq<string>)
    ensures var m := Load(lines);
      && (forall p :: p in m.spawns ==>
            0 <= p.y < |m.blocks| && 0 <= p.x < |m.blocks[p.y]| &&
            lines[p.y][p.x] == '*' && m.blocks[p.y][p.x] == ' ')
      && (forall y, x :: 0 <= y < |lines| && 0 <= x < |lines[y]| && lines[y][x] == '*' ==>
            Pos(x, y) in m.spawns)
      && (forall i, j :: 0 <= i < j < |m.spawns| ==> Before(m.spawns[i], m.spawns[j]))
  {
    AllStarsSpec(lines);
  }

  /** `size` is (longest row, number of rows); every row fits and one row attains the width. */
  lemma {:induction false} LoadSize(lines: seq<string>)
    ensures var m := Load(lines);
      && m.size.y == |lines|
      && (forall y :: 0 <= y < |m.blocks| ==> |m.blocks[y]| <= m.size.x)
      && (|lines| == 0 ==> m.size == Pos(0, 0))
      && (|lines| > 0 ==> exists y :: 0 <= y < |m.blocks| && |m.blocks[y]| == m.size.x)
      && m.version == 0
  {
    MaxWidthSpec(lines);
    if |lines| > 0 {
      var y :| 0 <= y < |lines| && |lines[y]| == MaxWidth(lines);
      assert |Load(lines).blocks[y]| == |lines[y]|;
    }
  }

  lemma {:induction false} MaxWidthSpec(lines: seq<string>)
    ensures forall y :: 0 <= y < |lines| ==> |lines[y]| <= MaxWidth(lines)
    ensures |lines| > 0 ==> exists y :: 0 <= y < |lines| && |lines[y]| == MaxWidth(lines)
  {
    if |lines| > 0 {
      var init := lines[..|lines| - 1];
      MaxWidthSpec(init);
      assert forall y :: 0 <= y < |init| ==> init[y] == lines[y];
    }
  }

  /** A cell that exists: row `p.y`, column `p.x`. */
  predicate InBounds(m: GameMap, p: Pos) {
    0 <= p.y < |m.blocks| && 0 <= p.x < |m.blocks[p.y]|
  }

  /** Two maps with the same number of rows and the same row lengths. */
  predicate SameShape(a: GameMap, b: GameMap) {
    && |a.blocks| == |b.blocks|
    && forall y :: 0 <= y < |a.blocks| ==> |a.blocks[y]| == |b.blocks[y]|
  }

  /** `getBlock` at column `p.x`, row `p.y`. */
  function GetBlock(m: GameMap, p: Pos): char
    requires InBounds(m, p)
  {
    m.blocks[p.y][p.x]
  }

  /** `setBlock`: writes the first character of `block` into one cell. */
  function SetBlock(m: GameMap, p: Pos, block: string): (r: GameMap)
    requires InBounds(m, p)
    requires |block| > 0
    ensures SameShape(m, r)
    ensures GetBlock(r, p) == block[0]
    ensures forall q :: InBounds(m, q) && q != p ==> GetBlock(r, q) == GetBlock(m, q)
    ensures r.size == m.size && r.spawns == m.spawns && r.version == m.version
  {
    var row := m.blocks[p.y];
    m.(blocks := m.blocks[p.y := row[..p.x] + [block[0]] + row[p.x + 1..]])
  }
}

=== FILE: geometry.dfy ===
/** Integer plane geometry: points, headings and square boxes. Sizes are scalar: a box of
    size `s` at `pos` covers the half-open square [pos.x, pos.x+s) x [pos.y, pos.y+s). */
module Geometry {
  import opened PyInt

  /** The four headings; screen coordinates, so UP decreases y. */
  datatype Direction = Up | Right | Down | Left

  /** A point, an offset or a 2D size (`Pos`, `Vector` and `Dims` are one type). */
  datatype Pos = Pos(x: int, y: int)

  function Add(p: Pos, q: Pos): Pos {
    Pos(p.x + q.x, p.y + q.y)
  }

  function Sub(p: Pos, q: Pos): Pos {
    Pos(p.x - q.x, p.y - q.y)
  }

  /** `p * k`, scaling by an integer. */
  function Mul(p: Pos, k: int): Pos {
    Pos(p.x * k, p.y * k)
  }

  /** `p // k`, Python floor division of both coordinates. */
  function Div(p: Pos, k: int): Pos
    requires k != 0
  {
    Pos(FloorDiv(p.x, k), FloorDiv(p.y, k))
  }

  /** `p.move(dir, offset)`: LEFT and UP subtract, RIGHT and DOWN add. */
  function Move(p: Pos, dir: Direction, offset: int): Pos {
    match dir
    case Left => Sub(p, Pos(offset, 0))
    case Right => Add(p, Pos(offset, 0))
    case Up => Sub(p, Pos(0, offset))
    case Down => Add(p, Pos(0, offset))
  }

  /** The unit step of a heading, an independent description of `Move`. */
  function Unit(dir: Direction): Pos {
    match dir
    case Up => Pos(0, -1)
    case Right => Pos(1, 0)
    case Down => Pos(0, 1)
    case Left => Pos(-1, 0)
  }

  function Opposite(dir: Direction): Direction {
    match dir
    case Up => Down
    case Right => Left
    case Down => Up
    case Left => Right
  }

  /** A square box (`Box`, also called `Rect`). */
  datatype Box = Box(pos: Pos, size: int)

  /** `Box.centeredTo(other, size)`: a box of the given size whose margin inside `other` is
      `(other.size - size) // 2` on the left and top. */
  function CenteredTo(other: Box, size: int): (r: Box)
    ensures r.size == size
  {
    var margin := FloorDiv(other.size - size, 2);
    Box(Pos(other.pos.x + margin, other.pos.y + margin), size)
  }

  /** `a.intersects(b)`: the open interiors overlap on both axes. */
  predicate Intersects(a: Box, b: Box) {
    && a.pos.x + a.size > b.pos.x && a.pos.x < b.pos.x + b.size
    && a.pos.y + a.size > b.pos.y && a.pos.y < b.pos.y + b.size
  }

  /** `p in b`: half-open containment. */
  predicate Contains(b: Box, p: Pos) {
    && b.pos.x <= p.x < b.pos.x + b.size
    && b.pos.y <= p.y < b.pos.y + b.size
  }

  lemma AddSubInverse(p: Pos, q: Pos)
    ensures Sub(Add(p, q), q) == p
  {
  }

  lemma ScaleByOne(p: Pos)
    ensures Mul(p, 1) == p
    ensures Div(p, 1) == p
  {
  }

  /** `move` is a step of `offset` unit vectors along the heading. */
  lemma MoveIsScaledUnit(p: Pos, dir: Direction, offset: int)
    ensures Move(p, dir, offset) == Add(p, Mul(Unit(dir), offset))
  {
  }

  /** `move` changes exactly one coordinate, by exactly `offset`. */
  lemma MoveChangesOneCoordinate(p: Pos, dir: Direction, offset: int)
    ensures var q := Move(p, dir, offset);
      if dir == Left || dir == Right
      then q.y == p.y && (q.x - p.x == offset || p.x - q.x == offset)
      else q.x == p.x && (q.y - p.y == offset || p.y - q.y == offset)
  {
  }

  /** Moving back by the same offset in the opposite heading restores the point. */
  lemma MoveBack(p: Pos, dir: Direction, offset: int)
    ensures Move(Move(p, dir, offset), Opposite(dir), offset) == p
  {
  }

  lemma IntersectsSymmetric(a: Box, b: Box)
    ensures Intersects(a, b) <==> Intersects(b, a)
  {
  }

  /** Boxes that only share a vertical or a horizontal edge do not intersect. */
  lemma EdgeContactIsNotIntersection(a: Box, b: Box)
    requires a.pos.x + a.size == b.pos.x || a.pos.y + a.size == b.pos.y
    ensures !Intersects(a, b) && !Intersects(b, a)
  {
  }

  /** Containment is half-open: a box holds its corner but not the far edges. */
  lemma ContainsHalfOpen(b: Box)
    requires b.size > 0
    ensures Contains(b, b.pos)
    ensures !Contains(b, Add(b.pos, Pos(b.size, 0)))
    ensures !Contains(b, Add(b.pos, Pos(0, b.size)))
  {
  }

  /** Two non-empty boxes intersect exactly when some point lies in both. */
  lemma IntersectsIffSharedPoint(a: Box, b: Box)
    requires a.size > 0 && b.size > 0
    ensures Intersects(a, b) <==> exists p :: Contains(a, p) && Contains(b, p)
  {
    if Intersects(a, b) {
      var p := Pos(if a.pos.x < b.pos.x then b.pos.x else a.pos.x,
                   if a.pos.y < b.pos.y then b.pos.y else a.pos.y);
      assert Contains(a, p) && Contains(b, p);
    }
  }

  /** A centred box that is no larger than its container lies inside it. */
  lemma CenteredToInside(other: Box, size: int, p: Pos)
    requires size <= other.size
    requires Contains(CenteredTo(other, size), p)
    ensures Contains(other, p)
  {
  }

  /** Centring splits the spare room evenly, the odd pixel going right and down. */
  lemma CenteredToMargins(other: Box, size: int)
    ensures var r := CenteredTo(other, size);
      var left := r.pos.x - other.pos.x;
      var right := (other.pos.x + other.size) - (r.pos.x + r.size);
      && left == r.pos.y - other.pos.y
      && left <= right <= left + 1
  {
    var m := FloorDiv(other.size - size, 2);
    assert 2 * m <= other.size - size < 2 * m + 2;
  }

  /** `p // k` brackets `p` between consecutive multiples of `k`, also for negatives. */
  lemma DivBrackets(p: Pos, k: int)
    requires k > 0
    ensures var c := Mul(Div(p, k), k);
      && c.x <= p.x < c.x + k
      && c.y <= p.y < c.y + k
  {
  }

  /** A point lies in the k-sized cell that `p // k` names. */
  lemma PointInItsCell(p: Pos, k: int)
    requires k > 0
    ensures Contains(Box(Mul(Div(p, k), k), k), p)
  {
    DivBrackets(p, k);
  }
}

=== FILE: nameinput.dfy ===
/** The player-name entry box's key handling. The text a key produces is appended,
    upper-cased, while the name is short; Backspace deletes; Return finishes. */
module NameInput {

  const MAX_NAME_LEN := 10

  /** The keys the box reacts to other than by their text. */
  datatype Key = Backspace | Return | OtherKey

  /** A key press: the key, and the text it types (`event.unicode`, possibly empty). */
  datatype KeyEvent = KeyEvent(key: Key, text: string)

  datatype NameBox = NameBox(name: string, finished: bool)

  predicate IsLetter(c: char) {
    'A' <= c <= 'Z' || 'a' <= c <= 'z'
  }

  /** A character the pattern `[\w -]` admits: a letter, a digit, `_`, a space or `-`. */
  predicate NameChar(c: char) {
    IsLetter(c) || '0' <= c <= '9' || c == '_' || c == ' ' || c == '-'
  }

  /** `re.fullmatch(r"[\w -]+", text)` succeeds. */
  predicate Typeable(text: string) {
    |text| > 0 && forall i :: 0 <= i < |text| ==> NameChar(text[i])
  }

  function UpperChar(c: char): (r: char)
    ensures 'a' <= c <= 'z' ==> 'A' <= r <= 'Z' && r as int == c as int - 32
    ensures !('a' <= c <= 'z') ==> r == c
  {
    if 'a' <= c <= 'z' then (c as int - 32) as char else c
  }

  /** `str.upper()`. */
  function Upper(s: string): (r: string)
    ensures |r| == |s|
    ensures forall i :: 0 <= i < |s| ==> r[i] == UpperChar(s[i])
  {
    seq(|s|, i requires 0 <= i < |s| => UpperChar(s[i]))
  }

  /** `handleKeyDown(event)`. */
  function HandleKeyDown(b: NameBox, e: KeyEvent): (r: NameBox)
    ensures Typeable(e.text) && |b.name| < MAX_NAME_LEN ==> r == b.(name := b.name + Upper(e.text))
    ensures Typeable(e.text) && |b.name| >= MAX_NAME_LEN ==> r == b
    ensures !Typeable(e.text) && e.key == Backspace ==>
      r == b.(name := if |b.name| > 0 then b.name[..|b.name| - 1] else b.name)
    ensures !Typeable(e.text) && e.key == Return ==> r == b.(finished := true)
    ensures !Typeable(e.text) && e.key == OtherKey ==> r == b
    ensures r.finished <==> b.finished || (!Typeable(e.text) && e.key == Return)
  {
    if Typeable(e.text) then
      if |b.name| < MAX_NAME_LEN then b.(name := b.name + Upper(e.text)) else b
    else
      match e.key
      case Backspace => if |b.name| > 0 then b.(name := b.name[..|b.name| - 1]) else b
      case Return => b.(finished := true)
      case OtherKey => b
  }

  /** A name the box can hold: upper-case letters, digits, `_`, space and `-`. */
  predicate Clean(name: string) {
    forall i :: 0 <= i < |name| ==> NameChar(name[i]) && !('a' <= name[i] <= 'z')
  }

  /** Typing keeps a clean name clean, and with one character per key press the name never
      grows past `MAX_NAME_LEN`. */
  lemma KeyKeepsNameClean(b: NameBox, e: KeyEvent)
    requires Clean(b.name)
    ensures Clean(HandleKeyDown(b, e).name)
    ensures |b.name| <= MAX_NAME_LEN && |e.text| <= 1 ==> |HandleKeyDown(b, e).name| <= MAX_NAME_LEN
  {
    var r := HandleKeyDown(b, e);
    if Typeable(e.text) && |b.name| < MAX_NAME_LEN {
      var u := Upper(e.text);
      forall i | 0 <= i < |r.name|
        ensures NameChar(r.name[i]) && !('a' <= r.name[i] <= 'z')
      {
        if i >= |b.name| {
          assert r.name[i] == u[i - |b.name|] == UpperChar(e.text[i - |b.name|]);
        }
      }
    }
  }

  /** Backspace undoes one typed character. */
  lemma BackspaceUndoesTyping(b: NameBox, c: char, k: Key)
    requires NameChar(c) && |b.name| < MAX_NAME_LEN
    ensures HandleKeyDown(HandleKeyDown(b, KeyEvent(k, [c])), KeyEvent(Backspace, [])) == b
  {
    var typed := HandleKeyDown(b, KeyEvent(k, [c]));
    assert typed.name[..|typed.name| - 1] == b.name;
  }

  /** Return does not type: its text (a carriage return) is not admitted, so it finishes
      the entry and leaves the name alone. */
  lemma ReturnFinishes(b: NameBox)
    ensures HandleKeyDown(b, KeyEvent(Return, "\r")) == b.(finished := true)
  {
    var text := "\r";
    assert !NameChar(text[0]);
    assert !Typeable(text);
  }
}

=== FILE: obj.dfy ===
/** `ObjCollection`: objects stored under integer keys, with deferred ("lazy") removal.
    A Python dict keeps insertion order, so the model keeps the key order explicitly:
    overwriting a key keeps its place, a new key goes last, and popping a key drops it. */
module Objects {
  import opened Wrappers

  datatype Collection<T> = Collection(objs: map<int, T>, order: seq<int>, removed: set<int>)

  ghost predicate Distinct(s: seq<int>) {
    forall i, j :: 0 <= i < j < |s| ==> s[i] != s[j]
  }

  /** The order lists every stored key exactly once. */
  ghost predicate Valid<T>(c: Collection<T>) {
    && Distinct(c.order)
    && (forall k :: k in c.objs <==> k in c.order)
  }

  /** The elements of `s` outside `ks`, in their original order. */
  function Without(s: seq<int>, ks: set<int>): (r: seq<int>)
    ensures forall x :: x in r <==> x in s && x !in ks
    ensures |r| <= |s|
    ensures Distinct(s) ==> Distinct(r)
  {
    if |s| == 0 then []
    else
      var rest := Without(s[..|s| - 1], ks);
      if s[|s| - 1] in ks then rest else rest + [s[|s| - 1]]
  }

  /** `ObjCollection()`. */
  function Empty<T>(): (r: Collection<T>)
    ensures Valid(r)
    ensures forall k :: k !in r.objs && k !in r.removed
  {
    Collection(map[], [], {})
  }

  /** The keys iteration visits, in order: stored keys not pending removal. */
  function VisibleKeys<T>(c: Collection<T>): seq<int> {
    Without(c.order, c.removed)
  }

  /** Iteration (`__iter__`) collected into a list (`toList`). */
  function ToList<T>(c: Collection<T>): seq<T>
    requires Valid(c)
  {
    var ks := VisibleKeys(c);
    seq(|ks|, i requires 0 <= i < |ks| => assert ks[i] in ks; c.objs[ks[i]])
  }

  /** `get(key)`: pending removals are still returned. */
  function Get<T>(c: Collection<T>, key: int): Option<T> {
    if key in c.objs then Some(c.objs[key]) else None
  }

  /** `add(obj)` for an object whose key is `key`: stores or overwrites. */
  function Add<T>(c: Collection<T>, key: int, obj: T): (r: Collection<T>)
    requires Valid(c)
    ensures Valid(r)
    ensures Get(r, key) == Some(obj)
    ensures forall k :: k != key ==> Get(r, k) == Get(c, k)
    ensures r.removed == c.removed
    ensures VisibleKeys(r) ==
      if key in c.objs || key in c.removed then VisibleKeys(c) else VisibleKeys(c) + [key]
  {
    if key in c.objs then c.(objs := c.objs[key := obj])
    else
      var r := Collection(c.objs[key := obj], c.order + [key], c.removed);
      assert (c.order + [key])[..|c.order|] == c.order;
      r
  }

  /** `remove(obj)` (eager): pops the key at once; a no-op when it is absent. */
  function RemoveNow<T>(c: Collection<T>, key: int): (r: Collection<T>)
    requires Valid(c)
    ensures Valid(r)
    ensures Get(r, key) == None
    ensures forall k :: k != key ==> Get(r, k) == Get(c, k)
    ensures r.removed == c.removed
    ensures key !in c.objs ==> r == c
  {
    if key in c.objs then Collection(c.objs - {key}, Without(c.order, {key}), c.removed) else c
  }

  /** `remove(obj, lazy=True)`: only marks the key. */
  function RemoveLazy<T>(c: Collection<T>, key: int): (r: Collection<T>)
    ensures forall k :: Get(r, k) == Get(c, k)
    ensures r.removed == c.removed + {key}
    ensures r.order == c.order
  {
    c.(removed := c.removed + {key})
  }

  /** `remove(obj, lazy)`. */
  function Remove<T>(c: Collection<T>, key: int, lazy: bool): (r: Collection<T>)
    requires Valid(c)
    ensures Valid(r)
  {
    if lazy then RemoveLazy(c, key) else RemoveNow(c, key)
  }

  /** `purge()`: applies every pending removal and forgets them. */
  function Purge<T>(c: Collection<T>): (r: Collection<T>)
    requires Valid(c)
    ensures Valid(r)
    ensures r.removed == {}
    ensures r.objs.Keys == c.objs.Keys - c.removed
    ensures forall k :: k in r.objs ==> r.objs[k] == c.objs[k]
    ensures VisibleKeys(r) == VisibleKeys(c)
  {
    var r := Collection(map k | k in c.objs && k !in c.removed :: c.objs[k], Without(c.order, c.removed), {});
    WithoutNothing(r.order);
    r
  }

  /** `clear()`: drops the stored objects but keeps the pending-removal marks. */
  function Clear<T>(c: Collection<T>): (r: Collection<T>)
    ensures Valid(r)
    ensures forall k :: Get(r, k) == None
    ensures r.removed == c.removed
  {
    Collection(map[], [], c.removed)
  }

  /** `ObjCollection.ofList`: the decoded objects, each under its key, inserted in list order. */
  function OfList<T>(items: seq<(int, T)>): (r: Collection<T>)
    ensures Valid(r)
    ensures r.removed == {}
    ensures r.objs.Keys == KeysOf(items)
  {
    if |items| == 0 then Empty()
    else
      var last := items[|items| - 1];
      Add(OfList(items[..|items| - 1]), last.0, last.1)
  }

  /** The keys a list of keyed objects mentions. */
  function KeysOf<T>(items: seq<(int, T)>): (r: set<int>)
    ensures forall i :: 0 <= i < |items| ==> items[i].0 in r
    ensures forall k :: k in r ==> exists i :: 0 <= i < |items| && items[i].0 == k
  {
    if |items| == 0 then {}
    else KeysOf(items[..|items| - 1]) + {items[|items| - 1].0}
  }

  lemma {:induction false} WithoutNothing(s: seq<int>)
    ensures Without(s, {}) == s
  {
    if |s| > 0 {
      WithoutNothing(s[..|s| - 1]);
    }
  }

  /** Filtering distributes over appending one key. */
  lemma WithoutAppend(s: seq<int>, x: int, ks: set<int>)
    ensures Without(s + [x], ks) == Without(s, ks) + (if x in ks then [] else [x])
  {
    assert (s + [x])[..|s|] == s;
  }

  /** A key is visited by iteration exactly when it is stored and not pending removal. */
  lemma VisibleKeysSpec<T>(c: Collection<T>, k: int)
    requires Valid(c)
    ensures k in VisibleKeys(c) <==> k in c.objs && k !in c.removed
  {
  }

  /** A list of distinct keys has as many elements as its set of keys. */
  lemma {:induction false} DistinctCard(s: seq<int>)
    requires Distinct(s)
    ensures |set x | x in s| == |s|
  {
    if |s| > 0 {
      var init := s[..|s| - 1];
      DistinctCard(init);
      assert (set x | x in s) == (set x | x in init) + {s[|s| - 1]};
      assert s[|s| - 1] !in init;
    }
  }

  /** `toList` yields one element per stored key that is not pending removal. */
  lemma ToListCount<T>(c: Collection<T>)
    requires Valid(c)
    ensures |ToList(c)| == |c.objs.Keys - c.removed|
  {
    var ks := VisibleKeys(c);
    DistinctCard(ks);
    assert (set x | x in ks) == c.objs.Keys - c.removed;
  }

  /** Iteration yields exactly the stored objects whose key is not pending removal. */
  lemma ToListMembers<T>(c: Collection<T>, o: T)
    requires Valid(c)
    ensures o in ToList(c) <==> exists k :: k in c.objs && k !in c.removed && c.objs[k] == o
  {
    var ks := VisibleKeys(c);
    var l := ToList(c);
    if o in l {
      var i :| 0 <= i < |l| && l[i] == o;
      assert ks[i] in ks;
    }
    if k :| k in c.objs && k !in c.removed && c.objs[k] == o {
      assert k in ks;
      var i :| 0 <= i < |ks| && ks[i] == k;
      assert l[i] == o;
    }
  }

  lemma PurgeIdempotent<T>(c: Collection<T>)
    requires Valid(c)
    ensures Purge(Purge(c)) == Purge(c)
  {
  }

  /** A lazily removed object stays reachable through `get` until the next purge. */
  lemma LazyRemoveThenPurge<T>(c: Collection<T>, key: int)
    requires Valid(c)
    ensures Get(RemoveLazy(c, key), key) == Get(c, key)
    ensures key !in VisibleKeys(RemoveLazy(c, key))
    ensures Get(Purge(RemoveLazy(c, key)), key) == None
    ensures forall k :: k != key && k !in c.removed ==> Get(Purge(RemoveLazy(c, key)), k) == Get(c, k)
  {
  }

  /** After `clear()` nothing is iterated, and a key re-added after it is iterated only when
      it was not pending removal. */
  lemma ClearThenAdd<T>(c: Collection<T>, key: int, obj: T)
    ensures ToList(Clear(c)) == []
    ensures ToList(Add(Clear(c), key, obj)) == if key in c.removed then [] else [obj]
  {
    var e := Clear(c);
    assert VisibleKeys(e) == [];
    var a := Add(e, key, obj);
    assert a.objs == map[key := obj];
    if key in c.removed {
      assert VisibleKeys(a) == [];
    } else {
      assert VisibleKeys(a) == [key];
      assert ToList(a)[0] == obj;
    }
  }

  /** The purge after `clear()` forgets the kept removal marks: a fresh collection. */
  lemma ClearThenPurge<T>(c: Collection<T>)
    ensures Purge(Clear(c)) == Empty()
  {
    var p := Purge(Clear(c));
    assert p.objs == map[];
    assert p.order == [];
  }

  /** `add` does not cancel a pending lazy removal: the key stays hidden and the next purge
      drops the new object. */
  lemma AddKeepsPendingRemoval<T>(c: Collection<T>, key: int, obj: T)
    requires Valid(c)
    requires key in c.removed
    ensures Get(Add(c, key, obj), key) == Some(obj)
    ensures key !in VisibleKeys(Add(c, key, obj))
    ensures Get(Purge(Add(c, key, obj)), key) == None
  {
  }

  /** `ofList` keeps, for each key, the last object listed under it. */
  lemma {:induction false} OfListLastWins<T>(items: seq<(int, T)>, i: int)
    requires 0 <= i < |items|
    requires forall j :: i < j < |items| ==> items[j].0 != items[i].0
    ensures Get(OfList(items), items[i].0) == Some(items[i].1)
  {
    if i < |items| - 1 {
      OfListLastWins(items[..|items| - 1], i);
    }
  }

  /** The keys of a list of keyed objects, in list order. */
  function KeySeq<T>(items: seq<(int, T)>): seq<int> {
    if |items| == 0 then [] else KeySeq(items[..|items| - 1]) + [items[|items| - 1].0]
  }

  /** `ofList` of distinct keys keeps them in list order. */
  lemma {:induction false} OfListOrder<T>(items: seq<(int, T)>)
    requires forall i, j :: 0 <= i < j < |items| ==> items[i].0 != items[j].0
    ensures VisibleKeys(OfList(items)) == KeySeq(items)
  {
    if |items| > 0 {
      var init := items[..|items| - 1];
      var last := items[|items| - 1];
      OfListOrder(init);
      forall i | 0 <= i < |init|
        ensures init[i].0 != last.0
      {
        assert init[i] == items[i];
      }
    }
  }

  /** A sequence of adds and lazy removals, as the simulation performs them. */
  datatype Op<T> = AddOp(key: int, obj: T) | LazyRemoveOp(key: int)

  function Apply<T>(c: Collection<T>, ops: seq<Op<T>>): (r: Collection<T>)
    requires Valid(c)
    ensures Valid(r)
  {
    if |ops| == 0 then c
    else
      var prev := Apply(c, ops[..|ops| - 1]);
      match ops[|ops| - 1]
      case AddOp(k, o) => Add(prev, k, o)
      case LazyRemoveOp(k) => RemoveLazy(prev, k)
  }

  /** The keys some `AddOp` of `ops` adds. */
  function AddedKeys<T>(ops: seq<Op<T>>): set<int> {
    if |ops| == 0 then {}
    else AddedKeys(ops[..|ops| - 1]) + (if ops[|ops| - 1].AddOp? then {ops[|ops| - 1].key} else {})
  }

  /** The keys some `LazyRemoveOp` of `ops` marks. */
  function LazyKeys<T>(ops: seq<Op<T>>): set<int> {
    if |ops| == 0 then {}
    else LazyKeys(ops[..|ops| - 1]) + (if ops[|ops| - 1].LazyRemoveOp? then {ops[|ops| - 1].key} else {})
  }

  lemma {:induction false} ApplyKeys<T>(c: Collection<T>, ops: seq<Op<T>>)
    requires Valid(c)
    ensures Apply(c, ops).objs.Keys == c.objs.Keys + AddedKeys(ops)
    ensures Apply(c, ops).removed == c.removed + LazyKeys(ops)
  {
    if |ops| > 0 {
      var init := ops[..|ops| - 1];
      ApplyKeys(c, init);
    }
  }

  /** After any interleaving of adds and lazy removals on a fresh collection, `purge` leaves
      exactly the added keys minus the lazily removed ones. */
  lemma PurgeAfterOps<T>(ops: seq<Op<T>>)
    ensures Purge(Apply(Empty(), ops)).objs.Keys == AddedKeys(ops) - LazyKeys(ops)
  {
    ApplyKeys(Empty(), ops);
  }
}

=== FILE: pyint.dfy ===
/** Python's integer division and remainder. Dafny's `/` and `%` are Euclidean; Python's
    `//` rounds toward negative infinity and `%` takes the sign of the divisor. */
module PyInt {

  /** `a // b`; a zero divisor raises ZeroDivisionError in Python. */
  function FloorDiv(a: int, b: int): (q: int)
    requires b != 0
    ensures b > 0 ==> q * b <= a < q * b + b
    ensures b < 0 ==> q * b + b < a <= q * b
  {
    if b > 0 then a / b else (-a) / (-b)
  }

  /** `a % b`, the remainder that goes with `FloorDiv`. */
  function Mod(a: int, b: int): (r: int)
    requires b != 0
    ensures a == FloorDiv(a, b) * b + r
    ensures b > 0 ==> 0 <= r < b
    ensures b < 0 ==> b < r <= 0
  {
    if b > 0 then a % b else -((-a) % (-b))
  }

  /** A dividend already below a positive divisor is its own remainder. */
  lemma ModOfSmall(a: int, b: int)
    requires 0 <= a < b
    ensures Mod(a, b) == a
  {
  }

  /** A positive divisor leaves no remainder of itself. */
  lemma ModOfSelf(b: int)
    requires b > 0
    ensures Mod(b, b) == 0
  {
  }
}

=== FILE: serde.dfy ===
/** The field-manifest codec. Python objects are modelled as dynamic values: a Serde
    instance is an `Object` holding the attributes set on it, an enum member is a `Member`,
    and JSON data is modelled by the `Null`/`Int`/`Bool`/`Str`/`List`/`Dict` cases. JSON
    numbers with a fraction or an exponent, which `json.loads` reads as floats, have no case
    here. The per-class converter table that `getCvts` derives from type hints is given as
    data (`Schema`). */
module Serde {
  import opened Wrappers

  datatype Value =
    | Null
    | Int(i: int)
    | Bool(b: bool)
    | Str(s: string)
    | Member(enum: string, name: string)
    | List(items: seq<Value>)
    | Dict(entries: map<string, Value>)
    | Object(cls: string, attrs: map<string, Value>)

  /** The values a JSON document can hold. */
  predicate IsJson(v: Value) {
    match v
    case Member(_, _) => false
    case Object(_, _) => false
    case List(xs) => forall i :: 0 <= i < |xs| ==> IsJson(xs[i])
    case Dict(d) => forall k :: k in d ==> IsJson(d[k])
    case _ => true
  }

  /** A converter: enum lookup by member name (`typ.__getitem__`), a nested class's
      `ofDict`, or `Pos.ofDict`, which reads the keys "x" and "y". */
  datatype Cvt =
    | ByName(enum: string, members: set<string>)
    | Nested(cls: string, schema: Schema)
    | PosOfDict

  /** A class's `__serde_fields__` and its converter table. */
  datatype Schema = Schema(fields: set<string>, cvts: map<string, Cvt>)

  /** `__serde_fields__` of every class, by class name. */
  type Manifest = string -> set<string>

  /** `Serde.toDict`: the manifest fields present on the object; a field value that has its
      own `toDict` (a nested object) is replaced by that method's result. */
  function ToDict(manifest: Manifest, o: Value): (r: Value)
    requires o.Object?
    ensures r.Dict?
    ensures r.entries.Keys == manifest(o.cls) * o.attrs.Keys
    ensures forall f :: f in r.entries && !o.attrs[f].Object? ==> r.entries[f] == o.attrs[f]
    ensures forall f :: f in r.entries && o.attrs[f].Object? ==> r.entries[f] == ToDict(manifest, o.attrs[f])
  {
    Dict(map f | f in manifest(o.cls) && f in o.attrs ::
           if o.attrs[f].Object? then ToDict(manifest, o.attrs[f]) else o.attrs[f])
  }

  /** What the JSON encoder writes, with `JsonEncoderEx.default`: an object is written as its
      `toDict()`, an enum member as its name; JSON data is written as it is. */
  function Encode(manifest: Manifest, v: Value): (r: Value)
    ensures IsJson(r)
    ensures r == Null <==> v == Null
  {
    match v
    case Member(_, n) => Str(n)
    case List(xs) => List(seq(|xs|, i requires 0 <= i < |xs| => Encode(manifest, xs[i])))
    case Dict(d) => Dict(map k | k in d :: Encode(manifest, d[k]))
    case Object(c, a) => Dict(map f | f in manifest(c) && f in a :: Encode(manifest, a[f]))
    case _ => v
  }

  /** The value a field receives from `ofDict`: `None` as it is, otherwise through the
      field's converter when it has one. */
  function FieldValue(schema: Schema, f: string, v: Value): (r: Result<Value>)
    decreases v, 2
  {
    if v == Null then Ok(Null)
    else if f in schema.cvts then Convert(schema.cvts[f], v)
    else Ok(v)
  }

  /** Applies one converter; a failed lookup raises (KeyError, TypeError, AttributeError). */
  function Convert(cvt: Cvt, v: Value): (r: Result<Value>)
    decreases v, 1
  {
    match cvt
    case ByName(e, ms) =>
      if v.Str? && v.s in ms then Ok(Member(e, v.s)) else Err("KeyError")
    case Nested(c, s) => OfDict(s, c, v)
    case PosOfDict =>
      if v.Dict? && "x" in v.entries && "y" in v.entries
      then Ok(Object("Pos", map["x" := v.entries["x"], "y" := v.entries["y"]]))
      else Err("KeyError")
  }

  /** `Serde.ofDict`: a fresh instance (no `__init__`) on which every input field that is in
      the manifest is set; other input keys are ignored and absent fields stay unset. */
  function OfDict(schema: Schema, cls: string, data: Value): (r: Result<Value>)
    decreases data, 0
    ensures r.Ok? <==>
      data.Dict? && forall f :: f in data.entries && f in schema.fields ==> FieldValue(schema, f, data.entries[f]).Ok?
    ensures r.Ok? ==> r.value.Object? && r.value.cls == cls
    ensures r.Ok? ==> r.value.attrs.Keys == data.entries.Keys * schema.fields
    ensures r.Ok? ==> forall f :: f in r.value.attrs ==>
      Ok(r.value.attrs[f]) == FieldValue(schema, f, data.entries[f])
  {
    if !data.Dict? then Err("AttributeError")
    else
      var d := data.entries;
      if exists f :: f in d && f in schema.fields && FieldValue(schema, f, d[f]).Err? then
        Err("ConversionError")
      else
        Ok(Object(cls, map f | f in d && f in schema.fields :: FieldValue(schema, f, d[f]).value))
  }

  /** Attribute lookup: an attribute set on the instance, else the class attribute, else
      AttributeError (`None` here). */
  function GetAttr(o: Value, defaults: map<string, Value>, f: string): (r: Option<Value>)
    requires o.Object?
    ensures f in o.attrs ==> r == Some(o.attrs[f])
    ensures f !in o.attrs && f in defaults ==> r == Some(defaults[f])
    ensures f !in o.attrs && f !in defaults ==> r == None
  {
    if f in o.attrs then Some(o.attrs[f])
    else if f in defaults then Some(defaults[f])
    else None
  }

  /** On an object that sets every field of its manifest, the class-attribute fallback of
      `getattr` is never reached: `toDict` emits every manifest field, read from the instance. */
  lemma FullObjectToDict(manifest: Manifest, defaults: map<string, Value>, o: Value)
    requires o.Object? && manifest(o.cls) <= o.attrs.Keys
    ensures ToDict(manifest, o).entries.Keys == manifest(o.cls)
    ensures forall f :: f in manifest(o.cls) ==> GetAttr(o, defaults, f) == Some(o.attrs[f])
    ensures Encode(manifest, o).entries.Keys == manifest(o.cls)
  {
  }

  /** An object restricted to the fields its manifest carries, nested objects likewise. */
  function Project(manifest: Manifest, v: Value): Value {
    match v
    case Object(c, a) => Object(c, map f | f in manifest(c) && f in a :: Project(manifest, a[f]))
    case _ => v
  }

  /** The objects whose manifest fields survive encoding and decoding: the schema is the
      class's manifest, and each field holds `None`, JSON data (no converter), a member of the
      field's enum, a point, or a nested object of the field's class that survives in turn. */
  predicate RoundTrips(manifest: Manifest, schema: Schema, o: Value)
    requires o.Object?
    decreases o, 0
  {
    && schema.fields == manifest(o.cls)
    && forall f :: f in o.attrs && f in schema.fields ==> FieldRoundTrips(manifest, schema, f, o.attrs[f])
  }

  predicate FieldRoundTrips(manifest: Manifest, schema: Schema, f: string, v: Value)
    decreases v, 1
  {
    || v == Null
    || (f !in schema.cvts && IsJson(v))
    || (f in schema.cvts &&
        match schema.cvts[f]
        case ByName(e, ms) => v.Member? && v.enum == e && v.name in ms
        case PosOfDict =>
          && v.Object? && v.cls == "Pos" && manifest("Pos") == {"x", "y"}
          && "x" in v.attrs && "y" in v.attrs && IsJson(v.attrs["x"]) && IsJson(v.attrs["y"])
        case Nested(c, s) => v.Object? && v.cls == c && RoundTrips(manifest, s, v))
  }

  /** JSON data is written unchanged. */
  lemma {:induction false} EncodeJson(manifest: Manifest, v: Value)
    requires IsJson(v)
    ensures Encode(manifest, v) == v
  {
    match v
    case List(xs) =>
      forall i | 0 <= i < |xs|
        ensures Encode(manifest, xs[i]) == xs[i]
      {
        EncodeJson(manifest, xs[i]);
      }
    case Dict(d) =>
      forall k | k in d
        ensures Encode(manifest, d[k]) == d[k]
      {
        EncodeJson(manifest, d[k]);
      }
    case _ =>
  }

  /** Writing an object is writing its `toDict()`: the encoder's `default` hook and
      `Serde.toDict`'s own recursion into nested objects agree. */
  lemma {:induction false} EncodeViaToDict(manifest: Manifest, o: Value)
    requires o.Object?
    ensures Encode(manifest, o) == Encode(manifest, ToDict(manifest, o))
  {
    var t := ToDict(manifest, o);
    forall f | f in t.entries
      ensures Encode(manifest, t.entries[f]) == Encode(manifest, o.attrs[f])
    {
      if o.attrs[f].Object? {
        EncodeViaToDict(manifest, o.attrs[f]);
      }
    }
  }

  /** Enums are written as their member name, which the enum converter maps back. */
  lemma EnumRoundTrip(manifest: Manifest, e: string, members: set<string>, n: string)
    ensures Convert(ByName(e, members), Encode(manifest, Member(e, n))).Ok? <==> n in members
    ensures n in members ==> Convert(ByName(e, members), Encode(manifest, Member(e, n))) == Ok(Member(e, n))
  {
  }

  /** Decoding what was encoded gives back every manifest field of the object (and of its
      nested objects); fields outside the manifest are not carried. */
  lemma {:induction false} RoundTrip(manifest: Manifest, schema: Schema, o: Value)
    requires o.Object?
    requires RoundTrips(manifest, schema, o)
    ensures OfDict(schema, o.cls, Encode(manifest, o)) == Ok(Project(manifest, o))
    decreases o, 0
  {
    var e := Encode(manifest, o);
    var d := e.entries;
    forall f | f in d && f in schema.fields
      ensures FieldValue(schema, f, d[f]) == Ok(Project(manifest, o.attrs[f]))
    {
      FieldRoundTrip(manifest, schema, f, o.attrs[f]);
    }
    var r := OfDict(schema, o.cls, e);
    assert r.value.attrs == map f | f in manifest(o.cls) && f in o.attrs :: Project(manifest, o.attrs[f]);
  }

  lemma {:induction false} FieldRoundTrip(manifest: Manifest, schema: Schema, f: string, v: Value)
    requires FieldRoundTrips(manifest, schema, f, v)
    ensures FieldValue(schema, f, Encode(manifest, v)) == Ok(Project(manifest, v))
    decreases v, 1
  {
    if v == Null {
    } else if f !in schema.cvts && IsJson(v) {
      EncodeJson(manifest, v);
    } else {
      match schema.cvts[f]
      case ByName(e, ms) =>
      case PosOfDict =>
        var x, y := v.attrs["x"], v.attrs["y"];
        EncodeJson(manifest, x);
        EncodeJson(manifest, y);
        assert Project(manifest, v).attrs == map["x" := x, "y" := y];
      case Nested(c, s) =>
        RoundTrip(manifest, s, v);
    }
  }

  /** Attributes outside the manifest are dropped by projection. */
  lemma ProjectDropsExtras(manifest: Manifest, cls: string, kept: map<string, Value>,
                           extra: map<string, Value>)
    requires manifest(cls) == kept.Keys
    requires forall f :: f in extra ==> f !in kept
    requires forall f :: f in kept ==> Project(manifest, kept[f]) == kept[f]
    ensures Project(manifest, Object(cls, kept + extra)) == Object(cls, kept)
  {
    var p := Project(manifest, Object(cls, kept + extra));
    assert p.attrs.Keys == kept.Keys;
  }

  /** A manifest field missing from the input is read back through the class default. */
  lemma MissingFieldUsesDefault(schema: Schema, cls: string, data: map<string, Value>,
                                defaults: map<string, Value>, f: string)
    requires OfDict(schema, cls, Dict(data)).Ok?
    requires f !in data
    ensures GetAttr(OfDict(schema, cls, Dict(data)).value, defaults, f) ==
      if f in defaults then Some(defaults[f]) else None
  {
  }
}

=== FILE: server_client.dfy ===
/** One connected player as the server sees it: the map and world updates it is sent, the
    input it sends back, and how that input drives its tank. */
module ServerClient {
  import opened Wrappers
  import opened Geometry
  import opened Objects
  import opened Maps
  import opened Serde
  import opened GameData
  import opened ServerWorld
  import opened ServerTanks
  import opened ServerMissles

  /** `Client`. `tank` is the player's own tank object: before the player joins it is held
      only here; once it is in the world the world's copy (same key) is the live one.
      `mapVersion` is `None` until the first map is sent. */
  datatype Client = Client(tank: Tank, mapVersion: Option<int>, gameControls: GameControls, disconnected: bool)

  /** `Client(conn)`: a fresh default tank under `key`, no map sent, no controls. */
  function NewClient(key: int): (c: Client)
    ensures c.tank == NewTank(key) && c.mapVersion.None? && c.gameControls == NO_CONTROLS && !c.disconnected
  {
    Client(NewTank(key), None, NO_CONTROLS, false)
  }

  // ---- sending -----------------------------------------------------------------------

  /** A map as a dynamic object; its manifest sends only `size` and `blocks`. */
  function GameMapValue(m: GameMap): Value {
    Object("GameMap", map[
      "size" := PosValue(m.size),
      "blocks" := List(seq(|m.blocks|, i requires 0 <= i < |m.blocks| => Str(m.blocks[i]))),
      "spawns" := List(seq(|m.spawns|, i requires 0 <= i < |m.spawns| => PosValue(m.spawns[i]))),
      "version" := Int(m.version)])
  }

  /** The map as written on the wire: its size and rows; spawn points and version stay on
      the server. */
  lemma GameMapWire(m: GameMap)
    ensures Encode(ClassFields, GameMapValue(m)) ==
      Dict(map["size" := Dict(map["x" := Int(m.size.x), "y" := Int(m.size.y)]),
               "blocks" := List(seq(|m.blocks|, i requires 0 <= i < |m.blocks| => Str(m.blocks[i])))])
  {
    var e := Encode(ClassFields, GameMapValue(m));
    var rows := seq(|m.blocks|, i requires 0 <= i < |m.blocks| => Str(m.blocks[i]));
    assert IsJson(List(rows));
    EncodeJson(ClassFields, List(rows));
    assert e.entries.Keys == {"size", "blocks"};
    assert e.entries["blocks"] == List(rows);
    var size := Encode(ClassFields, PosValue(m.size));
    assert size.entries.Keys == {"x", "y"};
    assert size.entries["x"] == Encode(ClassFields, Int(m.size.x)) == Int(m.size.x);
    assert size.entries["y"] == Encode(ClassFields, Int(m.size.y)) == Int(m.size.y);
    assert size == Dict(map["x" := Int(m.size.x), "y" := Int(m.size.y)]);
    assert e.entries["size"] == size;
  }

  /** What a receiver rebuilds from the map on the wire: an object holding the size (as a
      point) and the rows; nothing else is carried. */
  lemma GameMapRoundTrip(m: GameMap)
    ensures OfDict(GAME_MAP_SCHEMA, "GameMap", Encode(ClassFields, GameMapValue(m))) ==
      Ok(Object("GameMap", map[
        "size" := PosValue(m.size),
        "blocks" := List(seq(|m.blocks|, i requires 0 <= i < |m.blocks| => Str(m.blocks[i])))]))
  {
    var v := GameMapValue(m);
    var rows := seq(|m.blocks|, i requires 0 <= i < |m.blocks| => Str(m.blocks[i]));
    assert IsJson(List(rows));
    assert FieldRoundTrips(ClassFields, GAME_MAP_SCHEMA, "blocks", List(rows));
    assert FieldRoundTrips(ClassFields, GAME_MAP_SCHEMA, "size", PosValue(m.size));
    assert RoundTrips(ClassFields, GAME_MAP_SCHEMA, v);
    RoundTrip(ClassFields, GAME_MAP_SCHEMA, v);
    ProjectMap(m);
  }

  lemma ProjectMap(m: GameMap)
    ensures Project(ClassFields, GameMapValue(m)) ==
      Object("GameMap", map[
        "size" := PosValue(m.size),
        "blocks" := List(seq(|m.blocks|, i requires 0 <= i < |m.blocks| => Str(m.blocks[i])))])
  {
    var v := GameMapValue(m);
    var kept := map["size" := PosValue(m.size), "blocks" := v.attrs["blocks"]];
    var extra := map["spawns" := v.attrs["spawns"], "version" := v.attrs["version"]];
    assert v.attrs == kept + extra;
    assert Project(ClassFields, PosValue(m.size)).attrs.Keys == {"x", "y"};
    ProjectDropsExtras(ClassFields, "GameMap", kept, extra);
  }

  /** `sendGameMap(gameMap)`: the map goes out and its version is recorded. */
  function SendGameMap(c: Client, m: GameMap): (r: (Client, Value))
    ensures r.0 == c.(mapVersion := Some(m.version))
    ensures r.1 == Encode(ClassFields, GameMapValue(m))
  {
    (c.(mapVersion := Some(m.version)), Encode(ClassFields, GameMapValue(m)))
  }

  /** The `ServerData` object of one update: the objects, and the map when attached. */
  function ServerDataValue(g: GameObjs, gameMap: Option<GameMap>): Value
    requires Valid(g.tanks) && Valid(g.missles) && Valid(g.punches) && Valid(g.booms)
  {
    Object("ServerData", map[
      "gameObjs" := GameObjsToDict(g),
      "gameMap" := if gameMap.Some? then GameMapValue(gameMap.value) else Null])
  }

  /** The `ServerData` object on the wire: the encoded objects and the encoded map (or
      `null`). */
  lemma ServerDataWire(g: GameObjs, gameMap: Option<GameMap>)
    requires Valid(g.tanks) && Valid(g.missles) && Valid(g.punches) && Valid(g.booms)
    ensures var data := Encode(ClassFields, ServerDataValue(g, gameMap));
      && data.Dict? && data.entries.Keys == {"gameObjs", "gameMap"}
      && data.entries["gameObjs"] == Encode(ClassFields, GameObjsToDict(g))
      && data.entries["gameMap"] == if gameMap.Some? then Encode(ClassFields, GameMapValue(gameMap.value)) else Null
  {
    var v := ServerDataValue(g, gameMap);
    assert ClassFields(v.cls) == {"gameObjs", "gameMap"};
    assert v.attrs.Keys == {"gameObjs", "gameMap"};
  }

  /** `sendServerData(gameMap, gameObjs)`: the objects always go out; the map goes with
      them only when it is newer than the version the client last received, and that
      version is then recorded. An unset `mapVersion` cannot be compared (TypeError). */
  function SendServerData(c: Client, m: GameMap, g: GameObjs): (r: Result<(Client, Value)>)
    requires Valid(g.tanks) && Valid(g.missles) && Valid(g.punches) && Valid(g.booms)
    ensures r.Err? <==> c.mapVersion.None?
    ensures r.Ok? ==>
      var (c1, data) := r.value;
      var sent := m.version > c.mapVersion.value;
      && c1 == c.(mapVersion := Some(if sent then m.version else c.mapVersion.value))
      && data.Dict? && data.entries.Keys == {"gameObjs", "gameMap"}
      && data.entries["gameObjs"] == Encode(ClassFields, GameObjsToDict(g))
      && (sent ==> data.entries["gameMap"] == Encode(ClassFields, GameMapValue(m)))
      && (!sent ==> data.entries["gameMap"] == Null)
  {
    if c.mapVersion.None? then Err("TypeError")
    else
      var sent := m.version > c.mapVersion.value;
      var data := ServerDataValue(g, if sent then Some(m) else None);
      var c1 := if sent then c.(mapVersion := Some(m.version)) else c;
      ServerDataWire(g, if sent then Some(m) else None);
      Ok((c1, Encode(ClassFields, data)))
  }

  /** A map is sent once per version: after an update the client's recorded version is the
      map's, so an immediate second update carries no map, and one after a map change
      does. */
  lemma MapSentOncePerVersion(c: Client, m: GameMap, g: GameObjs)
    requires Valid(g.tanks) && Valid(g.missles) && Valid(g.punches) && Valid(g.booms)
    requires c.mapVersion.Some? && c.mapVersion.value <= m.version
    ensures var c1 := SendServerData(c, m, g).value.0;
      && c1.mapVersion == Some(m.version)
      && SendServerData(c1, m, g).value.1.entries["gameMap"] == Null
      && SendServerData(c1, m.(version := m.version + 1), g).value.1.entries["gameMap"] != Null
  {
    var m1 := m.(version := m.version + 1);
    var c1 := SendServerData(c, m, g).value.0;
    GameMapWire(m1);
  }

  // ---- receiving ---------------------------------------------------------------------

  /** `recvClientData()` on one received JSON document (`None` when the connection yields
      nothing): nothing means disconnected; a document that does not decode raises; a
      given name is set on the player's tank (in the world too, once it is there), and
      given controls replace the current ones. */
  function RecvClientData(w: World, c: Client, payload: Option<Value>): (r: Result<(World, Client)>)
    requires Valid(w.gameObjs.tanks)
    ensures payload.None? ==> r == Ok((w, c.(disconnected := true)))
    ensures payload.Some? ==> (r.Err? <==> DecodeClientData(payload.value).Err?)
    ensures payload.Some? && r.Ok? ==>
      var cd := DecodeClientData(payload.value).value;
      var (w1, c1) := r.value;
      var key := c.tank.obj.key;
      && c1.disconnected == c.disconnected && c1.mapVersion == c.mapVersion
      && c1.tank == (if cd.playerName.Some? then c.tank.(name := cd.playerName) else c.tank)
      && c1.gameControls == (if cd.gameControls.Some? then cd.gameControls.value else c.gameControls)
      && w1.gameMap == w.gameMap && w1.nextKey == w.nextKey
      && w1.gameObjs == w.gameObjs.(tanks := w1.gameObjs.tanks)
      && Valid(w1.gameObjs.tanks)
      && w1.gameObjs.tanks.order == w.gameObjs.tanks.order
      && w1.gameObjs.tanks.removed == w.gameObjs.tanks.removed
      && w1.gameObjs.tanks.objs.Keys == w.gameObjs.tanks.objs.Keys
      && (forall k :: k in w.gameObjs.tanks.objs ==>
            w1.gameObjs.tanks.objs[k] ==
              if k == key && cd.playerName.Some? then w.gameObjs.tanks.objs[k].(name := cd.playerName)
              else w.gameObjs.tanks.objs[k])
  {
    if payload.None? then Ok((w, c.(disconnected := true)))
    else
      var cd :- DecodeClientData(payload.value);
      var key := c.tank.obj.key;
      var c1 := if cd.playerName.Some? then c.(tank := c.tank.(name := cd.playerName)) else c;
      var c2 := if cd.gameControls.Some? then c1.(gameControls := cd.gameControls.value) else c1;
      var w1 := if cd.playerName.Some? && key in w.gameObjs.tanks.objs
                then w.(gameObjs := w.gameObjs.(tanks := Put(w.gameObjs.tanks, key,
                                                           w.gameObjs.tanks.objs[key].(name := cd.playerName))))
                else w;
      Ok((w1, c2))
  }

  /** Whatever a player's client sends, the server takes it as sent: the name (if any) and
      the controls (if any) arrive unchanged. */
  lemma RecvWhatWasSent(w: World, c: Client, cd: ClientData)
    requires Valid(w.gameObjs.tanks)
    ensures var r := RecvClientData(w, c, Some(Encode(ClassFields, ClientDataValue(cd))));
      && r.Ok?
      && r.value.1.tank.name == (if cd.playerName.Some? then cd.playerName else c.tank.name)
      && r.value.1.gameControls == (if cd.gameControls.Some? then cd.gameControls.value else c.gameControls)
  {
    ClientDataRoundTrip(cd);
  }

  // ---- handleGameControls ------------------------------------------------------------

  /** The controls' move for the tank under `key`: a turn, one pixel forward, or nothing
      when blocked or when no direction is held. Water stops tanks. */
  function DriveTank(w: World, t: Terrain, key: int, dir: Option<Direction>): (r: World)
    requires Sound(w) && key in w.gameObjs.tanks.objs
    requires var tank := w.gameObjs.tanks.objs[key];
      dir.Some? && dir.value == tank.heading ==> ProbesInBounds(w.gameMap, TankKind, tank.obj.pos, tank.heading)
    ensures Sound(r) && r.gameMap == w.gameMap && r.nextKey == w.nextKey
    ensures r.gameObjs == w.gameObjs.(tanks := r.gameObjs.tanks)
    ensures r.gameObjs.tanks == w.gameObjs.tanks.(objs := r.gameObjs.tanks.objs)
    ensures r.gameObjs.tanks.objs.Keys == w.gameObjs.tanks.objs.Keys
    ensures forall k :: k in w.gameObjs.tanks.objs && k != key ==>
      r.gameObjs.tanks.objs[k] == w.gameObjs.tanks.objs[k]
    ensures var tank := w.gameObjs.tanks.objs[key];
      var u := r.gameObjs.tanks.objs[key];
      && (dir.None? ==> u == tank)
      && (dir.Some? && dir.value != tank.heading ==> u == tank.(heading := dir.value))
      && (dir.Some? && dir.value == tank.heading ==>
            var step := Advance(w, t, TankKind, tank.obj.pos, tank.heading, true);
            && (step.Advanced? ==> u == tank.(obj := tank.obj.(pos := Move(tank.obj.pos, tank.heading, 1))))
            && (step.Blocked? ==> u == tank))
  {
    var tank := w.gameObjs.tanks.objs[key];
    if dir.None? then w
    else match MoveObject(w, t, TankKind, tank.obj.pos, tank.heading, true, dir)
      case Turned(h) => PutTank(w, key, tank.(heading := h))
      case Stepped(Advanced(p)) => PutTank(w, key, tank.(obj := tank.obj.(pos := p)))
      case Stepped(Blocked(_)) => w
  }

  /** `handleGameControls(client)`: the held direction drives the player's tank, then the
      fire button shoots. A tank that is not in the world yet is left unchanged here. In
      server.py it cannot fire, because its missile clock starts at 0 and only advances in
      the world, but it can be driven. Those moves are not modelled; they matter only when
      the tank joins at its driven position, which `findFreeSpawn` reads before `spawnTank`
      resets it, and when driving it off the map raises `IndexError`. */
  function HandleGameControls(w: World, t: Terrain, c: Client): (r: World)
    requires Sound(w)
    requires var key := c.tank.obj.key;
      key in w.gameObjs.tanks.objs && c.gameControls.dir.Some? &&
      c.gameControls.dir.value == w.gameObjs.tanks.objs[key].heading ==>
        ProbesInBounds(w.gameMap, TankKind, w.gameObjs.tanks.objs[key].obj.pos, w.gameObjs.tanks.objs[key].heading)
    ensures Sound(r) && r.gameMap == w.gameMap
    ensures c.tank.obj.key !in w.gameObjs.tanks.objs ==> r == w
    ensures r.gameObjs.punches == w.gameObjs.punches && r.gameObjs.booms == w.gameObjs.booms
    ensures r.gameObjs.tanks.objs.Keys == w.gameObjs.tanks.objs.Keys
    ensures !c.gameControls.fire ==> r.gameObjs.missles == w.gameObjs.missles && r.nextKey == w.nextKey
    ensures forall k :: k in w.gameObjs.tanks.objs && k != c.tank.obj.key ==>
      r.gameObjs.tanks.objs[k] == w.gameObjs.tanks.objs[k]
  {
    var key := c.tank.obj.key;
    if key !in w.gameObjs.tanks.objs then w
    else
      var w1 := DriveTank(w, t, key, c.gameControls.dir);
      if c.gameControls.fire then ShootMissle(w1, key) else w1
  }

  /** For a tank in the world, the held direction drives it as `DriveTank` does, and the
      fire button adds a missile launched from the driven tank, and resets its missile
      clock, exactly when the tank can fire; otherwise no missile is added. */
  lemma ControlsDriveAndFire(w: World, t: Terrain, c: Client)
    requires Sound(w)
    requires c.tank.obj.key in w.gameObjs.tanks.objs
    requires var key := c.tank.obj.key;
      c.gameControls.dir.Some? && c.gameControls.dir.value == w.gameObjs.tanks.objs[key].heading ==>
        ProbesInBounds(w.gameMap, TankKind, w.gameObjs.tanks.objs[key].obj.pos, w.gameObjs.tanks.objs[key].heading)
    ensures var key := c.tank.obj.key;
      var r := HandleGameControls(w, t, c);
      var driven := DriveTank(w, t, key, c.gameControls.dir).gameObjs.tanks.objs[key];
      var shoots := c.gameControls.fire && CanFire(w.gameObjs.tanks.objs[key]);
      && r.gameObjs.tanks.objs[key] == (if shoots then driven.(missleTick := 0) else driven)
      && (shoots ==>
            && r.gameObjs.missles == Objects.Add(w.gameObjs.missles, w.nextKey, NewMissle(w.nextKey, driven))
            && r.nextKey == w.nextKey + 1)
      && (!shoots ==> r.gameObjs.missles == w.gameObjs.missles && r.nextKey == w.nextKey)
  {
    var key := c.tank.obj.key;
    var w1 := DriveTank(w, t, key, c.gameControls.dir);
    var driven := w1.gameObjs.tanks.objs[key];
    assert CanFire(driven) == CanFire(w.gameObjs.tanks.objs[key]);
    if c.gameControls.fire && CanFire(driven) {
      assert Get(ShootMissle(w1, key).gameObjs.tanks, key) == Some(driven.(missleTick := 0));
    }
  }

  /** Driving never changes a tank's state, health, clocks or score, and firing only resets
      its missile clock: the controls cannot heal, hurt or revive. */
  lemma ControlsKeepVitals(w: World, t: Terrain, c: Client)
    requires Sound(w)
    requires c.tank.obj.key in w.gameObjs.tanks.objs
    requires var key := c.tank.obj.key;
      c.gameControls.dir.Some? && c.gameControls.dir.value == w.gameObjs.tanks.objs[key].heading ==>
        ProbesInBounds(w.gameMap, TankKind, w.gameObjs.tanks.objs[key].obj.pos, w.gameObjs.tanks.objs[key].heading)
    ensures var key := c.tank.obj.key;
      var before := w.gameObjs.tanks.objs[key];
      var after := HandleGameControls(w, t, c).gameObjs.tanks.objs[key];
      && after.state == before.state && after.health == before.health && after.stateTick == before.stateTick
      && after.fails == before.fails && after.wins == before.wins && after.name == before.name
      && after.obj.key == before.obj.key
      && (after.missleTick == before.missleTick || after.missleTick == 0)
  {
    var key := c.tank.obj.key;
    var before := w.gameObjs.tanks.objs[key];
    var w1 := DriveTank(w, t, key, c.gameControls.dir);
    var driven := w1.gameObjs.tanks.objs[key];
    assert driven == before.(heading := driven.heading, obj := before.obj.(pos := driven.obj.pos));
    if c.gameControls.fire {
      var r := ShootMissle(w1, key);
      if CanFire(driven) {
        assert Get(r.gameObjs.tanks, key) == Some(driven.(missleTick := 0));
      }
    }
  }

  /** Handling controls keeps the health/state invariant and the keying of the world. */
  lemma ControlsKeepInvariants(w: World, t: Terrain, c: Client)
    requires Sound(w)
    requires var key := c.tank.obj.key;
      key in w.gameObjs.tanks.objs && c.gameControls.dir.Some? &&
      c.gameControls.dir.value == w.gameObjs.tanks.objs[key].heading ==>
        ProbesInBounds(w.gameMap, TankKind, w.gameObjs.tanks.objs[key].obj.pos, w.gameObjs.tanks.objs[key].heading)
    requires TanksInv(w) && WellKeyed(w)
    ensures TanksInv(HandleGameControls(w, t, c)) && WellKeyed(HandleGameControls(w, t, c))
  {
    var key := c.tank.obj.key;
    if key in w.gameObjs.tanks.objs {
      var w1 := DriveTank(w, t, key, c.gameControls.dir);
      assert TankInv(w.gameObjs.tanks.objs[key]);
      assert TanksInv(w1) && WellKeyed(w1);
      ShootKeepsInvariants(w1, key);
    }
  }
}

=== FILE: server_missles.dfy ===
/** One frame of missiles and effects: `moveMissles` with its tank and brick damage,
    `animateObjects`, and `nextFrame`. */
module ServerMissles {
  import opened Wrappers
  import opened Geometry
  import opened Objects
  import opened Maps
  import opened GameData
  import opened ServerWorld
  import opened ServerTanks

  /** The representation of every collection is consistent. */
  ghost predicate Sound(w: World) {
    Valid(w.gameObjs.tanks) && Valid(w.gameObjs.missles) && Valid(w.gameObjs.punches) && Valid(w.gameObjs.booms)
  }

  /** Replaces the object stored under an existing key, in place. */
  function Put<T>(c: Collection<T>, key: int, obj: T): (r: Collection<T>)
    requires key in c.objs
    ensures Valid(c) ==> Valid(r)
    ensures r.order == c.order && r.removed == c.removed && r.objs.Keys == c.objs.Keys
  {
    c.(objs := c.objs[key := obj])
  }

  /** Stores `t` in place of the tank under `key`. */
  function PutTank(w: World, key: int, t: Tank): (r: World)
    requires key in w.gameObjs.tanks.objs
    ensures r.gameMap == w.gameMap && r.nextKey == w.nextKey
    ensures r.gameObjs == w.gameObjs.(tanks := r.gameObjs.tanks)
    ensures r.gameObjs.tanks == w.gameObjs.tanks.(objs := w.gameObjs.tanks.objs[key := t])
    ensures Sound(w) ==> Sound(r)
    ensures WellKeyed(w) && t.obj.key == key ==> WellKeyed(r)
    ensures TanksInv(w) && TankInv(t) ==> TanksInv(r)
  {
    w.(gameObjs := w.gameObjs.(tanks := Put(w.gameObjs.tanks, key, t)))
  }

  /** A new boom centred on `rect`, under the next fresh key. */
  function AddBoom(w: World, rect: Box): (r: World)
    requires Valid(w.gameObjs.booms)
    ensures r.gameMap == w.gameMap && r.nextKey == w.nextKey + 1
    ensures r.gameObjs == w.gameObjs.(booms := r.gameObjs.booms)
    ensures Valid(r.gameObjs.booms)
    ensures r.gameObjs.booms == Objects.Add(w.gameObjs.booms, w.nextKey,
                                            NewGameObj(w.nextKey, BoomKind, None, Some(rect)))
    ensures WellKeyed(w) ==> WellKeyed(r)
  {
    var o := NewGameObj(w.nextKey, BoomKind, None, Some(rect));
    AddKeepsEffectsKeyed(w, w.gameObjs.booms, o, true);
    w.(gameObjs := w.gameObjs.(booms := Objects.Add(w.gameObjs.booms, w.nextKey, o)),
       nextKey := w.nextKey + 1)
  }

  /** A new punch centred on `rect`, under the next fresh key. */
  function AddPunch(w: World, rect: Box): (r: World)
    requires Valid(w.gameObjs.punches)
    ensures r.gameMap == w.gameMap && r.nextKey == w.nextKey + 1
    ensures r.gameObjs == w.gameObjs.(punches := r.gameObjs.punches)
    ensures Valid(r.gameObjs.punches)
    ensures r.gameObjs.punches == Objects.Add(w.gameObjs.punches, w.nextKey,
                                              NewGameObj(w.nextKey, PunchKind, None, Some(rect)))
    ensures WellKeyed(w) ==> WellKeyed(r)
  {
    var o := NewGameObj(w.nextKey, PunchKind, None, Some(rect));
    AddKeepsEffectsKeyed(w, w.gameObjs.punches, o, false);
    w.(gameObjs := w.gameObjs.(punches := Objects.Add(w.gameObjs.punches, w.nextKey, o)),
       nextKey := w.nextKey + 1)
  }

  /** Adding an effect under its own key, the allocator's next one, keeps the world keyed
      once the allocator advances. */
  lemma AddKeepsEffectsKeyed(w: World, c: Collection<GameObj>, o: GameObj, isBoom: bool)
    requires Valid(c) && o.key == w.nextKey
    requires c == if isBoom then w.gameObjs.booms else w.gameObjs.punches
    ensures var c1 := Objects.Add(c, w.nextKey, o);
      var g := if isBoom then w.gameObjs.(booms := c1) else w.gameObjs.(punches := c1);
      WellKeyed(w) ==> WellKeyed(w.(gameObjs := g, nextKey := w.nextKey + 1))
  {
    var c1 := Objects.Add(c, w.nextKey, o);
    if WellKeyed(w) {
      AddKeepsCollectionKeyed(c, o, w.nextKey);
      var n := w.nextKey + 1;
      if isBoom {
        EffectsKeyed(w, w.gameObjs.punches, c1, n);
        assert w.gameObjs.(booms := c1) == w.gameObjs.(punches := w.gameObjs.punches, booms := c1);
      } else {
        EffectsKeyed(w, c1, w.gameObjs.booms, n);
        assert w.gameObjs.(punches := c1) == w.gameObjs.(punches := c1, booms := w.gameObjs.booms);
      }
    }
  }

  /** Adding an object under the bound keeps a collection keyed by its objects' keys. */
  lemma AddKeepsCollectionKeyed(c: Collection<GameObj>, o: GameObj, bound: int)
    requires Valid(c) && o.key == bound
    requires forall k :: k in c.objs ==> c.objs[k].key == k && k < bound
    ensures forall k :: k in Objects.Add(c, bound, o).objs ==>
      Objects.Add(c, bound, o).objs[k].key == k && k < bound + 1
  {
    var r := Objects.Add(c, bound, o);
    forall k | k in r.objs
      ensures Get(r, k) == if k == bound then Some(o) else Get(c, k)
    {
    }
  }

  // ---- damage ------------------------------------------------------------------------

  /** A lethal missile fired by `shooter` hits the tank under `target`: a fighting tank
      loses one health; at zero it explodes (a boom centred on it), dies with its clock
      reset and a fail counted, and the shooter, if still present, scores a win. A tank
      that is starting or dead takes no damage. */
  function HitTank(w: World, target: int, shooter: int): (r: World)
    requires Sound(w)
    requires target in w.gameObjs.tanks.objs
    ensures Sound(r) && r.gameMap == w.gameMap
    ensures r.gameObjs.missles == w.gameObjs.missles && r.gameObjs.punches == w.gameObjs.punches
    ensures VisibleKeys(r.gameObjs.tanks) == VisibleKeys(w.gameObjs.tanks)
    ensures r.gameObjs.tanks.objs.Keys == w.gameObjs.tanks.objs.Keys
    ensures var t := w.gameObjs.tanks.objs[target];
      var u := r.gameObjs.tanks.objs[target];
      && (t.state != Fight ==> r == w)
      && (t.state == Fight ==> u.health == t.health - 1 && u.obj == t.obj && u.name == t.name)
      && (t.state == Fight && t.health == 1 ==>
            && u.state == Dead && u.stateTick == 0 && u.fails == t.fails + 1
            && r.gameObjs.booms == Objects.Add(w.gameObjs.booms, w.nextKey,
                                               NewGameObj(w.nextKey, BoomKind, None, Some(TankRect(t))))
            && r.nextKey == w.nextKey + 1)
      && (t.state == Fight && t.health != 1 ==>
            u == t.(health := t.health - 1) && r.gameObjs.booms == w.gameObjs.booms && r.nextKey == w.nextKey)
    ensures var t := w.gameObjs.tanks.objs[target];
      forall k :: k in w.gameObjs.tanks.objs && k != target ==>
        r.gameObjs.tanks.objs[k] ==
          if t.state == Fight && t.health == 1 && k == shooter
          then w.gameObjs.tanks.objs[k].(wins := w.gameObjs.tanks.objs[k].wins + 1)
          else w.gameObjs.tanks.objs[k]
    ensures var t := w.gameObjs.tanks.objs[target];
      var u := r.gameObjs.tanks.objs[target];
      t.state == Fight && t.health == 1 ==>
        u.wins == if shooter == target then t.wins + 1 else t.wins
  {
    var tanks := w.gameObjs.tanks;
    var t := tanks.objs[target];
    if t.state != Fight then w
    else if t.health != 1 then PutTank(w, target, t.(health := t.health - 1))
    else
      KilledTanks(w, target, shooter);
      KillTank(w, target, shooter)
  }

  /** The lethal hit on the tank under `target`: a boom is centred on it under the next
      fresh key, on top of the victim's death and the shooter's win (`Killed`). */
  function KillTank(w: World, target: int, shooter: int): (r: World)
    requires Sound(w)
    requires target in w.gameObjs.tanks.objs
    ensures Sound(r) && r.gameMap == w.gameMap && r.nextKey == w.nextKey + 1
    ensures r.gameObjs == Killed(w, target, shooter).gameObjs.(booms := r.gameObjs.booms)
    ensures r.gameObjs.booms == Objects.Add(w.gameObjs.booms, w.nextKey,
                                            NewGameObj(w.nextKey, BoomKind, None, Some(TankRect(w.gameObjs.tanks.objs[target]))))
    ensures WellKeyed(w) ==> WellKeyed(r)
  {
    var w2 := Killed(w, target, shooter);
    AddBoom(w2, TankRect(w.gameObjs.tanks.objs[target]))
  }

  /** The victim of a lethal hit loses its last health point and dies with its clock reset
      and a fail counted; then the shooter, if present (the victim included), scores a win. */
  function Killed(w: World, target: int, shooter: int): (r: World)
    requires Sound(w)
    requires target in w.gameObjs.tanks.objs
    ensures Sound(r) && r.gameMap == w.gameMap && r.nextKey == w.nextKey
    ensures r.gameObjs == w.gameObjs.(tanks := r.gameObjs.tanks)
    ensures r.gameObjs.tanks.order == w.gameObjs.tanks.order && r.gameObjs.tanks.removed == w.gameObjs.tanks.removed
    ensures r.gameObjs.tanks.objs.Keys == w.gameObjs.tanks.objs.Keys
    ensures WellKeyed(w) ==> WellKeyed(r)
  {
    var t := w.gameObjs.tanks.objs[target];
    var dead := t.(health := t.health - 1, state := Dead, stateTick := 0, fails := t.fails + 1);
    assert WellKeyed(w) ==> dead.obj.key == target;
    CreditWin(PutTank(w, target, dead), shooter)
  }

  /** Which tanks a lethal hit changes, and how: the victim as `Killed` describes, the
      shooter one win up, every other tank as it was. */
  lemma KilledTanks(w: World, target: int, shooter: int)
    requires Sound(w) && target in w.gameObjs.tanks.objs
    ensures var ts := Killed(w, target, shooter).gameObjs.tanks.objs;
      var t := w.gameObjs.tanks.objs[target];
      var dead := t.(health := t.health - 1, state := Dead, stateTick := 0, fails := t.fails + 1);
      && ts[target] == (if shooter == target then dead.(wins := t.wins + 1) else dead)
      && forall k :: k in w.gameObjs.tanks.objs && k != target ==>
           ts[k] == if k == shooter then w.gameObjs.tanks.objs[k].(wins := w.gameObjs.tanks.objs[k].wins + 1)
                    else w.gameObjs.tanks.objs[k]
  {
    var t := w.gameObjs.tanks.objs[target];
    var dead := t.(health := t.health - 1, state := Dead, stateTick := 0, fails := t.fails + 1);
    var w1 := PutTank(w, target, dead);
    assert w1.gameObjs.tanks.objs == w.gameObjs.tanks.objs[target := dead];
  }

  /** The shooter, if still present, scores a win. */
  function CreditWin(w: World, shooter: int): (r: World)
    requires Sound(w)
    ensures Sound(r) && r.gameMap == w.gameMap && r.nextKey == w.nextKey
    ensures r.gameObjs == w.gameObjs.(tanks := r.gameObjs.tanks)
    ensures r.gameObjs.tanks.order == w.gameObjs.tanks.order && r.gameObjs.tanks.removed == w.gameObjs.tanks.removed
    ensures r.gameObjs.tanks.objs.Keys == w.gameObjs.tanks.objs.Keys
    ensures forall k :: k in w.gameObjs.tanks.objs ==>
      r.gameObjs.tanks.objs[k] ==
        if k == shooter then w.gameObjs.tanks.objs[k].(wins := w.gameObjs.tanks.objs[k].wins + 1)
        else w.gameObjs.tanks.objs[k]
    ensures TanksInv(w) ==> TanksInv(r)
    ensures WellKeyed(w) ==> WellKeyed(r)
  {
    if shooter in w.gameObjs.tanks.objs then
      var s := w.gameObjs.tanks.objs[shooter];
      assert TanksInv(w) ==> TankInv(s);
      assert WellKeyed(w) ==> s.obj.key == shooter;
      PutTank(w, shooter, s.(wins := s.wins + 1))
    else w
  }

  /** A hit keeps the health/state invariant and the keying of the world. */
  lemma HitTankKeepsInvariants(w: World, target: int, shooter: int)
    requires Sound(w)
    requires target in w.gameObjs.tanks.objs
    ensures var r := HitTank(w, target, shooter);
      && (TankInv(w.gameObjs.tanks.objs[target]) ==> TankInv(r.gameObjs.tanks.objs[target]))
      && (TanksInv(w) ==> TanksInv(r))
      && (WellKeyed(w) ==> WellKeyed(r))
  {
  }

  /** What a hit does to the tanks depends on the tanks alone, and its booms and key
      allocation on the booms and the allocator: the rest of the world plays no part. */
  lemma HitTankLocal(a: World, b: World, target: int, shooter: int)
    requires Sound(a) && Sound(b)
    requires target in a.gameObjs.tanks.objs && a.gameObjs.tanks == b.gameObjs.tanks
    ensures HitTank(a, target, shooter).gameObjs.tanks == HitTank(b, target, shooter).gameObjs.tanks
    ensures a.gameObjs.booms == b.gameObjs.booms && a.nextKey == b.nextKey ==>
      && HitTank(a, target, shooter).gameObjs.booms == HitTank(b, target, shooter).gameObjs.booms
      && HitTank(a, target, shooter).nextKey == HitTank(b, target, shooter).nextKey
  {
    var t := a.gameObjs.tanks.objs[target];
    if t.state == Fight && t.health == 1 {
      KilledLocal(a, b, target, shooter);
    }
  }

  /** The tanks after a lethal hit depend on the tanks alone. */
  lemma KilledLocal(a: World, b: World, target: int, shooter: int)
    requires Sound(a) && Sound(b)
    requires target in a.gameObjs.tanks.objs && a.gameObjs.tanks == b.gameObjs.tanks
    ensures Killed(a, target, shooter).gameObjs.tanks == Killed(b, target, shooter).gameObjs.tanks
  {
    KilledTanks(a, target, shooter);
    KilledTanks(b, target, shooter);
    var ta := Killed(a, target, shooter).gameObjs.tanks;
    var tb := Killed(b, target, shooter).gameObjs.tanks;
    assert ta.objs.Keys == tb.objs.Keys;
    forall k | k in ta.objs
      ensures ta.objs[k] == tb.objs[k]
    {
      if k != target {
        assert k in a.gameObjs.tanks.objs;
      }
    }
    assert ta.objs == tb.objs;
    assert ta.order == a.gameObjs.tanks.order == tb.order;
    assert ta.removed == a.gameObjs.tanks.removed == tb.removed;
  }

  /** What a hit does to the map depends on the map alone, and its booms and key allocation
      on the map, the booms and the allocator. */
  lemma HitBlockLocal(a: World, b: World, t: Terrain, cell: Pos)
    requires Sound(a) && Sound(b)
    requires InBounds(a.gameMap, cell) && a.gameMap == b.gameMap
    ensures HitBlock(a, t, cell).gameMap == HitBlock(b, t, cell).gameMap
    ensures a.gameObjs.booms == b.gameObjs.booms && a.nextKey == b.nextKey ==>
      && HitBlock(a, t, cell).gameObjs.booms == HitBlock(b, t, cell).gameObjs.booms
      && HitBlock(a, t, cell).nextKey == HitBlock(b, t, cell).nextKey
  {
  }

  /** A lethal missile hits the map cell `cell`: a brick wears to the next brick symbol, and
      the last one crumbles to ground with a boom over the cell; every change bumps the map
      version. Other blocks are untouched. */
  function HitBlock(w: World, t: Terrain, cell: Pos): (r: World)
    requires Sound(w)
    requires InBounds(w.gameMap, cell)
    ensures Sound(r)
    ensures SameShape(w.gameMap, r.gameMap)
    ensures r.gameMap.size == w.gameMap.size && r.gameMap.spawns == w.gameMap.spawns
    ensures r.gameObjs == w.gameObjs.(booms := r.gameObjs.booms)
    ensures forall q :: InBounds(w.gameMap, q) && q != cell ==> GetBlock(r.gameMap, q) == GetBlock(w.gameMap, q)
    ensures var b := GetBlock(w.gameMap, cell);
      && (b !in t.bricks ==> r == w)
      && (b in t.bricks ==> r.gameMap.version == w.gameMap.version + 1)
      && (b in t.bricks && Find(t.bricks, b) + 1 < |t.bricks| ==>
            GetBlock(r.gameMap, cell) == t.bricks[Find(t.bricks, b) + 1] &&
            r.gameObjs.booms == w.gameObjs.booms && r.nextKey == w.nextKey)
      && (b in t.bricks && Find(t.bricks, b) + 1 == |t.bricks| ==>
            && GetBlock(r.gameMap, cell) == t.ground
            && r.gameObjs.booms == Objects.Add(w.gameObjs.booms, w.nextKey,
                                               NewGameObj(w.nextKey, BoomKind, None, Some(BlockRect(cell))))
            && r.nextKey == w.nextKey + 1)
    ensures WellKeyed(w) ==> WellKeyed(r)
  {
    var block := GetBlock(w.gameMap, cell);
    if block !in t.bricks then w
    else
      var phase := Find(t.bricks, block) + 1;
      if phase >= |t.bricks| then
        var m := SetBlock(w.gameMap, cell, [t.ground]);
        AddBoom(w, BlockRect(cell)).(gameMap := m.(version := m.version + 1))
      else
        var m := SetBlock(w.gameMap, cell, [t.bricks[phase]]);
        w.(gameMap := m.(version := m.version + 1))
  }

  /** A boom over a crumbled cell covers the cell exactly. */
  lemma CellBoomCoversCell(key: int, cell: Pos)
    ensures GetRect(BoomKind, NewGameObj(key, BoomKind, None, Some(BlockRect(cell)))) == BlockRect(cell)
  {
  }

  /** `n` lethal hits on the same cell. */
  function HitBlockN(w: World, t: Terrain, cell: Pos, n: nat): (r: World)
    requires Sound(w)
    requires InBounds(w.gameMap, cell)
    ensures Sound(r) && SameShape(w.gameMap, r.gameMap)
  {
    if n == 0 then w
    else
      var w1 := HitBlockN(w, t, cell, n - 1);
      HitBlock(w1, t, cell)
  }

  /** An intact brick (the first brick symbol) takes exactly as many lethal hits as there
      are brick symbols: after `n` fewer hits it shows the `n`-th symbol, after all of them
      it is ground, the map version has risen by one per hit, and one boom was made. */
  lemma {:induction false} BrickWear(w: World, t: Terrain, cell: Pos, n: nat)
    requires Sound(w)
    requires ValidTerrain(t)
    requires InBounds(w.gameMap, cell)
    requires GetBlock(w.gameMap, cell) == t.bricks[0]
    requires n <= |t.bricks|
    ensures var r := HitBlockN(w, t, cell, n);
      && r.gameMap.version == w.gameMap.version + n
      && (n < |t.bricks| ==>
            GetBlock(r.gameMap, cell) == t.bricks[n] && r.gameObjs.booms == w.gameObjs.booms && r.nextKey == w.nextKey)
      && (n == |t.bricks| ==> GetBlock(r.gameMap, cell) == t.ground && r.nextKey == w.nextKey + 1)
  {
    if n > 0 {
      BrickWear(w, t, cell, n - 1);
      BrickWearStep(HitBlockN(w, t, cell, n - 1), t, cell, n - 1);
    }
  }

  /** One lethal hit on a cell showing the `i`-th brick symbol. */
  lemma BrickWearStep(w: World, t: Terrain, cell: Pos, i: nat)
    requires Sound(w)
    requires ValidTerrain(t)
    requires InBounds(w.gameMap, cell)
    requires i < |t.bricks|
    requires GetBlock(w.gameMap, cell) == t.bricks[i]
    ensures var r := HitBlock(w, t, cell);
      && r.gameMap.version == w.gameMap.version + 1
      && (i + 1 < |t.bricks| ==>
            GetBlock(r.gameMap, cell) == t.bricks[i + 1] && r.gameObjs.booms == w.gameObjs.booms && r.nextKey == w.nextKey)
      && (i + 1 == |t.bricks| ==> GetBlock(r.gameMap, cell) == t.ground && r.nextKey == w.nextKey + 1)
  {
    FindBrick(t, i);
  }

  /** With distinct brick symbols, a brick's position in the list is found again. */
  lemma FindBrick(t: Terrain, i: nat)
    requires ValidTerrain(t)
    requires i < |t.bricks|
    ensures Find(t.bricks, t.bricks[i]) == i
  {
    var j := Find(t.bricks, t.bricks[i]);
    assert t.bricks[i] in t.bricks;
    assert t.bricks[j] == t.bricks[i];
    assert forall k :: 0 <= k < j ==> t.bricks[..j][k] == t.bricks[k];
  }

  // ---- moveMissles -------------------------------------------------------------------

  /** A missile one step further along its heading. */
  function Stepped(m: Missle): (r: Missle)
    ensures r.obj.key == m.obj.key && r.heading == m.heading
    ensures r.tankKey == m.tankKey && r.lethal == m.lethal && r.obj.phaseTick == m.obj.phaseTick
    ensures Sub(r.obj.pos, m.obj.pos) == Mul(Unit(m.heading), Velocity(MissleKind))
  {
    m.(obj := m.obj.(pos := Move(m.obj.pos, m.heading, Velocity(MissleKind))))
  }

  /** Stores `m` in place of the missile under `key`. */
  function PutMissle(w: World, key: int, m: Missle): (r: World)
    requires key in w.gameObjs.missles.objs
    ensures r.gameMap == w.gameMap && r.nextKey == w.nextKey
    ensures r.gameObjs == w.gameObjs.(missles := r.gameObjs.missles)
    ensures r.gameObjs.missles == w.gameObjs.missles.(objs := w.gameObjs.missles.objs[key := m])
    ensures Sound(w) ==> Sound(r)
    ensures WellKeyed(w) && m.obj.key == key ==> WellKeyed(r)
  {
    w.(gameObjs := w.gameObjs.(missles := Put(w.gameObjs.missles, key, m)))
  }

  /** Marks the missile under `key` for removal at the end of the frame. */
  function DropMissle(w: World, key: int): (r: World)
    ensures r.gameMap == w.gameMap && r.nextKey == w.nextKey
    ensures r.gameObjs == w.gameObjs.(missles := r.gameObjs.missles)
    ensures r.gameObjs.missles == w.gameObjs.missles.(removed := w.gameObjs.missles.removed + {key})
    ensures Sound(w) ==> Sound(r)
    ensures WellKeyed(w) ==> WellKeyed(r)
  {
    w.(gameObjs := w.gameObjs.(missles := RemoveLazy(w.gameObjs.missles, key)))
  }

  /** The missile under `k` can take its step without probing off the map. */
  predicate CanProbe(w: World, k: int)
    requires k in w.gameObjs.missles.objs
  {
    var m := w.gameObjs.missles.objs[k];
    ProbesInBounds(w.gameMap, MissleKind, m.obj.pos, m.heading)
  }

  /** A missile's own key, as `getObjectInBox` compares it. */
  function MissleKey(m: Missle): int {
    m.obj.key
  }

  /** The live missile, first in iteration order, that the missile under `k` overlaps. */
  function MissleMet(c: Collection<Missle>, k: int): Option<int>
    requires Valid(c) && k in c.objs
  {
    var m := c.objs[k];
    GetObjectInBox(m.obj.key, MissleRect(m), c, MissleKey, MissleRect)
  }

  /** The missile under `k` has stepped: if its box now overlaps another live missile,
      both are marked for removal and one punch, centred on the `union` of their boxes, is
      added under the next fresh key. */
  function MeetMissle(w: World, union: (Box, Box) -> Box, k: int): (r: World)
    requires Sound(w)
    requires k in w.gameObjs.missles.objs
    ensures Sound(r) && r.gameMap == w.gameMap && r.gameObjs.tanks == w.gameObjs.tanks
    ensures r.gameObjs.missles == w.gameObjs.missles.(removed := r.gameObjs.missles.removed)
    ensures r.gameObjs.booms == w.gameObjs.booms
    ensures w.gameObjs.missles.removed <= r.gameObjs.missles.removed
    ensures var m := w.gameObjs.missles.objs[k];
      var hit := MissleMet(w.gameObjs.missles, k);
      && (hit.None? ==> r == w)
      && (hit.Some? ==>
            && r.gameObjs.missles.removed == w.gameObjs.missles.removed + {k, hit.value}
            && w.nextKey in r.gameObjs.punches.objs
            && GetRect(PunchKind, r.gameObjs.punches.objs[w.nextKey]) ==
                 CenteredTo(union(MissleRect(m), MissleRect(w.gameObjs.missles.objs[hit.value])), Size(PunchKind))
            && r.gameObjs.punches == Objects.Add(w.gameObjs.punches, w.nextKey,
                 NewGameObj(w.nextKey, PunchKind, None,
                            Some(union(MissleRect(m), MissleRect(w.gameObjs.missles.objs[hit.value])))))
            && r.nextKey == w.nextKey + 1)
    ensures WellKeyed(w) ==> WellKeyed(r)
  {
    var m := w.gameObjs.missles.objs[k];
    var hit := MissleMet(w.gameObjs.missles, k);
    if hit.None? then w
    else
      var other := w.gameObjs.missles.objs[hit.value];
      var w1 := AddPunch(w, union(MissleRect(m), MissleRect(other)));
      CenteredConstruction(w.nextKey, PunchKind, union(MissleRect(m), MissleRect(other)));
      DropMissle(DropMissle(w1, k), hit.value)
  }

  /** The missile `m` under `k` was blocked by `collided`: it is marked for removal and
      leaves a punch over its box; a lethal missile also damages what blocked it. */
  function MissleBlocked(w: World, t: Terrain, k: int, m: Missle, collided: Collision): (r: World)
    requires Sound(w)
    requires collided.Cell? ==> InBounds(w.gameMap, collided.cell)
    requires collided.TankHit? ==> collided.key in w.gameObjs.tanks.objs
    ensures Sound(r) && SameShape(w.gameMap, r.gameMap)
    ensures r.gameObjs.tanks.objs.Keys == w.gameObjs.tanks.objs.Keys
    ensures r.gameObjs.missles == w.gameObjs.missles.(removed := w.gameObjs.missles.removed + {k})
    ensures w.nextKey in r.gameObjs.punches.objs
    ensures GetRect(PunchKind, r.gameObjs.punches.objs[w.nextKey]) == CenteredTo(MissleRect(m), Size(PunchKind))
    ensures r.gameObjs.punches == Objects.Add(w.gameObjs.punches, w.nextKey,
                                              NewGameObj(w.nextKey, PunchKind, None, Some(MissleRect(m))))
    ensures !m.lethal ==> r.gameMap == w.gameMap && r.gameObjs.tanks == w.gameObjs.tanks
    ensures !m.lethal ==> r.gameObjs.booms == w.gameObjs.booms && r.nextKey == w.nextKey + 1
    ensures m.lethal && collided.TankHit? ==>
      var hit := HitTank(AddPunch(w, MissleRect(m)), collided.key, m.tankKey);
      && r.gameMap == w.gameMap
      && r.gameObjs.tanks == HitTank(w, collided.key, m.tankKey).gameObjs.tanks
      && r.gameObjs.booms == hit.gameObjs.booms && r.nextKey == hit.nextKey
    ensures m.lethal && collided.Cell? ==>
      var hit := HitBlock(AddPunch(w, MissleRect(m)), t, collided.cell);
      && r.gameObjs.tanks == w.gameObjs.tanks
      && r.gameMap == HitBlock(w, t, collided.cell).gameMap
      && r.gameObjs.booms == hit.gameObjs.booms && r.nextKey == hit.nextKey
  {
    var w1 := DropMissle(AddPunch(w, MissleRect(m)), k);
    CenteredConstruction(w.nextKey, PunchKind, MissleRect(m));
    if !m.lethal then w1
    else match collided
      case TankHit(tank) =>
        HitTankLocal(w1, w, tank, m.tankKey);
        HitTankLocal(w1, AddPunch(w, MissleRect(m)), tank, m.tankKey);
        HitTank(w1, tank, m.tankKey)
      case Cell(cell) =>
        HitBlockLocal(w1, w, t, cell);
        HitBlockLocal(w1, AddPunch(w, MissleRect(m)), t, cell);
        HitBlock(w1, t, cell)
  }

  /** The missiles the `moveMissles` loop body marks for removal on its pass for the
      missile under `k`: none when `k` is already marked; `k` alone when its step is
      blocked; otherwise, once it has stepped, `k` and the first live missile it overlaps,
      or none. */
  function StepRemovals(w: World, t: Terrain, k: int): (r: set<int>)
    requires Sound(w)
    requires k in w.gameObjs.missles.objs && CanProbe(w, k)
    ensures r <= w.gameObjs.missles.objs.Keys
    ensures r != {} ==> k in r && k !in w.gameObjs.missles.removed
  {
    var missles := w.gameObjs.missles;
    var m := missles.objs[k];
    if k in missles.removed then {}
    else if Advance(w, t, MissleKind, m.obj.pos, m.heading, false).Blocked? then {k}
    else
      var met := MissleMet(Put(missles, k, Stepped(m)), k);
      if met.Some? then {k, met.value} else {}
  }

  /** One pass of the `moveMissles` loop body, for the missile stored under `k`; a missile
      already marked for removal is skipped, as the collection's iterator does. */
  function MissleStep(w: World, t: Terrain, union: (Box, Box) -> Box, k: int): (r: World)
    requires Sound(w)
    requires k in w.gameObjs.missles.objs && CanProbe(w, k)
    ensures Sound(r) && SameShape(w.gameMap, r.gameMap)
    ensures r.gameObjs.tanks.objs.Keys == w.gameObjs.tanks.objs.Keys
    ensures r.gameObjs.missles.objs.Keys == w.gameObjs.missles.objs.Keys
    ensures r.gameObjs.missles.order == w.gameObjs.missles.order
    ensures w.gameObjs.missles.removed <= r.gameObjs.missles.removed
    ensures forall j :: j in w.gameObjs.missles.objs && j != k ==>
      r.gameObjs.missles.objs[j] == w.gameObjs.missles.objs[j]
    ensures k in r.gameObjs.missles.removed ||
      r.gameObjs.missles.objs[k] == Stepped(w.gameObjs.missles.objs[k])
    ensures k in w.gameObjs.missles.removed ==> r == w
    ensures var m := w.gameObjs.missles.objs[k];
      k !in w.gameObjs.missles.removed &&
      Advance(w, t, MissleKind, m.obj.pos, m.heading, false).Blocked? ==>
        k in r.gameObjs.missles.removed && r.gameObjs.missles.objs[k] == m
    ensures r.gameObjs.missles.removed == w.gameObjs.missles.removed + StepRemovals(w, t, k)
  {
    if k in w.gameObjs.missles.removed then w else LiveMissleStep(w, t, union, k)
  }

  /** The loop body for a missile not marked for removal: blocked, or stepped and then
      checked for a meeting. */
  function LiveMissleStep(w: World, t: Terrain, union: (Box, Box) -> Box, k: int): (r: World)
    requires Sound(w)
    requires k in w.gameObjs.missles.objs && CanProbe(w, k) && k !in w.gameObjs.missles.removed
    ensures Sound(r)
    ensures r.gameObjs.missles.removed == w.gameObjs.missles.removed + StepRemovals(w, t, k)
  {
    var m := w.gameObjs.missles.objs[k];
    match Advance(w, t, MissleKind, m.obj.pos, m.heading, false)
    case Advanced(_) => MissleAdvance(w, union, k)
    case Blocked(collided) => MissleBlocked(w, t, k, m, collided)
  }

  /** The missile under `k` takes its step: it is stored one step on, and then meets the
      first live missile its new box overlaps, if any. With none it simply survives. */
  function MissleAdvance(w: World, union: (Box, Box) -> Box, k: int): (r: World)
    requires Sound(w)
    requires k in w.gameObjs.missles.objs
    ensures Sound(r) && r.gameMap == w.gameMap && r.gameObjs.tanks == w.gameObjs.tanks
    ensures r.gameObjs.booms == w.gameObjs.booms
    ensures var m := w.gameObjs.missles.objs[k];
      r.gameObjs.missles == w.gameObjs.missles.(objs := w.gameObjs.missles.objs[k := Stepped(m)],
                                                 removed := r.gameObjs.missles.removed)
    ensures var m := w.gameObjs.missles.objs[k];
      var met := MissleMet(Put(w.gameObjs.missles, k, Stepped(m)), k);
      && (met.None? ==> r == PutMissle(w, k, Stepped(m)))
      && (met.Some? ==>
            && r.gameObjs.missles.removed == w.gameObjs.missles.removed + {k, met.value}
            && r.nextKey == w.nextKey + 1
            && r.gameObjs.punches == Objects.Add(w.gameObjs.punches, w.nextKey,
                 NewGameObj(w.nextKey, PunchKind, None,
                            Some(union(MissleRect(Stepped(m)), MissleRect(w.gameObjs.missles.objs[met.value]))))))
    ensures WellKeyed(w) && w.gameObjs.missles.objs[k].obj.key == k ==> WellKeyed(r)
  {
    var m := w.gameObjs.missles.objs[k];
    var w1 := PutMissle(w, k, Stepped(m));
    var met := MissleMet(w1.gameObjs.missles, k);
    assert met.Some? ==> met.value != k;
    MeetMissle(w1, union, k)
  }

  /** What one pass of the loop body does, case by case: a skipped missile changes nothing,
      a blocked one is handled by `MissleBlocked`, and one that steps by `MissleAdvance`. */
  lemma MissleStepCases(w: World, t: Terrain, union: (Box, Box) -> Box, k: int)
    requires Sound(w)
    requires k in w.gameObjs.missles.objs && CanProbe(w, k)
    ensures var m := w.gameObjs.missles.objs[k];
      var step := Advance(w, t, MissleKind, m.obj.pos, m.heading, false);
      var r := MissleStep(w, t, union, k);
      && (k !in w.gameObjs.missles.removed && step.Blocked? ==> r == MissleBlocked(w, t, k, m, step.collided))
      && (k !in w.gameObjs.missles.removed && step.Advanced? ==> r == MissleAdvance(w, union, k))
  {
  }

  /** A missile step keeps the health/state invariant and the keying of the world. */
  lemma MissleStepKeepsInvariants(w: World, t: Terrain, union: (Box, Box) -> Box, k: int)
    requires Sound(w)
    requires k in w.gameObjs.missles.objs && CanProbe(w, k)
    ensures var r := MissleStep(w, t, union, k);
      && (TanksInv(w) ==> TanksInv(r))
      && (WellKeyed(w) ==> WellKeyed(r))
  {
    var m := w.gameObjs.missles.objs[k];
    if k !in w.gameObjs.missles.removed {
      match Advance(w, t, MissleKind, m.obj.pos, m.heading, false)
      case Advanced(_) =>
      case Blocked(collided) =>
        var w1 := DropMissle(AddPunch(w, MissleRect(m)), k);
        if m.lethal && collided.TankHit? {
          HitTankKeepsInvariants(w1, collided.key, m.tankKey);
        }
    }
  }

  /** Every listed key holds a missile that can take its step. */
  ghost predicate AllCanProbe(w: World, ks: seq<int>) {
    forall i :: 0 <= i < |ks| ==> ks[i] in w.gameObjs.missles.objs && CanProbe(w, ks[i])
  }

  /** The missile under `j` is marked for removal by one of the loop's passes over `ks`,
      each pass seeing the world the previous passes left: it was blocked on its own pass,
      or met, on its own pass or on a later missile's. */
  ghost predicate RemovedBy(w: World, t: Terrain, union: (Box, Box) -> Box, ks: seq<int>, j: int)
    requires Sound(w)
    requires Distinct(ks) && AllCanProbe(w, ks)
    decreases |ks|
  {
    && |ks| > 0
    && (j in StepRemovals(w, t, ks[0]) ||
        var w1 := MissleStep(w, t, union, ks[0]);
        MissleLoopTail(w, w1, ks);
        RemovedBy(w1, t, union, ks[1..], j))
  }

  /** The `moveMissles` loop over the keys `ks`, in order. Each missile the loop reaches and
      that is not marked for removal by then has taken exactly one step; missiles the loop
      does not list are untouched. */
  function MissleLoop(w: World, t: Terrain, union: (Box, Box) -> Box, ks: seq<int>): (r: World)
    requires Sound(w)
    requires Distinct(ks) && AllCanProbe(w, ks)
    ensures Sound(r) && SameShape(w.gameMap, r.gameMap)
    ensures r.gameObjs.tanks.objs.Keys == w.gameObjs.tanks.objs.Keys
    ensures r.gameObjs.missles.objs.Keys == w.gameObjs.missles.objs.Keys
    ensures r.gameObjs.missles.order == w.gameObjs.missles.order
    ensures w.gameObjs.missles.removed <= r.gameObjs.missles.removed
    ensures forall j :: j in w.gameObjs.missles.objs && j !in ks ==>
      r.gameObjs.missles.objs[j] == w.gameObjs.missles.objs[j]
    ensures forall j :: j in ks && j !in r.gameObjs.missles.removed ==>
      r.gameObjs.missles.objs[j] == Stepped(w.gameObjs.missles.objs[j])
    ensures forall j :: j in r.gameObjs.missles.removed <==>
      j in w.gameObjs.missles.removed || RemovedBy(w, t, union, ks, j)
    ensures TanksInv(w) ==> TanksInv(r)
    ensures WellKeyed(w) ==> WellKeyed(r)
    decreases |ks|
  {
    if |ks| == 0 then w
    else
      var w1 := MissleStep(w, t, union, ks[0]);
      MissleStepKeepsInvariants(w, t, union, ks[0]);
      MissleLoopTail(w, w1, ks);
      var r := MissleLoop(w1, t, union, ks[1..]);
      StepThenLoop(w.gameObjs.missles, w1.gameObjs.missles, r.gameObjs.missles, ks);
      r
  }

  /** After the first listed missile's step, the rest of the list can still take theirs. */
  lemma MissleLoopTail(w: World, w1: World, ks: seq<int>)
    requires Distinct(ks) && |ks| > 0 && AllCanProbe(w, ks)
    requires SameShape(w.gameMap, w1.gameMap)
    requires w1.gameObjs.missles.objs.Keys == w.gameObjs.missles.objs.Keys
    requires forall j :: j in w.gameObjs.missles.objs && j != ks[0] ==>
      w1.gameObjs.missles.objs[j] == w.gameObjs.missles.objs[j]
    ensures Distinct(ks[1..]) && AllCanProbe(w1, ks[1..])
  {
    forall i | 0 <= i < |ks[1..]|
      ensures ks[1..][i] in w1.gameObjs.missles.objs && CanProbe(w1, ks[1..][i])
    {
      assert ks[1..][i] == ks[i + 1] != ks[0];
      var m := w.gameObjs.missles.objs[ks[i + 1]];
      ProbesInBoundsSameShape(w.gameMap, w1.gameMap, MissleKind, m.obj.pos, m.heading);
    }
  }

  /** One step of the first listed missile followed by the loop over the rest: the
      missiles the list leaves out are untouched, and each listed one that is still live
      has stepped once. */
  lemma StepThenLoop(a: Collection<Missle>, b: Collection<Missle>, r: Collection<Missle>, ks: seq<int>)
    requires Distinct(ks) && |ks| > 0 && forall i :: 0 <= i < |ks| ==> ks[i] in a.objs
    requires b.objs.Keys == a.objs.Keys == r.objs.Keys && a.removed <= b.removed <= r.removed
    requires forall j :: j in a.objs && j != ks[0] ==> b.objs[j] == a.objs[j]
    requires ks[0] in b.removed || b.objs[ks[0]] == Stepped(a.objs[ks[0]])
    requires forall j :: j in b.objs && j !in ks[1..] ==> r.objs[j] == b.objs[j]
    requires forall j :: j in b.objs && j in ks[1..] && j !in r.removed ==> r.objs[j] == Stepped(b.objs[j])
    ensures forall j :: j in a.objs && j !in ks ==> r.objs[j] == a.objs[j]
    ensures forall j :: j in a.objs && j in ks && j !in r.removed ==> r.objs[j] == Stepped(a.objs[j])
  {
    KeysHeadTail(ks);
  }


  /** Every missile iteration reaches can take its step. */
  ghost predicate MisslesCanProbe(w: World) {
    forall k :: k in w.gameObjs.missles.objs && k !in w.gameObjs.missles.removed ==> CanProbe(w, k)
  }

  /** The keys iteration visits are distinct and can all take their step. */
  lemma VisibleKeysCanProbe(w: World)
    requires Sound(w) && MisslesCanProbe(w)
    ensures Distinct(VisibleKeys(w.gameObjs.missles)) && AllCanProbe(w, VisibleKeys(w.gameObjs.missles))
  {
    var ks := VisibleKeys(w.gameObjs.missles);
    forall i | 0 <= i < |ks|
      ensures ks[i] in w.gameObjs.missles.objs && CanProbe(w, ks[i])
    {
      assert ks[i] in ks;
    }
  }

  /** `moveMissles`: every live missile, in order, steps or is stopped, then the missiles
      marked for removal are dropped. The survivors are exactly the missiles that were live
      before and that no pass blocked or met, each one step further along its heading. */
  function MoveMissles(w: World, t: Terrain, union: (Box, Box) -> Box): (r: World)
    requires Sound(w) && MisslesCanProbe(w)
    ensures Sound(r) && SameShape(w.gameMap, r.gameMap)
    ensures r.gameObjs.tanks.objs.Keys == w.gameObjs.tanks.objs.Keys
    ensures r.gameObjs.missles.removed == {}
    ensures forall k :: k in r.gameObjs.missles.objs ==>
      k in w.gameObjs.missles.objs && k !in w.gameObjs.missles.removed &&
      r.gameObjs.missles.objs[k] == Stepped(w.gameObjs.missles.objs[k])
    ensures (VisibleKeysCanProbe(w);
      forall k :: k in r.gameObjs.missles.objs <==>
        k in w.gameObjs.missles.objs && k !in w.gameObjs.missles.removed &&
        !RemovedBy(w, t, union, VisibleKeys(w.gameObjs.missles), k))
    ensures TanksInv(w) ==> TanksInv(r)
    ensures WellKeyed(w) ==> WellKeyed(r)
  {
    var ks := VisibleKeys(w.gameObjs.missles);
    VisibleKeysCanProbe(w);
    var w1 := MissleLoop(w, t, union, ks);
    forall k | k in w1.gameObjs.missles.objs && k !in w1.gameObjs.missles.removed
      ensures k in ks
    {
      VisibleKeysSpec(w.gameObjs.missles, k);
    }
    w1.(gameObjs := w1.gameObjs.(missles := Purge(w1.gameObjs.missles)))
  }

  /** Two live missiles, the first of which steps into the second: the pass removes both
      and adds exactly one punch, centred on the union of their boxes, under the next key;
      the second, already marked, takes no step of its own. */
  lemma MeetingPair(w: World, t: Terrain, union: (Box, Box) -> Box, a: int, b: int)
    requires Sound(w) && MisslesCanProbe(w)
    requires VisibleKeys(w.gameObjs.missles) == [a, b]
    requires var m := w.gameObjs.missles.objs[a];
      && Advance(w, t, MissleKind, m.obj.pos, m.heading, false).Advanced?
      && MissleMet(Put(w.gameObjs.missles, a, Stepped(m)), a) == Some(b)
    ensures var r := MoveMissles(w, t, union);
      var ma := w.gameObjs.missles.objs[a];
      && a !in r.gameObjs.missles.objs && b !in r.gameObjs.missles.objs
      && r.gameObjs.punches == Objects.Add(w.gameObjs.punches, w.nextKey,
           NewGameObj(w.nextKey, PunchKind, None,
                      Some(union(MissleRect(Stepped(ma)), MissleRect(w.gameObjs.missles.objs[b])))))
      && r.nextKey == w.nextKey + 1
  {
    var ks := VisibleKeys(w.gameObjs.missles);
    VisibleKeysCanProbe(w);
    assert a in ks && b in ks;
    PairLoop(w, t, union, a, b);
  }

  /** The loop over two missiles, the first stepping into the second, is the first
      missile's step alone: the second is already marked when its turn comes. */
  lemma PairLoop(w: World, t: Terrain, union: (Box, Box) -> Box, a: int, b: int)
    requires Sound(w) && a in w.gameObjs.missles.objs && b in w.gameObjs.missles.objs
    requires Distinct([a, b]) && AllCanProbe(w, [a, b]) && CanProbe(w, a)
    requires a !in w.gameObjs.missles.removed
    requires var m := w.gameObjs.missles.objs[a];
      && Advance(w, t, MissleKind, m.obj.pos, m.heading, false).Advanced?
      && MissleMet(Put(w.gameObjs.missles, a, Stepped(m)), a) == Some(b)
    ensures MissleLoop(w, t, union, [a, b]) == MissleAdvance(w, union, a)
  {
    var ks := [a, b];
    assert ks[0] == a && ks[1..] == [b];
    var w1 := MissleStep(w, t, union, a);
    MissleLoopTail(w, w1, ks);
    assert b in w1.gameObjs.missles.removed;
    LoopOverMarked(w1, t, union, b);
  }

  /** A loop over one missile already marked for removal changes nothing. */
  lemma LoopOverMarked(w: World, t: Terrain, union: (Box, Box) -> Box, b: int)
    requires Sound(w) && b in w.gameObjs.missles.objs && AllCanProbe(w, [b])
    requires b in w.gameObjs.missles.removed
    ensures Distinct([b]) && MissleLoop(w, t, union, [b]) == w
  {
    assert [b][0] == b && [b][1..] == [];
  }

  // ---- animateObjects ----------------------------------------------------------------

  /** One pass of the `animateObjects` loop body, for the object under `k`: skipped when
      marked for removal, otherwise its phase advances and, with `oneShot`, a wrap to 0
      marks it. */
  function AnimateOne(c: Collection<GameObj>, kind: Kind, oneShot: bool, k: int): (r: Collection<GameObj>)
    requires Valid(c) && Period(kind) > 0 && k in c.objs
    ensures Valid(r) && r.objs.Keys == c.objs.Keys && r.order == c.order
    ensures forall j :: j in c.objs && j != k ==> r.objs[j] == c.objs[j]
    ensures k in c.removed ==> r == c
    ensures k !in c.removed ==> r.objs[k] == NextPhase(kind, c.objs[k])
    ensures forall j :: j in r.removed <==>
      j in c.removed || (j == k && oneShot && NextPhase(kind, c.objs[k]).phaseTick == 0)
  {
    if k in c.removed then c
    else
      var o := NextPhase(kind, c.objs[k]);
      var ticked := c.(objs := c.objs[k := o]);
      if oneShot && o.phaseTick == 0 then RemoveLazy(ticked, k) else ticked
  }

  /** The loop of `animateObjects` over the keys `ks`: each object not marked for removal
      advances its phase, and with `oneShot` one whose phase tick wraps to 0 is marked. */
  function AnimateLoop(c: Collection<GameObj>, kind: Kind, oneShot: bool, ks: seq<int>): (r: Collection<GameObj>)
    requires Valid(c) && Period(kind) > 0
    requires Distinct(ks) && forall i :: 0 <= i < |ks| ==> ks[i] in c.objs
    ensures Valid(r) && r.objs.Keys == c.objs.Keys && r.order == c.order
    ensures forall j :: j in c.objs && (j !in ks || j in c.removed) ==> r.objs[j] == c.objs[j]
    ensures forall j :: j in ks && j !in c.removed ==> r.objs[j] == NextPhase(kind, c.objs[j])
    ensures forall j :: j in r.removed <==>
      j in c.removed || (j in ks && oneShot && NextPhase(kind, c.objs[j]).phaseTick == 0)
    decreases |ks|
  {
    if |ks| == 0 then c
    else
      var c1 := AnimateOne(c, kind, oneShot, ks[0]);
      KeysHeadTail(ks);
      var r := AnimateLoop(c1, kind, oneShot, ks[1..]);
      r
  }

  /** A list of distinct keys is its head followed by a tail that lacks it. */
  lemma KeysHeadTail(ks: seq<int>)
    requires Distinct(ks) && |ks| > 0
    ensures Distinct(ks[1..])
    ensures forall j :: j in ks[1..] ==> j != ks[0]
    ensures forall j :: j in ks <==> j == ks[0] || j in ks[1..]
  {
    forall j | j in ks[1..]
      ensures j != ks[0] && j in ks
    {
      var i :| 0 <= i < |ks[1..]| && ks[1..][i] == j;
      assert ks[i + 1] == j;
    }
    forall j | j in ks
      ensures j == ks[0] || j in ks[1..]
    {
      var i :| 0 <= i < |ks| && ks[i] == j;
      if i > 0 {
        assert ks[1..][i - 1] == j;
      }
    }
  }

  /** `animateObjects(objs, oneShot)`: every live object advances its phase; with `oneShot`
      one whose phase tick wraps to 0 is marked for removal; then removals are applied. */
  function Animate(c: Collection<GameObj>, kind: Kind, oneShot: bool): (r: Collection<GameObj>)
    requires Valid(c) && Period(kind) > 0
    ensures Valid(r) && r.removed == {}
    ensures forall k :: k in r.objs <==>
      k in c.objs && k !in c.removed && !(oneShot && NextPhase(kind, c.objs[k]).phaseTick == 0)
    ensures forall k :: k in r.objs ==> r.objs[k] == NextPhase(kind, c.objs[k])
  {
    var ks := VisibleKeys(c);
    assert forall i :: 0 <= i < |ks| ==> ks[i] in c.objs by {
      forall i | 0 <= i < |ks|
        ensures ks[i] in c.objs
      {
        assert ks[i] in ks;
      }
    }
    forall k | k in c.objs && k !in c.removed
      ensures k in ks
    {
      VisibleKeysSpec(c, k);
    }
    Purge(AnimateLoop(c, kind, oneShot, ks))
  }

  /** Consecutive frames of one-shot animation. */
  ghost predicate Frames(fs: seq<Collection<GameObj>>, kind: Kind) {
    && Period(kind) > 0
    && (forall i :: 0 <= i < |fs| ==> Valid(fs[i]))
    && (forall i :: 0 < i < |fs| ==> fs[i] == Animate(fs[i - 1], kind, true))
  }

  /** A one-shot effect created with phase tick 0 is still there after `n` frames, with
      phase tick `n`, while `n` is below the period. */
  lemma {:induction false} EffectAlive(fs: seq<Collection<GameObj>>, kind: Kind, k: int, n: nat)
    requires Frames(fs, kind) && n < |fs| && n < Period(kind)
    requires k in fs[0].objs && k !in fs[0].removed && fs[0].objs[k].phaseTick == 0
    ensures k in fs[n].objs && k !in fs[n].removed && fs[n].objs[k].phaseTick == n
  {
    if n > 0 {
      EffectAlive(fs, kind, k, n - 1);
      OneShotFrame(fs[n - 1], kind, k);
    }
  }

  /** The frame that completes the period removes the effect: it lives through exactly one
      animation cycle (8 frames for a punch, 32 for a boom). */
  lemma EffectLifetime(fs: seq<Collection<GameObj>>, kind: Kind, k: int)
    requires Frames(fs, kind) && |fs| > Period(kind)
    requires k in fs[0].objs && k !in fs[0].removed && fs[0].objs[k].phaseTick == 0
    ensures forall n :: 0 <= n < Period(kind) ==> k in fs[n].objs
    ensures k !in fs[Period(kind)].objs
  {
    forall n | 0 <= n < Period(kind)
      ensures k in fs[n].objs
    {
      EffectAlive(fs, kind, k, n);
    }
    EffectAlive(fs, kind, k, Period(kind) - 1);
    OneShotFrame(fs[Period(kind) - 1], kind, k);
  }

  /** One frame of one-shot animation for a live object within its period. */
  lemma OneShotFrame(c: Collection<GameObj>, kind: Kind, k: int)
    requires Valid(c) && Period(kind) > 0
    requires k in c.objs && k !in c.removed && 0 <= c.objs[k].phaseTick < Period(kind)
    ensures var r := Animate(c, kind, true);
      var tick := c.objs[k].phaseTick;
      && (tick + 1 < Period(kind) ==> k in r.objs && k !in r.removed && r.objs[k].phaseTick == tick + 1)
      && (tick + 1 == Period(kind) ==> k !in r.objs)
  {
    NextPhaseWraps(kind, c.objs[k]);
  }

  /** Looping animation (not one-shot) never removes anything live. */
  lemma LoopingKeepsAll(c: Collection<GameObj>, kind: Kind)
    requires Valid(c) && Period(kind) > 0
    ensures Animate(c, kind, false).objs.Keys == c.objs.Keys - c.removed
  {
  }

  // ---- nextFrame ---------------------------------------------------------------------

  /** `nextFrame`: tanks, then missiles, then one-shot punches and booms. */
  function NextFrame(w: World, t: Terrain, union: (Box, Box) -> Box, draw: int -> nat): (r: World)
    requires Sound(w)
    requires |w.gameMap.spawns| > 0 ||
      forall k :: k in w.gameObjs.tanks.objs && k !in w.gameObjs.tanks.removed ==>
        !DueToRespawn(w.gameObjs.tanks.objs[k])
    requires MisslesCanProbe(HandleTanks(w, draw))
    ensures Sound(r) && SameShape(w.gameMap, r.gameMap)
    ensures r.gameObjs.missles.removed == {} && r.gameObjs.punches.removed == {} && r.gameObjs.booms.removed == {}
    ensures forall k :: k in r.gameObjs.missles.objs ==>
      k in w.gameObjs.missles.objs && k !in w.gameObjs.missles.removed &&
      r.gameObjs.missles.objs[k] == Stepped(w.gameObjs.missles.objs[k])
    ensures r.gameObjs.tanks.objs.Keys == w.gameObjs.tanks.objs.Keys
  {
    var w1 := HandleTanks(w, draw);
    assert Sound(w1) && w1.gameObjs.missles == w.gameObjs.missles;
    var w2 := MoveMissles(w1, t, union);
    AnimateEffects(w2)
  }

  /** A frame in stages: the missile pass runs on the tanks `handleTanks` leaves, before
      any missile damage, and the effects it leaves, new punches and booms included, are
      animated once, one-shot. */
  lemma NextFrameComposes(w: World, t: Terrain, union: (Box, Box) -> Box, draw: int -> nat)
    requires Sound(w)
    requires |w.gameMap.spawns| > 0 ||
      forall k :: k in w.gameObjs.tanks.objs && k !in w.gameObjs.tanks.removed ==>
        !DueToRespawn(w.gameObjs.tanks.objs[k])
    requires MisslesCanProbe(HandleTanks(w, draw))
    ensures var ticked := HandleTanks(w, draw);
      var pass := MoveMissles(ticked, t, union);
      var r := NextFrame(w, t, union, draw);
      && r.gameMap == pass.gameMap && r.nextKey == pass.nextKey
      && r.gameObjs.tanks == pass.gameObjs.tanks && r.gameObjs.missles == pass.gameObjs.missles
      && r == AnimateEffects(pass)
  {
  }

  /** The two `animateObjects` calls of a frame, on punches and on booms, both one-shot. */
  function AnimateEffects(w: World): (r: World)
    requires Sound(w)
    ensures Sound(r) && r.gameMap == w.gameMap && r.nextKey == w.nextKey
    ensures r.gameObjs.tanks == w.gameObjs.tanks && r.gameObjs.missles == w.gameObjs.missles
    ensures r.gameObjs.punches == Animate(w.gameObjs.punches, PunchKind, true)
    ensures r.gameObjs.booms == Animate(w.gameObjs.booms, BoomKind, true)
    ensures TanksInv(w) ==> TanksInv(r)
    ensures WellKeyed(w) ==> WellKeyed(r)
  {
    var r := w.(gameObjs := w.gameObjs.(punches := Animate(w.gameObjs.punches, PunchKind, true),
                                        booms := Animate(w.gameObjs.booms, BoomKind, true)));
    AnimateEffectsKeyed(w, r);
    r
  }

  lemma AnimateEffectsKeyed(w: World, r: World)
    requires Sound(w)
    requires r == w.(gameObjs := w.gameObjs.(punches := Animate(w.gameObjs.punches, PunchKind, true),
                                             booms := Animate(w.gameObjs.booms, BoomKind, true)))
    ensures WellKeyed(w) ==> WellKeyed(r)
  {
    if WellKeyed(w) {
      AnimateKeepsKeyed(w.gameObjs.punches, PunchKind, w.nextKey);
      AnimateKeepsKeyed(w.gameObjs.booms, BoomKind, w.nextKey);
      EffectsKeyed(w, r.gameObjs.punches, r.gameObjs.booms, w.nextKey);
      assert r == w.(gameObjs := w.gameObjs.(punches := r.gameObjs.punches, booms := r.gameObjs.booms), nextKey := w.nextKey);
    }
  }

  /** Replacing the effect collections by ones keyed the same way keeps the world keyed. */
  lemma EffectsKeyed(w: World, punches: Collection<GameObj>, booms: Collection<GameObj>, next: int)
    requires WellKeyed(w) && Valid(punches) && Valid(booms) && w.nextKey <= next
    requires forall k :: k in punches.objs ==> punches.objs[k].key == k && k < next
    requires forall k :: k in booms.objs ==> booms.objs[k].key == k && k < next
    ensures WellKeyed(w.(gameObjs := w.gameObjs.(punches := punches, booms := booms), nextKey := next))
  {
    var g := w.gameObjs.(punches := punches, booms := booms);
    assert KeysAgree(g);
  }

  /** A frame keeps the tanks' health/state invariant and the keying of the world. */
  lemma NextFrameKeepsInvariants(w: World, t: Terrain, union: (Box, Box) -> Box, draw: int -> nat)
    requires Sound(w)
    requires |w.gameMap.spawns| > 0 ||
      forall k :: k in w.gameObjs.tanks.objs && k !in w.gameObjs.tanks.removed ==>
        !DueToRespawn(w.gameObjs.tanks.objs[k])
    requires MisslesCanProbe(HandleTanks(w, draw))
    requires TanksInv(w) && WellKeyed(w)
    ensures TanksInv(NextFrame(w, t, union, draw)) && WellKeyed(NextFrame(w, t, union, draw))
  {
    HandleTanksKeepsInv(w, draw);
    HandleTanksKeepsKeys(w, draw);
  }

  /** Animation keeps an effect collection keyed by its objects' keys and below `bound`. */
  lemma AnimateKeepsKeyed(c: Collection<GameObj>, kind: Kind, bound: int)
    requires Valid(c) && Period(kind) > 0
    requires forall k :: k in c.objs ==> c.objs[k].key == k && k < bound
    ensures var r := Animate(c, kind, true);
      forall k :: k in r.objs ==> r.objs[k].key == k && k < bound
  {
  }
}

=== FILE: server_tanks.dfy ===
/** Tank life cycle on the server: spawning at a free spawn point, the per-frame state
    machine of `handleTanks`, and firing. */
module ServerTanks {
  import opened Wrappers
  import opened Geometry
  import opened Objects
  import opened Maps
  import opened GameData
  import opened ServerWorld

  /** Health follows the state: full while starting, positive while fighting, zero once
      dead. */
  predicate TankInv(t: Tank) {
    && (t.state == Start ==> t.health == INITIAL_HEALTH)
    && (t.state == Fight ==> 1 <= t.health <= INITIAL_HEALTH)
    && (t.state == Dead ==> t.health == 0)
  }

  ghost predicate TanksInv(w: World) {
    forall k :: k in w.gameObjs.tanks.objs ==> TankInv(w.gameObjs.tanks.objs[k])
  }

  // ---- findFreeSpawn -----------------------------------------------------------------

  /** The inner loop as written: the spawn is listed once for every tank that is dead or
      does not overlap the spawn's cell. */
  function PerTankAsWritten(spawn: Pos, tanks: seq<Tank>): (r: seq<Pos>)
    ensures |r| <= |tanks|
    ensures forall i :: 0 <= i < |r| ==> r[i] == spawn
  {
    if |tanks| == 0 then []
    else
      var t := tanks[0];
      (if t.state == Dead || !Intersects(BlockRect(spawn), TankRect(t)) then [spawn] else [])
      + PerTankAsWritten(spawn, tanks[1..])
  }

  /** The candidate list `findFreeSpawn` builds as written. */
  function CandidatesAsWritten(spawns: seq<Pos>, tanks: seq<Tank>): (r: seq<Pos>)
    ensures forall i :: 0 <= i < |r| ==> r[i] in spawns
  {
    if |spawns| == 0 then []
    else PerTankAsWritten(spawns[0], tanks) + CandidatesAsWritten(spawns[1..], tanks)
  }

  /** `findFreeSpawn` as written, with `randint` as the draw: a spawn qualifies when SOME
      tank is dead or off it; an empty list falls back to every spawn. */
  function FindFreeSpawnAsWritten(m: GameMap, tanks: seq<Tank>, draw: nat): (r: Pos)
    requires |m.spawns| > 0
    ensures r in m.spawns
  {
    var cands := CandidatesAsWritten(m.spawns, tanks);
    var pool := if |cands| == 0 then m.spawns else cands;
    pool[draw % |pool|]
  }

  /** No live tank overlaps the spawn's cell. */
  predicate SpawnFree(spawn: Pos, tanks: seq<Tank>) {
    forall i :: 0 <= i < |tanks| ==> tanks[i].state == Dead || !Intersects(BlockRect(spawn), TankRect(tanks[i]))
  }

  /** The free spawns, in map order. */
  function FreeSpawns(spawns: seq<Pos>, tanks: seq<Tank>): (r: seq<Pos>)
    ensures forall i :: 0 <= i < |r| ==> r[i] in spawns && SpawnFree(r[i], tanks)
    ensures forall s :: s in spawns && SpawnFree(s, tanks) ==> s in r
  {
    if |spawns| == 0 then []
    else (if SpawnFree(spawns[0], tanks) then [spawns[0]] else []) + FreeSpawns(spawns[1..], tanks)
  }

  /** `findFreeSpawn` as evidently intended: a spawn qualifies when EVERY tank is dead or off
      it; with none free, any spawn may be drawn. */
  function FindFreeSpawn(m: GameMap, tanks: seq<Tank>, draw: nat): (r: Pos)
    requires |m.spawns| > 0
    ensures r in m.spawns
    ensures (exists s :: s in m.spawns && SpawnFree(s, tanks)) ==> SpawnFree(r, tanks)
  {
    var free := FreeSpawns(m.spawns, tanks);
    var pool := if |free| == 0 then m.spawns else free;
    pool[draw % |pool|]
  }

  /** Two live tanks, one on the first spawn and one off both: as written the occupied
      spawn is a candidate (listed for the other tank) and the first draw picks it, while
      the intended rule picks the free one. */
  lemma OccupiedSpawnDrawn()
    ensures var a := Tank(GameObj(1, Pos(5, 5), 0), Up, None, Fight, 0, 0, 4, 0, 0);
      var b := Tank(GameObj(2, Pos(200, 200), 0), Up, None, Fight, 0, 0, 4, 0, 0);
      var m := GameMap(Pos(3, 1), ["   "], [Pos(0, 0), Pos(2, 0)], 0);
      && !SpawnFree(Pos(0, 0), [a, b])
      && FindFreeSpawnAsWritten(m, [a, b], 0) == Pos(0, 0)
      && FindFreeSpawn(m, [a, b], 0) == Pos(2, 0)
  {
    var a := Tank(GameObj(1, Pos(5, 5), 0), Up, None, Fight, 0, 0, 4, 0, 0);
    var b := Tank(GameObj(2, Pos(200, 200), 0), Up, None, Fight, 0, 0, 4, 0, 0);
    assert PerTankAsWritten(Pos(0, 0), [a, b]) == [Pos(0, 0)] by {
      assert [a, b][1..] == [b];
    }
    assert !SpawnFree(Pos(0, 0), [a, b]) by {
      assert Intersects(BlockRect(Pos(0, 0)), TankRect([a, b][0]));
    }
    assert SpawnFree(Pos(2, 0), [a, b]);
    assert [Pos(0, 0), Pos(2, 0)][1..] == [Pos(2, 0)];
    assert FreeSpawns([Pos(2, 0)], [a, b]) == [Pos(2, 0)] by {
      assert [Pos(2, 0)][1..] == [];
    }
    assert FreeSpawns([Pos(0, 0), Pos(2, 0)], [a, b]) == [Pos(2, 0)];
  }

  /** With one tank the two rules list the same spawns. */
  lemma {:induction false} OneTankRulesAgree(spawns: seq<Pos>, tanks: seq<Tank>)
    requires |tanks| == 1
    ensures CandidatesAsWritten(spawns, tanks) == FreeSpawns(spawns, tanks)
  {
    if |spawns| > 0 {
      OneTankRulesAgree(spawns[1..], tanks);
      assert tanks[1..] == [];
    }
  }

  /** With no tanks every spawn is free. */
  lemma {:induction false} NoTanksAllFree(spawns: seq<Pos>)
    ensures FreeSpawns(spawns, []) == spawns
    ensures CandidatesAsWritten(spawns, []) == []
  {
    if |spawns| > 0 {
      NoTanksAllFree(spawns[1..]);
    }
  }

  /** The two rules can differ only once two tanks are in play. */
  lemma FewTanksSameDraw(m: GameMap, tanks: seq<Tank>, draw: nat)
    requires |m.spawns| > 0
    requires |tanks| <= 1
    ensures FindFreeSpawnAsWritten(m, tanks, draw) == FindFreeSpawn(m, tanks, draw)
  {
    if |tanks| == 0 {
      NoTanksAllFree(m.spawns);
    } else {
      OneTankRulesAgree(m.spawns, tanks);
    }
  }

  // ---- spawnTank ---------------------------------------------------------------------

  /** A tank reset at a spawn: centred in the spawn's cell, facing up, starting, with full
      health and fresh counters; key, name and score are kept. */
  predicate Respawned(before: Tank, t: Tank, spawn: Pos) {
    && t == before.(obj := before.obj.(pos := CenteredTo(BlockRect(spawn), Size(TankKind)).pos),
                 heading := Up, state := Start, stateTick := 0, missleTick := 0,
                 health := INITIAL_HEALTH)
  }

  /** `spawnTank(tank)` for the tank stored under `key`. */
  function SpawnTank(w: World, key: int, draw: nat): (r: World)
    requires Valid(w.gameObjs.tanks)
    requires key in w.gameObjs.tanks.objs
    requires |w.gameMap.spawns| > 0
    ensures r.gameMap == w.gameMap && r.nextKey == w.nextKey
    ensures r.gameObjs == w.gameObjs.(tanks := r.gameObjs.tanks)
    ensures Valid(r.gameObjs.tanks)
    ensures r.gameObjs.tanks.order == w.gameObjs.tanks.order
    ensures r.gameObjs.tanks.removed == w.gameObjs.tanks.removed
    ensures r.gameObjs.tanks.objs.Keys == w.gameObjs.tanks.objs.Keys
    ensures forall k :: k in w.gameObjs.tanks.objs && k != key ==>
      r.gameObjs.tanks.objs[k] == w.gameObjs.tanks.objs[k]
    ensures exists s ::
      (s in w.gameMap.spawns && Respawned(w.gameObjs.tanks.objs[key], r.gameObjs.tanks.objs[key], s))
  {
    var tanks := w.gameObjs.tanks;
    var spawn := FindFreeSpawn(w.gameMap, ToList(tanks), draw);
    var rect := CenteredTo(BlockRect(spawn), Size(TankKind));
    var before := tanks.objs[key];
    var t := before.(obj := before.obj.(pos := rect.pos), heading := Up, state := Start,
                  stateTick := 0, missleTick := 0, health := INITIAL_HEALTH);
    assert Respawned(before, t, spawn);
    w.(gameObjs := w.gameObjs.(tanks := tanks.(objs := tanks.objs[key := t])))
  }

  /** A respawned tank stands 5 pixels in from its spawn cell's corner, wholly inside the
      cell, and satisfies the health invariant. */
  lemma RespawnPlacement(before: Tank, t: Tank, spawn: Pos)
    requires Respawned(before, t, spawn)
    ensures t.obj.pos == Geometry.Add(Mul(spawn, BLOCK_SIZE), Pos(5, 5))
    ensures forall p :: Contains(TankRect(t), p) ==> Contains(BlockRect(spawn), p)
    ensures TankInv(t)
  {
    forall p | Contains(TankRect(t), p)
      ensures Contains(BlockRect(spawn), p)
    {
      CenteredToInside(BlockRect(spawn), Size(TankKind), p);
    }
  }

  // ---- handleTanks -------------------------------------------------------------------

  /** One frame of a tank's clocks: both counters advance, and a starting tank whose start
      period has run out begins to fight. */
  function TankTick(t: Tank): (r: Tank)
    ensures r.obj == t.obj && r.heading == t.heading && r.name == t.name
    ensures r.health == t.health && r.fails == t.fails && r.wins == t.wins
    ensures r.missleTick == t.missleTick + 1
    ensures r.state == (if t.state == Start && t.stateTick + 1 > START_DURATION then Fight else t.state)
    ensures r.stateTick == if r.state != t.state then 0 else t.stateTick + 1
  {
    var r := t.(stateTick := t.stateTick + 1, missleTick := t.missleTick + 1);
    if r.state == Start && r.stateTick > START_DURATION then r.(state := Fight, stateTick := 0) else r
  }

  /** A dead tank whose dead period runs out this frame is respawned. */
  predicate DueToRespawn(t: Tank) {
    t.state == Dead && t.stateTick + 1 > DEAD_DURATION
  }

  /** What `handleTanks` does to one tank: a due respawn, or the clocks. */
  predicate TankHandled(before: Tank, t: Tank, spawns: seq<Pos>) {
    if DueToRespawn(before) then exists s :: s in spawns && Respawned(before, t, s)
    else t == TankTick(before)
  }

  /** The body of `handleTanks`'s loop for the tank under `key`. */
  function HandleTank(w: World, key: int, draw: nat): (r: World)
    requires Valid(w.gameObjs.tanks)
    requires key in w.gameObjs.tanks.objs
    requires DueToRespawn(w.gameObjs.tanks.objs[key]) ==> |w.gameMap.spawns| > 0
    ensures r.gameMap == w.gameMap && r.nextKey == w.nextKey
    ensures r.gameObjs == w.gameObjs.(tanks := r.gameObjs.tanks)
    ensures Valid(r.gameObjs.tanks)
    ensures r.gameObjs.tanks.order == w.gameObjs.tanks.order
    ensures r.gameObjs.tanks.removed == w.gameObjs.tanks.removed
    ensures r.gameObjs.tanks.objs.Keys == w.gameObjs.tanks.objs.Keys
    ensures forall k :: k in w.gameObjs.tanks.objs && k != key ==>
      r.gameObjs.tanks.objs[k] == w.gameObjs.tanks.objs[k]
    ensures TankHandled(w.gameObjs.tanks.objs[key], r.gameObjs.tanks.objs[key], w.gameMap.spawns)
  {
    var tanks := w.gameObjs.tanks;
    var before := tanks.objs[key];
    var t := before.(stateTick := before.stateTick + 1, missleTick := before.missleTick + 1);
    var w1 := w.(gameObjs := w.gameObjs.(tanks := tanks.(objs := tanks.objs[key := t])));
    if t.state == Dead && t.stateTick > DEAD_DURATION then
      var r := SpawnTank(w1, key, draw);
      assert forall s :: Respawned(t, r.gameObjs.tanks.objs[key], s) ==> Respawned(before, r.gameObjs.tanks.objs[key], s);
      r
    else if t.state == Start && t.stateTick > START_DURATION then
      w1.(gameObjs := w1.gameObjs.(tanks := tanks.(objs := tanks.objs[key := t.(state := Fight, stateTick := 0)])))
    else w1
  }

  /** `handleTanks`'s loop over the keys `ks`, in order; `draw` supplies each spawn's
      random index, by tank key. */
  function HandleTanksLoop(w: World, ks: seq<int>, draw: int -> nat): (r: World)
    requires Valid(w.gameObjs.tanks)
    requires Distinct(ks)
    requires forall i :: 0 <= i < |ks| ==> ks[i] in w.gameObjs.tanks.objs
    requires |w.gameMap.spawns| > 0 ||
      forall i :: 0 <= i < |ks| ==> !DueToRespawn(w.gameObjs.tanks.objs[ks[i]])
    ensures r.gameMap == w.gameMap && r.nextKey == w.nextKey
    ensures r.gameObjs == w.gameObjs.(tanks := r.gameObjs.tanks)
    ensures Valid(r.gameObjs.tanks)
    ensures r.gameObjs.tanks.order == w.gameObjs.tanks.order
    ensures r.gameObjs.tanks.removed == w.gameObjs.tanks.removed
    ensures r.gameObjs.tanks.objs.Keys == w.gameObjs.tanks.objs.Keys
    ensures forall k :: k in w.gameObjs.tanks.objs && k !in ks ==>
      r.gameObjs.tanks.objs[k] == w.gameObjs.tanks.objs[k]
    ensures forall i :: 0 <= i < |ks| ==>
      TankHandled(w.gameObjs.tanks.objs[ks[i]], r.gameObjs.tanks.objs[ks[i]], w.gameMap.spawns)
    decreases |ks|
  {
    if |ks| == 0 then w
    else
      var w1 := HandleTank(w, ks[0], draw(ks[0]));
      assert forall i :: 0 <= i < |ks| - 1 ==> ks[1..][i] != ks[0];
      var r := HandleTanksLoop(w1, ks[1..], draw);
      assert forall i :: 1 <= i < |ks| ==> ks[i] == ks[1..][i - 1];
      r
  }

  /** `handleTanks()`: every tank in iteration order. The map must have a spawn point if a
      tank is due to respawn (`randint` on an empty range raises). */
  function HandleTanks(w: World, draw: int -> nat): (r: World)
    requires Valid(w.gameObjs.tanks)
    requires |w.gameMap.spawns| > 0 ||
      forall k :: k in w.gameObjs.tanks.objs && k !in w.gameObjs.tanks.removed ==>
        !DueToRespawn(w.gameObjs.tanks.objs[k])
    ensures r.gameMap == w.gameMap && r.nextKey == w.nextKey
    ensures r.gameObjs == w.gameObjs.(tanks := r.gameObjs.tanks)
    ensures Valid(r.gameObjs.tanks)
    ensures VisibleKeys(r.gameObjs.tanks) == VisibleKeys(w.gameObjs.tanks)
    ensures r.gameObjs.tanks.objs.Keys == w.gameObjs.tanks.objs.Keys
    ensures forall k :: k in w.gameObjs.tanks.objs && k in w.gameObjs.tanks.removed ==>
      r.gameObjs.tanks.objs[k] == w.gameObjs.tanks.objs[k]
    ensures forall k :: k in w.gameObjs.tanks.objs && k !in w.gameObjs.tanks.removed ==>
      TankHandled(w.gameObjs.tanks.objs[k], r.gameObjs.tanks.objs[k], w.gameMap.spawns)
  {
    var c := w.gameObjs.tanks;
    var ks := VisibleKeys(c);
    assert forall i :: 0 <= i < |ks| ==> ks[i] in c.objs && ks[i] !in c.removed by {
      forall i | 0 <= i < |ks|
        ensures ks[i] in c.objs && ks[i] !in c.removed
      {
        assert ks[i] in ks;
      }
    }
    var r := HandleTanksLoop(w, ks, draw);
    forall k | k in c.objs && k !in c.removed
      ensures TankHandled(c.objs[k], r.gameObjs.tanks.objs[k], w.gameMap.spawns)
    {
      VisibleKeysSpec(c, k);
      var i :| 0 <= i < |ks| && ks[i] == k;
    }
    r
  }

  /** `handleTanks` keeps the health invariant. */
  lemma HandleTanksKeepsInv(w: World, draw: int -> nat)
    requires Valid(w.gameObjs.tanks)
    requires |w.gameMap.spawns| > 0 ||
      forall k :: k in w.gameObjs.tanks.objs && k !in w.gameObjs.tanks.removed ==>
        !DueToRespawn(w.gameObjs.tanks.objs[k])
    requires TanksInv(w)
    ensures TanksInv(HandleTanks(w, draw))
  {
    var r := HandleTanks(w, draw);
    forall k | k in r.gameObjs.tanks.objs
      ensures TankInv(r.gameObjs.tanks.objs[k])
    {
      var before := w.gameObjs.tanks.objs[k];
      if k !in w.gameObjs.tanks.removed && DueToRespawn(before) {
        var s :| s in w.gameMap.spawns && Respawned(before, r.gameObjs.tanks.objs[k], s);
        RespawnPlacement(before, r.gameObjs.tanks.objs[k], s);
      }
    }
  }

  /** `handleTanks` keeps every tank under its own key. */
  lemma HandleTanksKeepsKeys(w: World, draw: int -> nat)
    requires Valid(w.gameObjs.tanks)
    requires |w.gameMap.spawns| > 0 ||
      forall k :: k in w.gameObjs.tanks.objs && k !in w.gameObjs.tanks.removed ==>
        !DueToRespawn(w.gameObjs.tanks.objs[k])
    requires WellKeyed(w)
    ensures WellKeyed(HandleTanks(w, draw))
  {
    var r := HandleTanks(w, draw);
    forall k | k in r.gameObjs.tanks.objs
      ensures r.gameObjs.tanks.objs[k].obj.key == k
    {
      var before := w.gameObjs.tanks.objs[k];
      if k !in w.gameObjs.tanks.removed && DueToRespawn(before) {
        var s :| s in w.gameMap.spawns && Respawned(before, r.gameObjs.tanks.objs[k], s);
      }
    }
  }

  /** `n` frames of a tank's clocks. */
  function TankTicks(t: Tank, n: nat): Tank {
    if n == 0 then t else TankTick(TankTicks(t, n - 1))
  }

  /** A tank (re)spawned with a zero clock keeps starting for `START_DURATION` (120) frames
      and fights from the next one, its clock reset. */
  lemma {:induction false} StartPeriod(t: Tank, n: nat)
    requires t.state == Start && t.stateTick == 0
    requires n <= START_DURATION + 1
    ensures n <= START_DURATION ==> TankTicks(t, n).state == Start && TankTicks(t, n).stateTick == n
    ensures n == START_DURATION + 1 ==> TankTicks(t, n).state == Fight && TankTicks(t, n).stateTick == 0
  {
    if n > 0 {
      StartPeriod(t, n - 1);
    }
  }

  /** A tank killed with a zero clock stays dead for `DEAD_DURATION` (180) frames and is due
      to respawn in the next one. */
  lemma {:induction false} DeadPeriod(t: Tank, n: nat)
    requires t.state == Dead && t.stateTick == 0
    requires n <= DEAD_DURATION
    ensures TankTicks(t, n).state == Dead && TankTicks(t, n).stateTick == n
    ensures DueToRespawn(TankTicks(t, n)) <==> n == DEAD_DURATION
  {
    if n > 0 {
      DeadPeriod(t, n - 1);
    }
  }

  // ---- shootMissle -------------------------------------------------------------------

  /** The firing rule: a tank that is not dead may fire once its missile clock passes
      `MISSLE_DELAY` (30 frames). */
  predicate CanFire(t: Tank) {
    t.state != Dead && t.missleTick > MISSLE_DELAY
  }

  /** `shootMissle(tank)` for the tank stored under `key`: a new missile (under a fresh key)
      and a reset missile clock, or nothing. A key not in the world leaves it unchanged. */
  function ShootMissle(w: World, key: int): (r: World)
    requires Valid(w.gameObjs.tanks) && Valid(w.gameObjs.missles)
    ensures r.gameMap == w.gameMap
    ensures Valid(r.gameObjs.tanks) && Valid(r.gameObjs.missles)
    ensures r.gameObjs.punches == w.gameObjs.punches && r.gameObjs.booms == w.gameObjs.booms
    ensures key in w.gameObjs.tanks.objs && CanFire(w.gameObjs.tanks.objs[key]) ==>
      && r.nextKey == w.nextKey + 1
      && r.gameObjs.missles == Objects.Add(w.gameObjs.missles, w.nextKey, NewMissle(w.nextKey, w.gameObjs.tanks.objs[key]))
      && r.gameObjs.tanks == Objects.Add(w.gameObjs.tanks, key, w.gameObjs.tanks.objs[key].(missleTick := 0))
    ensures !(key in w.gameObjs.tanks.objs && CanFire(w.gameObjs.tanks.objs[key])) ==> r == w
  {
    if key in w.gameObjs.tanks.objs && CanFire(w.gameObjs.tanks.objs[key]) then
      var t := w.gameObjs.tanks.objs[key];
      var m := NewMissle(w.nextKey, t);
      World(w.gameMap,
            w.gameObjs.(tanks := Objects.Add(w.gameObjs.tanks, key, t.(missleTick := 0)),
                        missles := Objects.Add(w.gameObjs.missles, w.nextKey, m)),
            w.nextKey + 1)
    else w
  }

  /** After a shot the tank cannot fire again for `MISSLE_DELAY` frames; it can on the
      next. */
  lemma {:induction false} FireRate(t: Tank, n: nat)
    requires t.state == Fight && t.missleTick == 0
    ensures TankTicks(t, n).missleTick == n
    ensures TankTicks(t, n).state == Fight
    ensures CanFire(TankTicks(t, n)) <==> n > MISSLE_DELAY
  {
    if n > 0 {
      FireRate(t, n - 1);
    }
  }

  /** Firing keeps every object under its own key, below the allocator, and the health
      invariant. */
  lemma ShootKeepsInvariants(w: World, key: int)
    requires WellKeyed(w) && TanksInv(w)
    ensures WellKeyed(ShootMissle(w, key)) && TanksInv(ShootMissle(w, key))
  {
    if key in w.gameObjs.tanks.objs && CanFire(w.gameObjs.tanks.objs[key]) {
      var t := w.gameObjs.tanks.objs[key];
      var m := NewMissle(w.nextKey, t);
      assert t.obj.key == key && TankInv(t);
      AddStores(w.gameObjs.tanks, key, t.(missleTick := 0));
      AddStores(w.gameObjs.missles, w.nextKey, m);
      var r := ShootMissle(w, key);
      FireKeepsInvariants(w, r, key, t.(missleTick := 0), m);
    }
  }

  /** A world that differs from a well-keyed one by a re-stored tank and a missile under
      the allocator's key, with the allocator moved past it, is well keyed. */
  lemma FireKeepsInvariants(w: World, r: World, key: int, t: Tank, m: Missle)
    requires WellKeyed(w) && TanksInv(w)
    requires key in w.gameObjs.tanks.objs && t.obj.key == key && TankInv(t) && m.obj.key == w.nextKey
    requires Valid(r.gameObjs.tanks) && Valid(r.gameObjs.missles) && r.nextKey == w.nextKey + 1
    requires r.gameObjs.punches == w.gameObjs.punches && r.gameObjs.booms == w.gameObjs.booms
    requires r.gameObjs.tanks.objs == w.gameObjs.tanks.objs[key := t]
    requires r.gameObjs.missles.objs == w.gameObjs.missles.objs[w.nextKey := m]
    ensures WellKeyed(r) && TanksInv(r)
  {
  }

  /** What `Add` stores. */
  lemma AddStores<T>(c: Collection<T>, key: int, obj: T)
    requires Valid(c)
    ensures Objects.Add(c, key, obj).objs == c.objs[key := obj]
  {
  }
}

=== FILE: server_world.dfy ===
/** The server's world: the map, the object collections and a key allocator, with the
    collision queries and the one-step movement every directed object uses. */
module ServerWorld {
  import opened Wrappers
  import opened PyInt
  import opened Geometry
  import opened Objects
  import opened Maps
  import opened GameData

  /** The map symbol classes server.py reads from the map class (`CONCRETE`, `BRICKS`,
      `TOWER`, `WATER`, `GROUND`); gamemap.py defines none of them, so they are parameters.
      `bricks` lists the brick symbols from intact to most worn. */
  datatype Terrain = Terrain(concrete: string, bricks: string, tower: string, water: string, ground: char)

  /** Bricks wear through distinct symbols, and worn-out ground is not itself brick. */
  predicate ValidTerrain(t: Terrain) {
    && |t.bricks| > 0
    && (forall i, j :: 0 <= i < j < |t.bricks| ==> t.bricks[i] != t.bricks[j])
    && t.ground !in t.bricks
  }

  /** The server state. Python keys objects by `id()`; here fresh keys come from `nextKey`. */
  datatype World = World(gameMap: GameMap, gameObjs: GameObjs, nextKey: int)

  /** Every stored object is keyed by its own key, and every key is below the allocator. */
  ghost predicate WellKeyed(w: World) {
    && KeysAgree(w.gameObjs)
    && (forall k :: k in w.gameObjs.tanks.objs ==> k < w.nextKey)
    && (forall k :: k in w.gameObjs.missles.objs ==> k < w.nextKey)
    && (forall k :: k in w.gameObjs.punches.objs ==> k < w.nextKey)
    && (forall k :: k in w.gameObjs.booms.objs ==> k < w.nextKey)
  }

  /** What `checkCollision` reports: a map cell or a tank (by key). */
  datatype Collision = Cell(cell: Pos) | TankHit(key: int)

  /** `getBlockRect(cell)`, assumed to be the cell's square in pixels. */
  function BlockRect(cell: Pos): Box {
    Box(Mul(cell, BLOCK_SIZE), BLOCK_SIZE)
  }

  /** The index of the first key from `from` on whose object satisfies `hit`. */
  function FirstHit<T>(ks: seq<int>, objs: map<int, T>, hit: T -> bool, from: nat): (r: Option<nat>)
    requires forall i :: 0 <= i < |ks| ==> ks[i] in objs
    requires from <= |ks|
    ensures r.Some? ==> from <= r.value < |ks| && hit(objs[ks[r.value]])
    ensures r.Some? ==> forall j :: from <= j < r.value ==> !hit(objs[ks[j]])
    ensures r.None? ==> forall j :: from <= j < |ks| ==> !hit(objs[ks[j]])
    decreases |ks| - from
  {
    if from == |ks| then None
    else if hit(objs[ks[from]]) then Some(from)
    else FirstHit(ks, objs, hit, from + 1)
  }

  /** The first object, in iteration order, that satisfies `hit`, by key. */
  function FirstVisible<T>(c: Collection<T>, hit: T -> bool): (r: Option<int>)
    requires Valid(c)
    ensures r.Some? ==> r.value in c.objs && r.value !in c.removed && hit(c.objs[r.value])
    ensures r.Some? ==> exists i :: 0 <= i < |VisibleKeys(c)| && VisibleKeys(c)[i] == r.value &&
                                    forall j :: 0 <= j < i ==> !hit(c.objs[VisibleKeys(c)[j]])
    ensures r.None? <==> forall k :: k in c.objs && k !in c.removed ==> !hit(c.objs[k])
  {
    var ks := VisibleKeys(c);
    assert forall i :: 0 <= i < |ks| ==> ks[i] in c.objs by {
      forall i | 0 <= i < |ks|
        ensures ks[i] in c.objs
      {
        assert ks[i] in ks;
      }
    }
    var i := FirstHit(ks, c.objs, hit, 0);
    if i.None? then
      assert forall k :: k in c.objs && k !in c.removed ==> k in ks && !hit(c.objs[k]) by {
        forall k | k in c.objs && k !in c.removed
          ensures k in ks && !hit(c.objs[k])
        {
          VisibleKeysSpec(c, k);
          var j :| 0 <= j < |ks| && ks[j] == k;
        }
      }
      None
    else
      assert ks[i.value] in ks;
      Some(ks[i.value])
  }

  /** `getObjectAtPos(pos, objs)`: the first object whose box contains the point. */
  function GetObjectAtPos<T>(pos: Pos, c: Collection<T>, rect: T -> Box): (r: Option<int>)
    requires Valid(c)
    ensures r.Some? ==> r.value in c.objs && r.value !in c.removed && Contains(rect(c.objs[r.value]), pos)
    ensures r.Some? ==> exists i :: 0 <= i < |VisibleKeys(c)| && VisibleKeys(c)[i] == r.value &&
                                    forall j :: 0 <= j < i ==> !Contains(rect(c.objs[VisibleKeys(c)[j]]), pos)
    ensures r.None? <==> forall k :: k in c.objs && k !in c.removed ==> !Contains(rect(c.objs[k]), pos)
  {
    FirstVisible(c, (t: T) => Contains(rect(t), pos))
  }

  /** `getObjectInBox(o, objs)`: the first other object (by key) overlapping `box`. */
  function GetObjectInBox<T>(key: int, box: Box, c: Collection<T>, keyOf: T -> int, rect: T -> Box)
    : (r: Option<int>)
    requires Valid(c)
    ensures r.Some? ==> r.value in c.objs && r.value !in c.removed
    ensures r.Some? ==> keyOf(c.objs[r.value]) != key && Intersects(box, rect(c.objs[r.value]))
    ensures r.Some? ==> exists i :: 0 <= i < |VisibleKeys(c)| && VisibleKeys(c)[i] == r.value &&
                                    forall j :: 0 <= j < i ==> var o := c.objs[VisibleKeys(c)[j]];
                                      keyOf(o) == key || !Intersects(box, rect(o))
    ensures r.None? <==> forall k :: k in c.objs && k !in c.removed ==>
                           keyOf(c.objs[k]) == key || !Intersects(box, rect(c.objs[k]))
  {
    FirstVisible(c, (t: T) => keyOf(t) != key && Intersects(box, rect(t)))
  }

  /** The symbols that stop movement: concrete, brick and tower always, water when asked. */
  predicate Blocking(t: Terrain, block: char, considerWater: bool) {
    block in t.concrete + t.bricks + t.tower || (considerWater && block in t.water)
  }

  /** The map cell a pixel lies in. */
  function CellOf(pos: Pos): Pos {
    Div(pos, BLOCK_SIZE)
  }

  /** The tank at position `i` of the iteration order is the first whose box holds `pos`. */
  ghost predicate FirstTankAt(c: Collection<Tank>, pos: Pos, i: int)
    requires Valid(c)
  {
    var ks := VisibleKeys(c);
    VisibleKeysStored(c);
    && 0 <= i < |ks|
    && Contains(TankRect(c.objs[ks[i]]), pos)
    && forall j :: 0 <= j < i ==> !Contains(TankRect(c.objs[ks[j]]), pos)
  }

  /** The first tank at `pos` sits at position `i` and is not dead. */
  ghost predicate FirstTankIsLive(c: Collection<Tank>, pos: Pos, i: int)
    requires Valid(c)
  {
    VisibleKeysStored(c);
    FirstTankAt(c, pos, i) && c.objs[VisibleKeys(c)[i]].state != Dead
  }

  /** Every key iteration visits is stored and not pending removal. */
  lemma VisibleKeysStored<T>(c: Collection<T>)
    requires Valid(c)
    ensures forall i :: 0 <= i < |VisibleKeys(c)| ==> VisibleKeys(c)[i] in c.objs && VisibleKeys(c)[i] !in c.removed
  {
    var ks := VisibleKeys(c);
    forall i | 0 <= i < |ks|
      ensures ks[i] in c.objs && ks[i] !in c.removed
    {
      assert ks[i] in ks;
    }
  }

  /** There is only one first tank at a point. */
  lemma FirstTankAtUnique(c: Collection<Tank>, pos: Pos, i: int, j: int)
    requires Valid(c) && FirstTankAt(c, pos, i) && FirstTankAt(c, pos, j)
    ensures i == j
  {
  }

  /** `getObjectAtPos` over the tanks finds the first tank at the point, whenever there is one. */
  lemma TankAtPos(c: Collection<Tank>, pos: Pos)
    requires Valid(c)
    ensures var hit := GetObjectAtPos(pos, c, TankRect);
      && (hit.Some? ==> exists i :: FirstTankAt(c, pos, i) && VisibleKeys(c)[i] == hit.value)
      && (forall i :: FirstTankAt(c, pos, i) ==> hit == Some(VisibleKeys(c)[i]))
  {
    var hit := GetObjectAtPos(pos, c, TankRect);
    var ks := VisibleKeys(c);
    forall i | FirstTankAt(c, pos, i)
      ensures hit == Some(ks[i])
    {
      assert ks[i] in ks;
      if hit.Some? {
        var i' :| 0 <= i' < |ks| && ks[i'] == hit.value &&
                  forall j :: 0 <= j < i' ==> !Contains(TankRect(c.objs[ks[j]]), pos);
        assert FirstTankAt(c, pos, i');
        FirstTankAtUnique(c, pos, i, i');
      }
    }
  }

  /** The first tank at the point is reported exactly when it is alive. */
  lemma LiveTankAtPos(c: Collection<Tank>, pos: Pos)
    requires Valid(c)
    ensures var hit := GetObjectAtPos(pos, c, TankRect);
      && (hit.Some? ==> exists i :: FirstTankAt(c, pos, i) && VisibleKeys(c)[i] == hit.value)
      && ((hit.Some? && c.objs[hit.value].state != Dead) <==> exists i :: FirstTankIsLive(c, pos, i))
  {
    var hit := GetObjectAtPos(pos, c, TankRect);
    TankAtPos(c, pos);
    if hit.Some? && c.objs[hit.value].state != Dead {
      var i :| FirstTankAt(c, pos, i) && VisibleKeys(c)[i] == hit.value;
      assert FirstTankIsLive(c, pos, i);
    }
  }

  /** `checkCollision` as written: the map cell first, then the first tank whose box holds
      the point, which is ignored when that tank is dead. */
  function CheckCollisionAsWritten(w: World, t: Terrain, pos: Pos, considerWater: bool): (r: Option<Collision>)
    requires Valid(w.gameObjs.tanks)
    requires InBounds(w.gameMap, CellOf(pos))
    ensures Blocking(t, GetBlock(w.gameMap, CellOf(pos)), considerWater) <==> r == Some(Cell(CellOf(pos)))
    ensures r.Some? && r.value.TankHit? ==>
      var k := r.value.key;
      k in w.gameObjs.tanks.objs && k !in w.gameObjs.tanks.removed &&
      Contains(TankRect(w.gameObjs.tanks.objs[k]), pos) && w.gameObjs.tanks.objs[k].state != Dead
    ensures r.Some? && r.value.TankHit? ==>
      exists i :: FirstTankAt(w.gameObjs.tanks, pos, i) && VisibleKeys(w.gameObjs.tanks)[i] == r.value.key
    ensures !Blocking(t, GetBlock(w.gameMap, CellOf(pos)), considerWater) ==>
      (r.Some? <==> exists i :: FirstTankIsLive(w.gameObjs.tanks, pos, i))
  {
    var cell := CellOf(pos);
    if Blocking(t, GetBlock(w.gameMap, cell), considerWater) then Some(Cell(cell))
    else
      var hit := GetObjectAtPos(pos, w.gameObjs.tanks, TankRect);
      LiveTankAtPos(w.gameObjs.tanks, pos);
      if hit.Some? && w.gameObjs.tanks.objs[hit.value].state != Dead then Some(TankHit(hit.value))
      else None
  }

  /** A live tank the point lies in. */
  predicate LiveTankAt(tank: Tank, pos: Pos) {
    Contains(TankRect(tank), pos) && tank.state != Dead
  }

  /** `checkCollision` as evidently intended: dead tanks are passed over, so a live tank
      counts wherever it stands in the iteration order. */
  function CheckCollision(w: World, t: Terrain, pos: Pos, considerWater: bool): (r: Option<Collision>)
    requires Valid(w.gameObjs.tanks)
    requires InBounds(w.gameMap, CellOf(pos))
    ensures Blocking(t, GetBlock(w.gameMap, CellOf(pos)), considerWater) <==> r == Some(Cell(CellOf(pos)))
    ensures r.Some? && r.value.TankHit? ==>
      var k := r.value.key;
      k in w.gameObjs.tanks.objs && k !in w.gameObjs.tanks.removed &&
      LiveTankAt(w.gameObjs.tanks.objs[k], pos)
    ensures r.Some? && r.value.TankHit? ==>
      var ks := VisibleKeys(w.gameObjs.tanks);
      exists i :: 0 <= i < |ks| && ks[i] == r.value.key &&
                  forall j :: 0 <= j < i ==> !LiveTankAt(w.gameObjs.tanks.objs[ks[j]], pos)
    ensures r.None? <==>
      && !Blocking(t, GetBlock(w.gameMap, CellOf(pos)), considerWater)
      && forall k :: k in w.gameObjs.tanks.objs && k !in w.gameObjs.tanks.removed ==>
           !LiveTankAt(w.gameObjs.tanks.objs[k], pos)
  {
    var cell := CellOf(pos);
    if Blocking(t, GetBlock(w.gameMap, cell), considerWater) then Some(Cell(cell))
    else
      var hit := FirstVisible(w.gameObjs.tanks, (tank: Tank) => LiveTankAt(tank, pos));
      if hit.Some? then Some(TankHit(hit.value)) else None
  }

  /** No dead tank at `pos` comes before a live one at `pos` in iteration order. */
  ghost predicate NoDeadAhead(c: Collection<Tank>, pos: Pos)
    requires Valid(c)
  {
    var ks := VisibleKeys(c);
    VisibleKeysStored(c);
    forall i, j :: 0 <= i < j < |ks| && Contains(TankRect(c.objs[ks[i]]), pos) && c.objs[ks[i]].state == Dead ==>
      !LiveTankAt(c.objs[ks[j]], pos)
  }

  /** The two collision rules differ only where a dead tank comes ahead of a live one. */
  lemma CollisionRulesAgree(w: World, t: Terrain, pos: Pos, considerWater: bool)
    requires Valid(w.gameObjs.tanks)
    requires InBounds(w.gameMap, CellOf(pos))
    requires NoDeadAhead(w.gameObjs.tanks, pos)
    ensures CheckCollisionAsWritten(w, t, pos, considerWater) == CheckCollision(w, t, pos, considerWater)
  {
    var a := CheckCollisionAsWritten(w, t, pos, considerWater);
    var b := CheckCollision(w, t, pos, considerWater);
    var c := w.gameObjs.tanks;
    var ks := VisibleKeys(c);
    VisibleKeysStored(c);
    if !Blocking(t, GetBlock(w.gameMap, CellOf(pos)), considerWater) && b.Some? {
      var i :| 0 <= i < |ks| && ks[i] == b.value.key &&
               forall j :: 0 <= j < i ==> !LiveTankAt(c.objs[ks[j]], pos);
      forall j | 0 <= j < i
        ensures !Contains(TankRect(c.objs[ks[j]]), pos)
      {
        assert !LiveTankAt(c.objs[ks[j]], pos);
      }
      assert FirstTankIsLive(c, pos, i);
      var i' :| FirstTankAt(c, pos, i') && ks[i'] == a.value.key;
      FirstTankAtUnique(c, pos, i, i');
    }
  }

  /** A dead tank ahead of a live one in iteration order hides it: the as-written check
      lets the point through where the live tank stands. */
  lemma DeadTankHidesLiveTank()
    ensures var dead := Tank(GameObj(1, Pos(0, 0), 0), Up, None, Dead, 0, 0, 0, 1, 0);
      var live := Tank(GameObj(2, Pos(0, 0), 0), Up, None, Fight, 0, 0, 4, 0, 0);
      var w := World(GameMap(Pos(1, 1), [" "], [], 0),
                     GameObjs(Collection(map[1 := dead, 2 := live], [1, 2], {}), Empty(), Empty(), Empty()),
                     3);
      var t := Terrain("#", "%", "T", "~", ' ');
      && CheckCollisionAsWritten(w, t, Pos(5, 5), false) == None
      && CheckCollision(w, t, Pos(5, 5), false) == Some(TankHit(2))
  {
    var dead := Tank(GameObj(1, Pos(0, 0), 0), Up, None, Dead, 0, 0, 0, 1, 0);
    var live := Tank(GameObj(2, Pos(0, 0), 0), Up, None, Fight, 0, 0, 4, 0, 0);
    var tanks := Collection(map[1 := dead, 2 := live], [1, 2], {});
    assert VisibleKeys(tanks) == [1, 2] by {
      WithoutNothing([1, 2]);
    }
    assert FirstHit([1, 2], tanks.objs, (tank: Tank) => Contains(TankRect(tank), Pos(5, 5)), 0) == Some(0);
    assert FirstHit([1, 2], tanks.objs, (tank: Tank) => LiveTankAt(tank, Pos(5, 5)), 0) == Some(1);
  }

  /** The two corners of the leading edge of a box of `size` at `pos` facing `heading`. */
  function Probes(pos: Pos, size: int, heading: Direction): (Pos, Pos) {
    match heading
    case Left => (Pos(pos.x, pos.y), Pos(pos.x, pos.y + size - 1))
    case Right => (Pos(pos.x + size - 1, pos.y), Pos(pos.x + size - 1, pos.y + size - 1))
    case Up => (Pos(pos.x, pos.y), Pos(pos.x + size - 1, pos.y))
    case Down => (Pos(pos.x, pos.y + size - 1), Pos(pos.x + size - 1, pos.y + size - 1))
  }

  /** Both probe points of a step lie on the map. */
  predicate ProbesInBounds(m: GameMap, kind: Kind, pos: Pos, heading: Direction)
    requires IsDirected(kind)
  {
    var (p1, p2) := Probes(Move(pos, heading, Velocity(kind)), Size(kind), heading);
    InBounds(m, CellOf(p1)) && InBounds(m, CellOf(p2))
  }

  /** The outcome of one step forward: the new position, or what stopped it. */
  datatype Step = Advanced(pos: Pos) | Blocked(collided: Collision)

  /** The forward part of `moveObject`: the object moves `VELOCITY` along its heading unless
      a leading corner of the moved box collides; the first corner is checked first. */
  function Advance(w: World, t: Terrain, kind: Kind, pos: Pos, heading: Direction, considerWater: bool)
    : (r: Step)
    requires IsDirected(kind)
    requires Valid(w.gameObjs.tanks)
    requires ProbesInBounds(w.gameMap, kind, pos, heading)
    ensures var next := Move(pos, heading, Velocity(kind));
      var (p1, p2) := Probes(next, Size(kind), heading);
      && (r.Advanced? <==>
            CheckCollision(w, t, p1, considerWater).None? && CheckCollision(w, t, p2, considerWater).None?)
      && (r.Advanced? ==> r.pos == next)
      && (r.Blocked? && CheckCollision(w, t, p1, considerWater).Some? ==>
            r.collided == CheckCollision(w, t, p1, considerWater).value)
      && (r.Blocked? && CheckCollision(w, t, p1, considerWater).None? ==>
            r.collided == CheckCollision(w, t, p2, considerWater).value)
    ensures r.Blocked? && r.collided.Cell? ==> InBounds(w.gameMap, r.collided.cell)
    ensures r.Blocked? && r.collided.TankHit? ==> r.collided.key in w.gameObjs.tanks.objs
  {
    var next := Move(pos, heading, Velocity(kind));
    var (p1, p2) := Probes(next, Size(kind), heading);
    var c1 := CheckCollision(w, t, p1, considerWater);
    var c := if c1.None? then CheckCollision(w, t, p2, considerWater) else c1;
    if c.Some? then Blocked(c.value) else Advanced(next)
  }

  /** The forward step with `checkCollision` as written at both corners. */
  function AdvanceAsWritten(w: World, t: Terrain, kind: Kind, pos: Pos, heading: Direction, considerWater: bool)
    : (r: Step)
    requires IsDirected(kind)
    requires Valid(w.gameObjs.tanks)
    requires ProbesInBounds(w.gameMap, kind, pos, heading)
    ensures var next := Move(pos, heading, Velocity(kind));
      var (p1, p2) := Probes(next, Size(kind), heading);
      && (r.Advanced? <==>
            CheckCollisionAsWritten(w, t, p1, considerWater).None? &&
            CheckCollisionAsWritten(w, t, p2, considerWater).None?)
      && (r.Advanced? ==> r.pos == next)
      && (r.Blocked? && CheckCollisionAsWritten(w, t, p1, considerWater).Some? ==>
            r.collided == CheckCollisionAsWritten(w, t, p1, considerWater).value)
      && (r.Blocked? && CheckCollisionAsWritten(w, t, p1, considerWater).None? ==>
            r.collided == CheckCollisionAsWritten(w, t, p2, considerWater).value)
  {
    var next := Move(pos, heading, Velocity(kind));
    var (p1, p2) := Probes(next, Size(kind), heading);
    var c1 := CheckCollisionAsWritten(w, t, p1, considerWater);
    var c := if c1.None? then CheckCollisionAsWritten(w, t, p2, considerWater) else c1;
    if c.Some? then Blocked(c.value) else Advanced(next)
  }

  /** The step is the same under both collision rules unless a dead tank stands ahead of a
      live one at a corner. */
  lemma AdvanceRulesAgree(w: World, t: Terrain, kind: Kind, pos: Pos, heading: Direction, considerWater: bool)
    requires IsDirected(kind)
    requires Valid(w.gameObjs.tanks)
    requires ProbesInBounds(w.gameMap, kind, pos, heading)
    requires var (p1, p2) := Probes(Move(pos, heading, Velocity(kind)), Size(kind), heading);
      NoDeadAhead(w.gameObjs.tanks, p1) && NoDeadAhead(w.gameObjs.tanks, p2)
    ensures AdvanceAsWritten(w, t, kind, pos, heading, considerWater) == Advance(w, t, kind, pos, heading, considerWater)
  {
    var (p1, p2) := Probes(Move(pos, heading, Velocity(kind)), Size(kind), heading);
    CollisionRulesAgree(w, t, p1, considerWater);
    CollisionRulesAgree(w, t, p2, considerWater);
  }

  /** The outcome of `moveObject`: a turn, a step, or a collision. */
  datatype MoveResult = Turned(heading: Direction) | Stepped(step: Step)

  /** `moveObject(obj, considerWater, dir)`: a requested direction other than the current
      heading only turns the object; otherwise it tries one step forward. */
  function MoveObject(w: World, t: Terrain, kind: Kind, pos: Pos, heading: Direction, considerWater: bool,
                      dir: Option<Direction>): (r: MoveResult)
    requires IsDirected(kind)
    requires Valid(w.gameObjs.tanks)
    requires dir.None? || dir.value == heading ==> ProbesInBounds(w.gameMap, kind, pos, heading)
    ensures r.Turned? <==> dir.Some? && dir.value != heading
    ensures r.Turned? ==> r.heading == dir.value
    ensures r.Stepped? ==> r.step == Advance(w, t, kind, pos, heading, considerWater)
  {
    if dir.Some? && dir.value != heading then Turned(dir.value)
    else Stepped(Advance(w, t, kind, pos, heading, considerWater))
  }

  /** The probes sit inside the moved box and outside the box before the step (one step is
      at least one pixel), so an object never collides with its own old position. */
  lemma ProbesLead(kind: Kind, pos: Pos, heading: Direction)
    requires IsDirected(kind)
    ensures var next := Move(pos, heading, Velocity(kind));
      var (p1, p2) := Probes(next, Size(kind), heading);
      && Contains(Box(next, Size(kind)), p1) && Contains(Box(next, Size(kind)), p2)
      && !Contains(Box(pos, Size(kind)), p1) && !Contains(Box(pos, Size(kind)), p2)
  {
  }

  /** The probes are the two ends of the moved box's leading edge: both lie on the edge
      line and span the whole side. */
  lemma ProbesSpanLeadingEdge(kind: Kind, pos: Pos, heading: Direction)
    requires IsDirected(kind)
    ensures var next := Move(pos, heading, Velocity(kind));
      var (p1, p2) := Probes(next, Size(kind), heading);
      var s := Size(kind) - 1;
      && (heading == Left ==> p1.x == p2.x == next.x && p2.y - p1.y == s)
      && (heading == Right ==> p1.x == p2.x == next.x + s && p2.y - p1.y == s)
      && (heading == Up ==> p1.y == p2.y == next.y && p2.x - p1.x == s)
      && (heading == Down ==> p1.y == p2.y == next.y + s && p2.x - p1.x == s)
  {
  }

  /** A tank standing in the world never blocks its own step: the check finds no live tank
      at a probe unless some other tank is there. */
  lemma OwnBoxNeverBlocks(w: World, t: Terrain, key: int, considerWater: bool)
    requires Valid(w.gameObjs.tanks)
    requires key in w.gameObjs.tanks.objs
    requires ProbesInBounds(w.gameMap, TankKind, w.gameObjs.tanks.objs[key].obj.pos,
                            w.gameObjs.tanks.objs[key].heading)
    ensures var tank := w.gameObjs.tanks.objs[key];
      var r := Advance(w, t, TankKind, tank.obj.pos, tank.heading, considerWater);
      r.Blocked? && r.collided.TankHit? ==> r.collided.key != key
  {
    var tank := w.gameObjs.tanks.objs[key];
    ProbesLead(TankKind, tank.obj.pos, tank.heading);
  }

  /** Whether a step's probes are on the map depends only on the map's shape. */
  lemma ProbesInBoundsSameShape(a: GameMap, b: GameMap, kind: Kind, pos: Pos, heading: Direction)
    requires IsDirected(kind)
    requires SameShape(a, b)
    ensures ProbesInBounds(a, kind, pos, heading) <==> ProbesInBounds(b, kind, pos, heading)
  {
  }
}

=== FILE: wrappers.dfy ===
/** Failure-carrying datatypes shared by the whole model. A Python exception that the
    modelled code lets escape becomes an `Err` carrying the exception's name. */
module Wrappers {

  /** A value that may be absent (Python's `None`). */
  datatype Option<+T> = None | Some(value: T)

  /** The outcome of a computation that may raise. */
  datatype Result<+T> = Ok(value: T) | Err(error: string) {
    predicate IsFailure() {
      Err?
    }

    function PropagateFailure<U>(): Result<U>
      requires Err?
    {
      Err(error)
    }

    function Extract(): T
      requires Ok?
    {
      value
    }
  }
}
